=== FILE: README.md ===
# CarSimulationNetworked protocol core in Dafny

A model of the networking core of CarSimulationNetworked. That project is a
Unity car simulation in two halves:

- The **server** runs the physics.
- The **client** steers the car and shows what the server sends back.

The two halves talk over two channels:

- **TCP control channel.** It carries the HELLO/WELCOME handshake, the
  one-shot commands (SetGear, ToggleHeadlights, SetIndicator, SetCameraFocus,
  ResetCar), server notices, and a client ping.
- **UDP channels.** INPUT datagrams go from client to server, and STATE
  datagrams come back.

Every packet is a 9-byte little-endian header (type, sequence number,
millisecond timestamp, payload length) followed by the payload. A packet is at
most 1400 bytes. Network threads hand their data to the single-threaded Unity
`Update` through fixed-capacity ring buffers.

The model has one module per source file:

| module | models |
|---|---|
| `ByteCodec` | little-endian primitives, strings and the header |
| `MessageTypes` | the message, camera-part and indicator codes |
| `NetConfig`, `StopwatchTime` | the default configuration and the 32-bit millisecond clock |
| `Protocol` | every message serializer and deserializer |
| `RingBuffer` | the bounded FIFO |
| `Framing` | the TCP receive loop's framing |
| `TcpSend` | the outbound queue and send loop shared by both TCP peers |
| `TcpServerPeer`, `TcpClientPeer` | the two TCP peers |
| `UdpServerPeer`, `UdpClientPeer` | the two UDP peers |
| `ServerSimulation` | the parts of the simulation controller that are not physics |
| `CommandRouter` | the server's dispatch of TCP messages and the handshake |
| `ConnectionUI` | the client's connect button and connection callbacks |

All state is immutable. Each operation takes a peer, queue or controller and
returns its next state. Things outside the program become parameters:

- socket outcomes;
- the bytes a TCP stream delivers and how many each `Read` returns;
- random draws;
- the current time.

Floats are opaque 4-byte values. The model never does arithmetic on them.

Each TCP receive loop has two models:

- `Framing.ParseFrames`, a pure function over the whole stream;
- `Framing.RecvLoop`, the loop itself, reading through an arbitrary chunking
  of the stream.

The loop is proved equal to the function. On top of that the model proves:

- every message round-trips through its serializer;
- a queue of well-formed packets written by the send loop is framed back
  into the same messages;
- the handshake welcomes a client that sends the server's token and notices
  one that does not.

Observations about the code, which the model follows as written (paths are
relative to the repository root):

- **UDP starts before WELCOME.** `ClientConnectionUI.OnConnectClicked` starts
  the UDP client right after it sends HELLO, without waiting for WELCOME
  (Assets/Client/Scripts/ClientConnectionUI.cs:116;
  `ConnectionUI.UdpStartsBeforeWelcome`).
- **The client's STATE stream has no freshness rule.** The client overwrites
  its STATE with whatever datagram arrives last, whatever its sequence number
  (Assets/Client/Scripts/UdpClientPeer.cs:118-136;
  `UdpClientPeer.LastArrivalWins`).
- **Sequence 0 reopens the bootstrap.** The server accepts any input whenever
  the last accepted sequence number is 0, not only the very first input. This
  happens after ResetCar and after an input that carried sequence number 0
  (Assets/Server/Scripts/ServerSimulationController.cs:115-119, :280;
  `ServerSimulation.SeqZeroReopens`).
- **Session ids are random.** The server draws `Random.Range(1000, 9999)`, a
  value in [1000, 9999), so two sessions may share an id
  (Assets/Server/Scripts/ServerCommandRouter.cs:104).
- **Oversized frames end the server's loop silently.** A header that declares
  a payload too large for the 1400-byte receive buffer makes `Read` throw. The
  exception ends the server's receive loop, and no event is raised
  (Assets/Server/Scripts/TcpServerPeer.cs:180-209; `Framing.ParseStops`).
- **OnDisconnected is not always delivered.** The client queues
  OnDisconnected only when its loop ends while still running, or when the
  stream closed cleanly (Assets/Client/Scripts/TcpClientPeer.cs:124-129,
  :144-149, :158-165; `TcpClientPeer.DisconnectedComesLast`). A read that
  throws after Disconnect, which closes the socket under the loop, queues
  nothing (`TcpClientPeer.FailureDisconnectsIffRunning`).
- **The client cannot reconnect.** Neither way out of the client's receive
  loop clears `_running`: not the zero read (Assets/Client/Scripts/TcpClientPeer.cs:124-128)
  and not the catch (:158-165). `Connect` returns at once while `_running`
  is set (:63), so the Connect button that OnDisconnected re-enables
  (Assets/Client/Scripts/ClientConnectionUI.cs:139) opens no new connection
  (`TcpClientPeer.ReconnectIgnoredAfterLoopEnds`).
- **Overlong tokens can never be accepted.** HELLO carries 16 token bytes.
  The server compares the zero-trimmed 16 bytes with the whole configured
  token, so a configured token longer than 16 bytes never matches. The
  default token `"demo-token-123456"` is 17 bytes long
  (Assets/Server/Scripts/ServerCommandRouter.cs:82-83,
  Assets/_Shared/Config/NetConfig.cs:13;
  `CommandRouter.DefaultTokenNeverAccepted`).
- **PING and PONG are not in the message enum.** `MsgType` declares codes 0
  to 9 only (Assets/_Shared/Net/MessageTypes.cs:3-15), yet the client sends
  `MsgType.PING_C2S` and matches `MsgType.PONG_S2C`
  (Assets/Client/Scripts/TcpClientPeer.cs:206, :228). The model gives them
  codes 10 and 11, its own choice, and the server handles neither
  (`CommandRouter.PingNeverAnswered`).

## Model

| member | source | states |
|---|---|---|
| ByteCodec.WriteByte | Assets/_Shared/Net/ByteCodec.cs:13-16 | one byte, the value itself, which ReadByte reads back |
| ByteCodec.ReadByte | Assets/_Shared/Net/ByteCodec.cs:18-21 | succeeds exactly when one byte is left at the offset, and advances the offset by one |
| ByteCodec.WriteSByte | Assets/_Shared/Net/ByteCodec.cs:23-26 | writes one byte equal to the value modulo 256 (two's complement) |
| ByteCodec.ReadSByte | Assets/_Shared/Net/ByteCodec.cs:28-31 | succeeds exactly when one byte is left, and advances by one |
| ByteCodec.WriteUShort | Assets/_Shared/Net/ByteCodec.cs:33-37 | two bytes whose little-endian value is the number |
| ByteCodec.ReadUShort | Assets/_Shared/Net/ByteCodec.cs:39-44 | fails exactly when fewer than two bytes remain; otherwise the little-endian value of the next two bytes |
| ByteCodec.WriteUInt | Assets/_Shared/Net/ByteCodec.cs:46-52 | four bytes whose little-endian value is the number |
| ByteCodec.ReadUInt | Assets/_Shared/Net/ByteCodec.cs:54-59 | fails exactly when fewer than four bytes remain; otherwise the little-endian value of the next four |
| ByteCodec.WriteFloat | Assets/_Shared/Net/ByteCodec.cs:61-70 | the float's four bytes, which ReadFloat reads back as the same float |
| ByteCodec.ReadFloat | Assets/_Shared/Net/ByteCodec.cs:72-84 | succeeds exactly when four bytes remain, and advances by four |
| ByteCodec.WriteVector3 | Assets/_Shared/Net/ByteCodec.cs:86-91 | twelve bytes, x then y then z, which ReadVector3 reads back as the same vector |
| ByteCodec.ReadVector3 | Assets/_Shared/Net/ByteCodec.cs:93-99 | succeeds exactly when 12 bytes remain, and advances by 12 |
| ByteCodec.WriteQuaternion | Assets/_Shared/Net/ByteCodec.cs:101-107 | sixteen bytes, x, y, z then w, which ReadQuaternion reads back as the same rotation |
| ByteCodec.ReadQuaternion | Assets/_Shared/Net/ByteCodec.cs:109-116 | succeeds exactly when 16 bytes remain, and advances by 16 |
| ByteCodec.StringLength | Assets/_Shared/Net/ByteCodec.cs:118-130 | the length prefix a string gets: never more than its bytes, and equal to them below 65536 (the ushort cast wraps) |
| ByteCodec.WriteString | Assets/_Shared/Net/ByteCodec.cs:118-130 | a 2-byte prefix followed by the first StringLength bytes, which is the whole string when it is shorter than 65536 bytes |
| ByteCodec.ReadString | Assets/_Shared/Net/ByteCodec.cs:132-139 | fails exactly when the 2-byte prefix or the announced bytes run past the buffer; otherwise returns exactly those bytes and moves the offset past them |
| ByteCodec.WriteFixedBytes | Assets/_Shared/Net/ByteCodec.cs:141-145 | fails exactly when the source holds fewer than `length` bytes; otherwise writes its first `length` bytes |
| ByteCodec.ReadFixedBytes | Assets/_Shared/Net/ByteCodec.cs:147-151 | fails exactly when fewer than `length` bytes remain; otherwise returns `length` bytes and advances by `length` |
| ByteCodec.WriteHeader | Assets/_Shared/Net/ByteCodec.cs:157-163 | nine bytes, the first being the message type |
| ByteCodec.ReadHeader | Assets/_Shared/Net/ByteCodec.cs:165-171 | fails exactly when fewer than nine bytes remain; the type read is the byte at the offset |
| ByteCodec.ByteRoundTrip | Assets/_Shared/Net/ByteCodec.cs:13-21 | a byte written anywhere in a buffer reads back as itself at that offset |
| ByteCodec.SByteRoundTrip | Assets/_Shared/Net/ByteCodec.cs:23-31 | every sbyte in -128..127 reads back as itself |
| ByteCodec.UShortRoundTrip | Assets/_Shared/Net/ByteCodec.cs:33-44 | every ushort reads back as itself, with any bytes before and after |
| ByteCodec.UIntRoundTrip | Assets/_Shared/Net/ByteCodec.cs:46-59 | every uint reads back as itself, with any bytes before and after |
| ByteCodec.FloatRoundTrip | Assets/_Shared/Net/ByteCodec.cs:61-84 | the four bytes of a float read back as the same float |
| ByteCodec.Vector3RoundTrip | Assets/_Shared/Net/ByteCodec.cs:86-99 | a Vector3 reads back as itself, offset advanced by 12 |
| ByteCodec.QuaternionRoundTrip | Assets/_Shared/Net/ByteCodec.cs:101-116 | a Quaternion reads back as itself, offset advanced by 16 |
| ByteCodec.StringRoundTrip | Assets/_Shared/Net/ByteCodec.cs:118-139 | a string shorter than 65536 bytes reads back exactly |
| ByteCodec.StringRoundTripWrapped | Assets/_Shared/Net/ByteCodec.cs:118-139 | any string reads back as its first (length mod 65536) bytes |
| ByteCodec.FixedBytesRoundTrip | Assets/_Shared/Net/ByteCodec.cs:141-151 | writing then reading `length` bytes yields the first `length` bytes of the source |
| ByteCodec.HeaderRoundTrip | Assets/_Shared/Net/ByteCodec.cs:157-171 | every header reads back as itself, offset advanced by nine |
| MessageTypes.MsgCode | Assets/_Shared/Net/MessageTypes.cs:3-15 | the ten declared types keep their enum codes, all below 10; PING and PONG are missing from the C# enum and used only at Assets/Client/Scripts/TcpClientPeer.cs:206 and :228, so their codes 10 and 11 are the model's own choice |
| MessageTypes.MsgTypeOf | Assets/_Shared/Net/MessageTypes.cs:3-15 | a byte names a message type exactly when it is below 12, and then it is that type's code |
| MessageTypes.MsgCodeInjective | Assets/_Shared/Net/MessageTypes.cs:3-15 | decoding a type's code gives the type back, and no two types share a code |
| MessageTypes.CameraPartOf | Assets/_Shared/Net/MessageTypes.cs:17-29 | a byte is a camera part exactly when it is below 10, and then it is that part's code |
| MessageTypes.IndicatorOf | Assets/_Shared/Net/MessageTypes.cs:31-37 | a byte is an indicator mode exactly when it is below 4, and then it is that mode's code |
| MessageTypes.EnumCodesRoundTrip | Assets/_Shared/Net/MessageTypes.cs:17-37 | camera parts and indicator modes survive encoding to a byte and back |
| NetConfig.DefaultTokenLength | Assets/_Shared/Config/NetConfig.cs:13 | the default token is 17 bytes long, one more than HELLO carries |
| StopwatchTime.TimestampMs | Assets/_Shared/Net/StopwatchTime.cs:9-12 | the uint timestamp equals the elapsed milliseconds until they pass 2^32, and is always congruent to them modulo 2^32 (the `& 0xFFFFFFFF` mask); it stamps the client's HELLO |
| Protocol.SerializeHello | Assets/_Shared/Net/Protocol.cs:84-99 | fails exactly when the token has fewer than 16 bytes or the packet would exceed 1400 bytes; otherwise a HELLO header with the sequence number and timestamp, and 20 + name bytes of payload |
| Protocol.DeserializeHello | Assets/_Shared/Net/Protocol.cs:101-109 | fails exactly when the 16 token bytes, the port and the name prefix do not fit or the name runs past the buffer; otherwise the token is those 16 bytes, the port the little-endian u16 after them and the name the announced bytes |
| Protocol.HelloRoundTrip | Assets/_Shared/Net/Protocol.cs:84-109 | a serialized HELLO decodes to the first 16 token bytes, the port, and the name (cut to its wrapped length) |
| Protocol.HelloFieldsDecode | Assets/_Shared/Net/Protocol.cs:101-109 | a 16-byte token, a ushort port and a string decode field by field |
| Protocol.HelloPayloadRoundTrip | Assets/_Shared/Net/Protocol.cs:84-109 | the payload alone (as the router receives it) decodes at offset 0 to the same HELLO |
| Protocol.PacketSizeLimits | Assets/_Shared/Net/Protocol.cs:81-99 | with a full token, a HELLO fits the 1400-byte buffer exactly when its name has at most 1371 bytes |
| Protocol.SerializeWelcome | Assets/_Shared/Net/Protocol.cs:112-125 | always succeeds: a WELCOME header and a 6-byte payload |
| Protocol.DeserializeWelcome | Assets/_Shared/Net/Protocol.cs:127-134 | fails exactly when fewer than six bytes remain |
| Protocol.WelcomeRoundTrip | Assets/_Shared/Net/Protocol.cs:112-134 | a serialized WELCOME decodes to itself, whatever bytes follow it |
| Protocol.SerializeInput | Assets/_Shared/Net/Protocol.cs:137-151 | always succeeds: an INPUT header and a 13-byte payload |
| Protocol.DeserializeInput | Assets/_Shared/Net/Protocol.cs:153-161 | fails exactly when fewer than 13 bytes remain |
| Protocol.InputRoundTrip | Assets/_Shared/Net/Protocol.cs:137-161 | a serialized INPUT decodes to itself |
| Protocol.SerializeState | Assets/_Shared/Net/Protocol.cs:164-188 | always succeeds: a STATE header and a 62-byte payload |
| Protocol.DeserializeState | Assets/_Shared/Net/Protocol.cs:190-208 | fails exactly when fewer than 62 bytes remain |
| Protocol.StateRoundTrip | Assets/_Shared/Net/Protocol.cs:164-208 | a serialized STATE decodes to itself, all fourteen fields |
| Protocol.SerializeSetGear | Assets/_Shared/Net/Protocol.cs:211-222 | a SET_GEAR header and a 1-byte payload |
| Protocol.DeserializeSetGear | Assets/_Shared/Net/Protocol.cs:224-229 | fails exactly when no byte remains |
| Protocol.SetGearRoundTrip | Assets/_Shared/Net/Protocol.cs:211-229 | every gear in -128..127 survives the packet |
| Protocol.SerializeToggleHeadlights | Assets/_Shared/Net/Protocol.cs:232-243 | a TOGGLE_HEADLIGHTS header and a 1-byte payload |
| Protocol.DeserializeToggleHeadlights | Assets/_Shared/Net/Protocol.cs:245-250 | fails exactly when no byte remains |
| Protocol.SerializeSetIndicator | Assets/_Shared/Net/Protocol.cs:253-264 | a SET_INDICATOR header and a 1-byte payload |
| Protocol.DeserializeSetIndicator | Assets/_Shared/Net/Protocol.cs:266-271 | fails exactly when no byte remains; the mode is the raw byte, unchecked against the enum |
| Protocol.SerializeSetCameraFocus | Assets/_Shared/Net/Protocol.cs:274-285 | a SET_CAMERA_FOCUS header and a 1-byte payload |
| Protocol.DeserializeSetCameraFocus | Assets/_Shared/Net/Protocol.cs:287-292 | fails exactly when no byte remains; the part is the raw byte |
| Protocol.OneByteCommandsRoundTrip | Assets/_Shared/Net/Protocol.cs:232-292 | every byte survives the headlight, indicator and camera packets |
| Protocol.CommandPayloadsRoundTrip | Assets/_Shared/Net/Protocol.cs:211-292 | the command payloads alone decode at offset 0, as the router reads them |
| Protocol.SerializeResetCar | Assets/_Shared/Net/Protocol.cs:295-300 | a RESET_CAR header with an empty payload |
| Protocol.SerializeServerNotice | Assets/_Shared/Net/Protocol.cs:303-315 | fails exactly when the text would push the packet past 1400 bytes; otherwise 3 + text bytes of payload |
| Protocol.DeserializeServerNotice | Assets/_Shared/Net/Protocol.cs:317-323 | fails exactly when the code and length prefix do not fit or the announced text runs past the buffer; otherwise gives the code byte and exactly the announced text bytes |
| Protocol.ServerNoticeRoundTrip | Assets/_Shared/Net/Protocol.cs:303-323 | a notice decodes to its code and its (wrapped) text, whatever follows it |
| RingBuffer.Create | Assets/_Shared/Net/RingBuffer.cs:14-21 | a new buffer is empty and has the requested capacity (0 allowed) |
| RingBuffer.Ring.TryEnqueue | Assets/_Shared/Net/RingBuffer.cs:23-37 | succeeds exactly when the queue is not full, and then appends the item at the back; a refused enqueue changes nothing |
| RingBuffer.Ring.TryDequeue | Assets/_Shared/Net/RingBuffer.cs:39-55 | succeeds exactly when the queue is not empty, and then returns the front item and removes it; otherwise changes nothing and returns the default |
| RingBuffer.Ring.Count | Assets/_Shared/Net/RingBuffer.cs:57-66 | the number of queued items, never above capacity |
| RingBuffer.Ring.Clear | Assets/_Shared/Net/RingBuffer.cs:68-80 | empties the queue, keeps the capacity and resets every slot to the default |
| RingBuffer.EnqueueAllKeepsOldest | Assets/_Shared/Net/RingBuffer.cs:23-37 | enqueuing a run without dequeuing keeps the oldest items that fit and drops the rest |
| RingBuffer.CapacityFourScenario | Assets/_Shared/Net/RingBuffer.cs:14-55 | capacity 4: four enqueues succeed, the fifth fails and changes nothing, four dequeues return the items in order, the fifth fails |
| Framing.ReadCount | Assets/Server/Scripts/TcpServerPeer.cs:182 | a blocking `Read` returns 0 exactly when the stream is exhausted or nothing was asked for, and never more than asked or available |
| Framing.ReadExactly | Assets/Server/Scripts/TcpServerPeer.cs:179-189 | the inner read loop succeeds exactly when the stream holds enough bytes, and then fills exactly those bytes of the buffer |
| Framing.ReadFrame | Assets/Server/Scripts/TcpServerPeer.cs:178-223 | one iteration either ends the loop as the reference does, or yields the reference's next frame and leaves the rest of the stream |
| Framing.RecvLoop | Assets/Server/Scripts/TcpServerPeer.cs:172-231 | the receive loop, under any chunking of the stream, produces exactly the reference framing `ParseFrames` |
| Framing.CutOff | Assets/Client/Scripts/TcpClientPeer.cs:113-166 | a connection whose read throws after delivering a stream yields the same frames as a clean close of that stream, and ends by the exception (or the earlier overrun), never by a zero read |
| Framing.ParseFrames | Assets/Server/Scripts/TcpServerPeer.cs:172-231 | every frame consumes at least a 9-byte header of the stream, every buffer snapshot is the 1400-byte receive buffer, and an overrun needs a whole header |
| Framing.ParseFramesOk | Assets/Server/Scripts/TcpServerPeer.cs:172-231 | every frame's payload has the declared length and is the payload region of the buffer it was read into |
| Framing.ParseStops | Assets/Server/Scripts/TcpServerPeer.cs:180-209 | a short stream ends cleanly with no frame; a header declaring more than the 1400-byte buffer ends the loop by an exception |
| Framing.ParseSingle | Assets/Server/Scripts/TcpServerPeer.cs:172-231 | a stream holding one whole packet gives exactly that frame and then a clean close |
| Framing.ParseEncoded | Assets/Server/Scripts/TcpServerPeer.cs:172-231 | a stream of well-formed packets back to back is framed into exactly those messages, then a clean close |
| TcpSend.NewOutbound | Assets/Server/Scripts/TcpServerPeer.cs:33 | an empty outbound queue of 128 packets |
| TcpSend.SendMessage | Assets/Server/Scripts/TcpServerPeer.cs:262-269 | when connected and not full, the packet is appended; otherwise the queue is unchanged |
| TcpSend.SendLoop | Assets/Server/Scripts/TcpServerPeer.cs:234-255 | drains the queue and writes the packets' bytes back to back in queue order |
| TcpSend.ControlChannelDelivers | Assets/Server/Scripts/TcpServerPeer.cs:234-255 | up to 128 well-formed packets sent, written and framed at the other end arrive as the same messages in order |
| TcpServerPeer.NewPeer | Assets/Server/Scripts/TcpServerPeer.cs:32-33 | not connected; both queues empty with capacity 128 |
| TcpServerPeer.ToMessage | Assets/Server/Scripts/TcpServerPeer.cs:211-223 | a TcpMessage carries the frame's type, sequence number, timestamp and payload unchanged |
| TcpServerPeer.Receive | Assets/Server/Scripts/TcpServerPeer.cs:225 | received frames join the inbound queue in order until it is full; later ones are dropped |
| TcpServerPeer.TryDequeueMessage | Assets/Server/Scripts/TcpServerPeer.cs:257-260 | returns and removes the oldest inbound message, or reports false and changes nothing |
| TcpServerPeer.SendMessage | Assets/Server/Scripts/TcpServerPeer.cs:262-269 | ignored when not connected or when the queue is full; otherwise appends a copy of the packet |
| TcpServerPeer.GetClientEndpoint | Assets/Server/Scripts/TcpServerPeer.cs:40-47 | the remote endpoint exactly when connected, null otherwise |
| TcpServerPeer.InboundReceivesAll | Assets/Server/Scripts/TcpServerPeer.cs:172-231 | up to 128 well-formed packets on the stream land in the inbound queue as the same messages in order |
| TcpClientPeer.NewPeer | Assets/Client/Scripts/TcpClientPeer.cs:19-20 | not running or connected; both queues empty with capacity 128 |
| TcpClientPeer.Connect | Assets/Client/Scripts/TcpClientPeer.cs:61-94 | ignored while running; otherwise running and connected exactly when the connection succeeds |
| TcpClientPeer.Disconnect | Assets/Client/Scripts/TcpClientPeer.cs:96-111 | leaves the peer stopped and disconnected, and the queues untouched |
| TcpClientPeer.ProcessMessage | Assets/Client/Scripts/TcpClientPeer.cs:194-211 | types other than WELCOME and SERVER_NOTICE queue nothing; a WELCOME fails exactly when the buffer is too short, and queues only OnWelcome; a SERVER_NOTICE fails exactly when its decoder does, and otherwise queues OnNotice with the decoded notice |
| TcpClientPeer.RecvLoopCallbacks | Assets/Client/Scripts/TcpClientPeer.cs:113-166 | the loop's callbacks join the action queue in order until it is full |
| TcpClientPeer.DisconnectedComesLast | Assets/Client/Scripts/TcpClientPeer.cs:113-166 | OnDisconnected is queued at most once, only as the last callback, and exactly when the peer is still running or the stream closed cleanly |
| TcpClientPeer.Callbacks | Assets/Client/Scripts/TcpClientPeer.cs:113-166 | never queues a null callback, queues at most one callback per frame plus OnDisconnected, and ends with OnDisconnected whenever the loop stops while the peer is running |
| TcpClientPeer.FailureDisconnectsIffRunning | Assets/Client/Scripts/TcpClientPeer.cs:158-165 | when a read throws, OnDisconnected is queued, as the last callback, exactly when the peer is still running |
| TcpClientPeer.TimeoutAfterWelcome | Assets/Client/Scripts/TcpClientPeer.cs:113-211 | a WELCOME followed by a read failure yields OnWelcome, then OnDisconnected only while running |
| TcpClientPeer.ReconnectIgnoredAfterLoopEnds | Assets/Client/Scripts/TcpClientPeer.cs:61-166 | however the receive loop ends, the peer stays running, so a later Connect changes nothing |
| TcpClientPeer.WelcomeDelivered | Assets/Client/Scripts/TcpClientPeer.cs:113-211 | a WELCOME followed by a close yields OnWelcome with the same message, then OnDisconnected |
| TcpClientPeer.StaleWelcomeDecodes | Assets/Client/Scripts/TcpClientPeer.cs:194-211 | a WELCOME is decoded from the whole 1400-byte receive buffer, so even a short payload decodes (from stale bytes) |
| TcpClientPeer.PingPacket | Assets/Client/Scripts/TcpClientPeer.cs:222-230 | a bare PING header with sequence number 0 and the time modulo 2^32 |
| TcpClientPeer.SendMessage | Assets/Client/Scripts/TcpClientPeer.cs:213-220 | ignored when not connected or when the queue is full; otherwise appends the packet |
| TcpClientPeer.Update | Assets/Client/Scripts/TcpClientPeer.cs:33-54 | runs every queued callback in order and empties the queue; sends a ping exactly when connected and 3000 ms have passed since the last one |
| UdpServerPeer.NewServer | Assets/Server/Scripts/UdpServerPeer.cs:41-93 | listens and keeps its socket open exactly when the bind succeeds; no client endpoint and an empty input queue of 128 |
| UdpServerPeer.FailedBindReceivesNothing | Assets/Server/Scripts/UdpServerPeer.cs:73-93 | after a failed bind the server is not listening and no datagram changes it |
| UdpServerPeer.OnDatagram | Assets/Server/Scripts/UdpServerPeer.cs:114-177 | dropped, short or non-INPUT datagrams change nothing; a truncated INPUT ends the loop; an INPUT is queued unless the queue is full, and its sender becomes the client if none is known |
| UdpServerPeer.TryGetLatestInput | Assets/Server/Scripts/UdpServerPeer.cs:179-194 | returns and removes the oldest queued input, or false with zeros |
| UdpServerPeer.SetClientEndpoint | Assets/Server/Scripts/UdpServerPeer.cs:196-201 | the client endpoint becomes the given address and port; nothing else changes |
| UdpServerPeer.Send | Assets/Server/Scripts/UdpServerPeer.cs:203-215 | a datagram of the first `length` bytes goes to the client exactly when an endpoint is known, the socket is open and `length` fits |
| UdpServerPeer.FailedBindSendsNothing | Assets/Server/Scripts/UdpServerPeer.cs:73-215 | after a failed bind the closed socket sends nothing, even once an endpoint is bound |
| UdpServerPeer.SendAfterLoopEnds | Assets/Server/Scripts/UdpServerPeer.cs:118-215 | a truncated INPUT ends the receive loop but not the socket, so states still reach a known client |
| UdpServerPeer.InputDelivered | Assets/Server/Scripts/UdpServerPeer.cs:135-158 | a serialized INPUT that is not dropped is queued with its input, sequence number and timestamp |
| UdpServerPeer.DropSettingBounds | Assets/Server/Scripts/UdpServerPeer.cs:125 | drop setting 0 never drops and 100 always drops |
| UdpServerPeer.ShortInputStopsLoop | Assets/Server/Scripts/UdpServerPeer.cs:114-177 | an INPUT datagram too short to decode ends the loop, and later datagrams are never seen |
| UdpServerPeer.EndpointLearnedWhenFull | Assets/Server/Scripts/UdpServerPeer.cs:135-166 | the sender is learned even when its input is dropped for a full queue |
| UdpClientPeer.StartClient | Assets/Client/Scripts/UdpClientPeer.cs:34-76 | ignored while running; otherwise raises the running flag and listens exactly when bind, address parse and port all succeed |
| UdpClientPeer.Stop | Assets/Client/Scripts/UdpClientPeer.cs:78-89 | clears the flag and closes the socket, keeping the last state and the server endpoint |
| UdpClientPeer.OnDatagram | Assets/Client/Scripts/UdpClientPeer.cs:91-158 | a STATE datagram overwrites the stored state and timestamp, with the ping as the 32-bit clock difference; a truncated one ends the loop; others change nothing |
| UdpClientPeer.TryGetLatestState | Assets/Client/Scripts/UdpClientPeer.cs:160-173 | true with the stored state exactly when its timestamp is non-zero, false with the all-zero state otherwise |
| UdpClientPeer.Send | Assets/Client/Scripts/UdpClientPeer.cs:175-191 | a datagram goes to the server exactly when its endpoint is known, the socket is open and `length` fits |
| UdpClientPeer.StateDelivered | Assets/Client/Scripts/UdpClientPeer.cs:118-136 | a served STATE with a non-zero timestamp is what the main thread reads next, and the ping is the clock difference |
| UdpClientPeer.LastArrivalWins | Assets/Client/Scripts/UdpClientPeer.cs:118-136 | of two STATE datagrams the later arrival wins, whatever the sequence numbers |
| UdpClientPeer.ZeroTimestampHidden | Assets/Client/Scripts/UdpClientPeer.cs:160-173 | a state stamped 0 is stored but never reported to a fresh client |
| UdpClientPeer.FailedStartIsFinal | Assets/Client/Scripts/UdpClientPeer.cs:34-76 | after a failed bind every later start is ignored, and the client can neither send nor receive |
| ServerSimulation.NewSim | Assets/Server/Scripts/ServerSimulationController.cs:40-69 | gear 1, headlights off, indicator off, no input accepted yet with timestamp 0, the body untouched, and the controller's own transform recorded as the reset pose |
| ServerSimulation.SeqDelta | Assets/Server/Scripts/ServerSimulationController.cs:115 | the (short) cast of the ushort difference: in -32768..32767 and congruent to it modulo 65536 |
| ServerSimulation.AcceptsMeansAhead | Assets/Server/Scripts/ServerSimulationController.cs:115-116 | an input is accepted exactly when nothing is accepted yet or it lies 1..32767 steps ahead on the 16-bit circle |
| ServerSimulation.NewerIsAntisymmetric | Assets/Server/Scripts/ServerSimulationController.cs:115-116 | a number is never newer than itself, of two distinct numbers exactly one is newer unless they are 32768 apart, and then neither is |
| ServerSimulation.FreshnessBoundaries | Assets/Server/Scripts/ServerSimulationController.cs:115-116 | after 100: 100 and 50 are rejected and 150 accepted; 0 is accepted after 65535; anything is accepted after 0 |
| ServerSimulation.Accepts | Assets/Server/Scripts/ServerSimulationController.cs:115-116 | an input is accepted exactly when nothing is accepted yet or its number is 1 to 32767 steps past the last one modulo 65536 |
| ServerSimulation.ApplyInput | Assets/Server/Scripts/ServerSimulationController.cs:112-128 | an accepted input replaces the input, sequence number and timestamp; a rejected one changes nothing |
| ServerSimulation.ApplyAll | Assets/Server/Scripts/ServerSimulationController.cs:86-93 | draining a run changes only the input and its cursor, and a run that only repeats the current non-zero number changes nothing |
| ServerSimulation.ApplyInputIdempotent | Assets/Server/Scripts/ServerSimulationController.cs:112-128 | applying the same input twice is the same as applying it once |
| ServerSimulation.SeqZeroReopens | Assets/Server/Scripts/ServerSimulationController.cs:116-119 | once sequence 0 is accepted, the next input is accepted whatever its number |
| ServerSimulation.ApplyAllTakesFromRun | Assets/Server/Scripts/ServerSimulationController.cs:86-93 | a drained run changes only the input fields, and leaves them as before or equal to one of the run's inputs |
| ServerSimulation.Update | Assets/Server/Scripts/ServerSimulationController.cs:82-100 | takes the oldest min(queued, 201) inputs in order, applies them, and leaves the rest queued |
| ServerSimulation.SetGear | Assets/Server/Scripts/ServerSimulationController.cs:257-260 | the gear becomes the request clamped to -1..6; nothing else changes |
| ServerSimulation.ToggleHeadlights | Assets/Server/Scripts/ServerSimulationController.cs:262-265 | the headlights take the requested state and nothing else changes |
| ServerSimulation.SetIndicator | Assets/Server/Scripts/ServerSimulationController.cs:267-270 | the indicator takes the requested byte, unchecked, and nothing else changes |
| ServerSimulation.GearIndex | Assets/Server/Scripts/ServerSimulationController.cs:149 | gears -1 to 6 map to index gear + 1; lower gears clamp to 0 and higher ones to the last of the 8 entries |
| ServerSimulation.SetGearIndexExact | Assets/Server/Scripts/ServerSimulationController.cs:149 | after SetGear the index is gear + 1 with no clamping, so distinct gears use distinct ratios |
| ServerSimulation.ResetCar | Assets/Server/Scripts/ServerSimulationController.cs:272-282 | restores the reset pose at rest, gear 1, the default input and sequence 0; keeps the last timestamp, lights and indicator |
| ServerSimulation.ResetAcceptsAnyInput | Assets/Server/Scripts/ServerSimulationController.cs:272-282 | after a reset the next input is accepted whatever its sequence number |
| ServerSimulation.GetCurrentState | Assets/Server/Scripts/ServerSimulationController.cs:236-255 | the STATE reports the pose, gear, light flag, indicator, camera part and last accepted sequence number |
| ServerSimulation.CommandsReachClient | Assets/Server/Scripts/ServerSimulationController.cs:236-270 | gear (clamped), headlights, indicator and camera part set by commands come out of a serialized STATE unchanged |
| CommandRouter.NextSeq | Assets/Server/Scripts/ServerCommandRouter.cs:112 | the ushort `_sendSeq++`: one more, wrapping 65535 to 0 |
| CommandRouter.TrimZeros | Assets/Server/Scripts/ServerCommandRouter.cs:82 | removes exactly the trailing zero bytes: the result is a prefix, ends in a non-zero byte or is empty, and only zeros were cut |
| CommandRouter.TrimZerosPadded | Assets/Server/Scripts/ServerCommandRouter.cs:82-83 | a token without a trailing zero, padded with zeros, trims back to itself |
| CommandRouter.InvalidTokenPacket | Assets/Server/Scripts/ServerCommandRouter.cs:156-161 | the notice packet decodes to code 1 and "Invalid token" |
| CommandRouter.Welcome | Assets/Server/Scripts/ServerCommandRouter.cs:104-110 | session id in [1000, 9999), car id 1, and the configured tick rate when it fits a byte |
| CommandRouter.HandleHello | Assets/Server/Scripts/ServerCommandRouter.cs:74-116 | fails exactly when the payload does not decode; a wrong token sends a notice and changes nothing else; a right one binds the UDP client to the TCP address and the declared port, stores the session and sends WELCOME |
| CommandRouter.HandleTcpMessage | Assets/Server/Scripts/ServerCommandRouter.cs:39-72 | unknown types change nothing; only a decodable HELLO consumes a sequence number; other types never touch the peers |
| CommandRouter.HandleAll | Assets/Server/Scripts/ServerCommandRouter.cs:32-36 | handling a run of messages keeps the TCP client and the inbound queue, and a run without HELLO leaves the send sequence, TCP peer, UDP peer and session untouched |
| CommandRouter.Update | Assets/Server/Scripts/ServerCommandRouter.cs:21-37 | drains the inbound queue and handles every message in arrival order |
| CommandRouter.PingNeverAnswered | Assets/Server/Scripts/ServerCommandRouter.cs:43-66 | PING, PONG and undeclared codes fall to the default case and change nothing, so no PONG is ever sent |
| CommandRouter.LongTokenNeverAccepted | Assets/Server/Scripts/ServerCommandRouter.cs:82-88 | with a configured token longer than 16 bytes every HELLO gets the invalid-token notice |
| CommandRouter.DefaultTokenNeverAccepted | Assets/Server/Scripts/ServerCommandRouter.cs:82-88 | under the default configuration no HELLO binds the UDP client or starts a session |
| CommandRouter.HelloAccepted | Assets/Server/Scripts/ServerCommandRouter.cs:74-116 | a right token binds the UDP endpoint, records the session, and queues one packet that decodes to the expected WELCOME |
| CommandRouter.HelloMessageAccepted | Assets/Server/Scripts/ServerCommandRouter.cs:39-116 | the same holds for a HELLO message going through the dispatcher |
| CommandRouter.HelloWelcomed | Assets/Server/Scripts/ServerCommandRouter.cs:74-116 | a HELLO serialized with the server's token, zero-padded to 16 bytes, is welcomed |
| CommandRouter.WrongTokenNoticed | Assets/Server/Scripts/ServerCommandRouter.cs:81-88 | a wrong token queues exactly one packet, the invalid-token notice; the UDP endpoint and the session stay as they were |
| CommandRouter.CommandsApplied | Assets/Server/Scripts/ServerCommandRouter.cs:118-154 | each command packet's payload reaches the simulation or the camera focus (SetGear clamped, headlights on exactly for 1, indicator raw, ResetCar) |
| ConnectionUI.NewUi | Assets/Client/Scripts/ClientConnectionUI.cs:32-63 | starts on the connect panel with the button enabled and sequence 0 |
| ConnectionUI.Trim | Assets/Client/Scripts/ClientConnectionUI.cs:85-86 | `string.Trim`: a slice of the text that neither starts nor ends with white space, with only white space cut off either end |
| ConnectionUI.TrimEmptyIffBlank | Assets/Client/Scripts/ClientConnectionUI.cs:85-92 | a trimmed address is empty exactly when it is all white space |
| ConnectionUI.EncodeChar | Assets/Client/Scripts/ClientConnectionUI.cs:102 | UTF-8 takes one to four bytes per character, and exactly one (the code itself) for ASCII |
| ConnectionUI.Utf8 | Assets/Client/Scripts/ClientConnectionUI.cs:102 | `Encoding.UTF8.GetBytes`: at least one and at most four bytes per character in total, and exactly one per character iff the text is ASCII |
| ConnectionUI.Utf8OfAscii | Assets/Client/Scripts/ClientConnectionUI.cs:102 | UTF-8 of an ASCII string is its character codes |
| ConnectionUI.PackToken | Assets/Client/Scripts/ClientConnectionUI.cs:101-103 | always 16 bytes: the token padded with zeros, or its first 16 bytes |
| ConnectionUI.PackThenTrim | Assets/Client/Scripts/ClientConnectionUI.cs:101-103 | a token of at most 16 bytes with no trailing zero survives packing and trimming; a longer one never does |
| ConnectionUI.HelloFor | Assets/Client/Scripts/ClientConnectionUI.cs:101-110 | HELLO carries the packed UTF-8 of the trimmed token, the configured listen port and the device name |
| ConnectionUI.OnConnectClicked | Assets/Client/Scripts/ClientConnectionUI.cs:76-117 | unconfigured or blank address: status only; otherwise "Connecting...", button off, TCP connect, HELLO queued and UDP started; a HELLO that does not serialize stops after the TCP connect, before queuing it or starting UDP |
| ConnectionUI.BlankAddressRefused | Assets/Client/Scripts/ClientConnectionUI.cs:85-92 | the click only sets "Enter server IP!" exactly when the address is all white space |
| ConnectionUI.UdpStartsBeforeWelcome | Assets/Client/Scripts/ClientConnectionUI.cs:94-116 | the UDP client is listening right after the click, before any WELCOME, while the panels stay as they were |
| ConnectionUI.Run | Assets/Client/Scripts/TcpClientPeer.cs:33-42 | one queued callback: keeps configuration, sequence and the one-panel rule; OnDisconnected brings back the connect panel and the button; the others leave the button alone |
| ConnectionUI.RunAll | Assets/Client/Scripts/TcpClientPeer.cs:33-42 | the main thread running callbacks in order: without OnDisconnected the button stays as it was, and a run ending in OnDisconnected ends on the connect screen |
| ConnectionUI.RunAllKeepsOnePanel | Assets/Client/Scripts/ClientConnectionUI.cs:119-144 | the callbacks keep exactly one of the two panels shown |
| ConnectionUI.OnWelcome | Assets/Client/Scripts/ClientConnectionUI.cs:119-127 | shows the session id and the drive panel, hides the connect panel, and leaves the button as it was |
| ConnectionUI.OnNotice | Assets/Client/Scripts/ClientConnectionUI.cs:129-133 | shows the notice text and changes nothing else |
| ConnectionUI.OnDisconnected | Assets/Client/Scripts/ClientConnectionUI.cs:135-144 | shows "Disconnected!", re-enables the button and the connect panel, hides the drive panel, and changes nothing else |
| ConnectionUI.DisconnectRestoresScreen | Assets/Client/Scripts/ClientConnectionUI.cs:135-144 | whatever came before, OnDisconnected leaves the connect panel, an enabled button and "Disconnected!" |
| ConnectionUI.TokenAcceptedIffEqual | Assets/Client/Scripts/ClientConnectionUI.cs:85-112 | for a token that fits 16 bytes, the server's comparison succeeds exactly when the server's token equals the UTF-8 of the trimmed input |
| ConnectionUI.DefaultSetupRefused | Assets/Client/Scripts/ClientConnectionUI.cs:44 | the token field pre-filled with the default token is refused by a server on the default configuration |

## Left out

- **Sockets, threads and locks.** Sockets, listeners, thread start/join and the per-queue locks are not modelled. Each peer operation is applied atomically. The bytes a stream delivers, whether a stream ends by a zero read or a throwing read (`Framing.Ending`), and the outcomes of the TCP connect and the UDP binds are parameters.
- **TCP server lifecycle.** `TcpServerPeer`'s `AcceptLoop`, `Start` and `Cleanup` (Assets/Server/Scripts/TcpServerPeer.cs:49-170) are socket management. The connected client appears only as the `client` field.
- **GetPayloadSize.** `TcpServerPeer.GetPayloadSize` (Assets/Server/Scripts/TcpServerPeer.cs:271-290) is never called.
- **Physics and floats.** Physics, wheel meshes and every float computation are out: `ApplyPhysics`, `ComputeState`, steering interpolation, torque and RPM. Floats are opaque 4-byte values, and the physics readings in STATE are taken as they are.
- **Ping timing.** The client's ping clock is `Time.time`, a `float` in seconds, compared with a 3-second interval. The model uses whole milliseconds and a 3000 ms interval.
- **Randomness.** The random draws are parameters: the simulated-drop draw `Random.Next(100)` and the session draw `Random.Range(1000, 9999)`.
- **Clock.** The stopwatch itself is a parameter. Only the cast of its reading to `uint` is modelled.
- **Unity wiring.** Null-component checks (`config == null`, `tcpPeer == null`, `simController?.`) are not modelled. The UI's "not configured" branch is a flag.
- **Text.** Status text and log messages are constructors or left out.
- **Unicode.** UTF-8 encoding of unpaired surrogates is left out: Dafny's `char` excludes them.
- **Token comparison.** The server compares tokens as bytes, after removing trailing zeros. The C# code decodes the bytes as UTF-8 and then trims `'\0'` characters. The two differ only for invalid UTF-8, which becomes U+FFFD.
- **Other components.** `CameraFocusManager`, `StateBroadcaster`, `DebugOverlay`, `ClientInputController`, `ClientStateHUD`, `LocalCarTestUI`, `ServerCameraController` and the editor helper are not part of this model. The router's camera-focus call is reduced to recording the requested part.
- **Second queue consumer.** `DebugOverlay` would be a second consumer of the UDP input queue, and it is not modelled.
- **Socket timeouts.** The client sets 30-second receive and send timeouts on its socket (Assets/Client/Scripts/TcpClientPeer.cs:76-77); time is not modelled for them. Their consequence is: the server writes on TCP only in reply to HELLO (Assets/Server/Scripts/ServerCommandRouter.cs:86, :113, :160) and never answers PING (`CommandRouter.PingNeverAnswered`), so the client's blocking `Read` times out about 30 seconds after WELCOME. The catch block (Assets/Client/Scripts/TcpClientPeer.cs:158-165) then queues OnDisconnected because the peer is still running. In the model that read failure is the ending `Framing.Failed`, produced by `Framing.CutOff` on the bytes delivered before it; `TcpClientPeer.TimeoutAfterWelcome` and `TcpClientPeer.FailureDisconnectsIffRunning` give OnDisconnected as the last callback while the peer is running, and none after Disconnect.
- **Ring buffer representation.** `RingBuffer` returns a new buffer instead of mutating an array. `Clear` is proved to reset every slot, as the C# loop does.
- ConnectionUI.EncodeChar: the contract fixes the byte count and the ASCII case only. The multi-byte UTF-8 layout is in its body.

=== FILE: byte_codec.dfy ===
/** The little-endian wire codec (Assets/_Shared/Net/ByteCodec.cs).

    Every C# writer `WriteX(buffer, ref offset, v)` is modelled as a function
    returning the bytes it stores at `offset`; the amount `offset` advances is the
    length of that sequence. Every reader `ReadX(buffer, ref offset)` is modelled
    as a function of the buffer and the offset returning the value and the new
    offset, or Err(OutOfBounds) where the C# code would throw. */
module ByteCodec {
  import opened Wrappers

  type Byte = x: int | 0 <= x < 0x100
  type U16 = x: int | 0 <= x < 0x1_0000
  type U32 = x: int | 0 <= x < 0x1_0000_0000
  type I8 = x: int | -0x80 <= x < 0x80

  /** A float is carried as its 4-byte little-endian bit pattern; the model
      never interprets it as a number. */
  datatype F32 = F32(b0: Byte, b1: Byte, b2: Byte, b3: Byte)

  datatype Vector3 = Vector3(x: F32, y: F32, z: F32)

  datatype Quaternion = Quaternion(x: F32, y: F32, z: F32, w: F32)

  /** The fixed header preceding every message: type, seq, timestamp, length. */
  datatype Header = Header(msgType: Byte, seqNo: U16, timestampMs: U32, payloadLength: U16)

  /** A value decoded from a buffer together with the offset after it. */
  datatype Read<+T> = Read(value: T, next: nat)

  const HEADER_SIZE: nat := 9

  // ---------------------------------------------------------------------------
  // Primitives

  function WriteByte(v: Byte): (r: seq<Byte>)
    ensures |r| == 1 && r[0] == v
    ensures ReadByte(r, 0) == Ok(Read(v, 1))
  {
    [v]
  }

  function ReadByte(buf: seq<Byte>, off: nat): (r: Result<Read<Byte>>)
    ensures r.Ok? <==> off + 1 <= |buf|
    ensures r.Ok? ==> r.value.next == off + 1
  {
    if off + 1 <= |buf| then Ok(Read(buf[off], off + 1)) else Err(OutOfBounds)
  }

  /** `(byte)value` on an sbyte: the two's-complement byte. */
  function WriteSByte(v: I8): (r: seq<Byte>)
    ensures |r| == 1
    ensures (r[0] - v) % 0x100 == 0
  {
    [if v < 0 then v + 0x100 else v]
  }

  /** `(sbyte)b`: bytes 128..255 read back as -128..-1. */
  function ToSByte(b: Byte): (r: I8)
    ensures (b - r) % 0x100 == 0
  {
    if b < 0x80 then b else b - 0x100
  }

  function ReadSByte(buf: seq<Byte>, off: nat): (r: Result<Read<I8>>)
    ensures r.Ok? <==> off + 1 <= |buf|
    ensures r.Ok? ==> r.value.next == off + 1
  {
    if off + 1 <= |buf| then Ok(Read(ToSByte(buf[off]), off + 1)) else Err(OutOfBounds)
  }

  /** The unsigned number a little-endian byte sequence denotes: the first
      byte is the least significant. */
  function LittleEndian(bs: seq<Byte>): nat
  {
    if |bs| == 0 then 0 else bs[0] as int + 0x100 * LittleEndian(bs[1..])
  }

  lemma LittleEndian2(bs: seq<Byte>)
    requires |bs| == 2
    ensures LittleEndian(bs) == bs[0] as int + 0x100 * bs[1] as int
  {
    assert bs[1..][1..] == [];
    assert LittleEndian(bs[1..]) == bs[1] as int;
  }

  lemma LittleEndian4(bs: seq<Byte>)
    requires |bs| == 4
    ensures LittleEndian(bs) ==
      bs[0] as int + 0x100 * bs[1] as int + 0x1_0000 * bs[2] as int + 0x100_0000 * bs[3] as int
  {
    var b0, b1, b2, b3: int := bs[0], bs[1], bs[2], bs[3];
    assert bs[1..][1..][1..][1..] == [];
    calc {
      LittleEndian(bs);
      b0 + 0x100 * LittleEndian(bs[1..]);
      b0 + 0x100 * (b1 + 0x100 * LittleEndian(bs[1..][1..]));
      b0 + 0x100 * (b1 + 0x100 * (b2 + 0x100 * LittleEndian(bs[1..][1..][1..])));
      b0 + 0x100 * (b1 + 0x100 * (b2 + 0x100 * b3));
    }
  }

  /** Byte i is `(value >> 8i) & 0xFF`, so the bytes spell `value` in
      little-endian order. */
  function WriteUShort(v: U16): (r: seq<Byte>)
    ensures |r| == 2
    ensures LittleEndian(r) == v
  {
    var r := [v % 0x100, v / 0x100];
    LittleEndian2(r);
    r
  }

  /** `buffer[offset] | (buffer[offset + 1] << 8)`: the two bytes occupy
      disjoint bit ranges, so the OR is a sum. */
  function ReadUShort(buf: seq<Byte>, off: nat): (r: Result<Read<U16>>)
    ensures r.Ok? <==> off + 2 <= |buf|
    ensures r.Ok? ==> r.value == Read(LittleEndian(buf[off..off + 2]), off + 2)
  {
    if off + 2 <= |buf| then
      var v: U16 := buf[off] as int + 0x100 * (buf[off + 1] as int);
      LittleEndian2(buf[off..off + 2]);
      Ok(Read(v, off + 2))
    else
      Err(OutOfBounds)
  }

  /** Byte i is `(value >> 8i) & 0xFF`, least significant byte first. */
  function WriteUInt(v: U32): (r: seq<Byte>)
    ensures |r| == 4
    ensures LittleEndian(r) == v
  {
    var r := [v % 0x100, (v / 0x100) % 0x100, (v / 0x1_0000) % 0x100, v / 0x100_0000];
    LittleEndian4(r);
    r
  }

  /** `(uint)(b0 | b1 << 8 | b2 << 16 | b3 << 24)`: the int-typed OR may be
      negative when b3 >= 128, and the uint cast restores the unsigned value. */
  function ReadUInt(buf: seq<Byte>, off: nat): (r: Result<Read<U32>>)
    ensures r.Ok? <==> off + 4 <= |buf|
    ensures r.Ok? ==> r.value == Read(LittleEndian(buf[off..off + 4]), off + 4)
  {
    if off + 4 <= |buf| then
      var v: U32 := buf[off] as int + 0x100 * (buf[off + 1] as int)
        + 0x1_0000 * (buf[off + 2] as int) + 0x100_0000 * (buf[off + 3] as int);
      LittleEndian4(buf[off..off + 4]);
      Ok(Read(v, off + 4))
    else
      Err(OutOfBounds)
  }

  function WriteFloat(v: F32): (r: seq<Byte>)
    ensures |r| == 4
    ensures ReadFloat(r, 0) == Ok(Read(v, 4))
  {
    [v.b0, v.b1, v.b2, v.b3]
  }

  function ReadFloat(buf: seq<Byte>, off: nat): (r: Result<Read<F32>>)
    ensures r.Ok? <==> off + 4 <= |buf|
    ensures r.Ok? ==> r.value.next == off + 4
  {
    if off + 4 <= |buf| then Ok(Read(F32(buf[off], buf[off + 1], buf[off + 2], buf[off + 3]), off + 4))
    else Err(OutOfBounds)
  }

  function WriteVector3(v: Vector3): (r: seq<Byte>)
    ensures |r| == 12
    ensures ReadVector3(r, 0) == Ok(Read(v, 12))
  {
    WriteFloat(v.x) + WriteFloat(v.y) + WriteFloat(v.z)
  }

  function ReadVector3(buf: seq<Byte>, off: nat): (r: Result<Read<Vector3>>)
    ensures r.Ok? <==> off + 12 <= |buf|
    ensures r.Ok? ==> r.value.next == off + 12
  {
    var x :- ReadFloat(buf, off);
    var y :- ReadFloat(buf, x.next);
    var z :- ReadFloat(buf, y.next);
    Ok(Read(Vector3(x.value, y.value, z.value), z.next))
  }

  function WriteQuaternion(v: Quaternion): (r: seq<Byte>)
    ensures |r| == 16
    ensures ReadQuaternion(r, 0) == Ok(Read(v, 16))
  {
    WriteFloat(v.x) + WriteFloat(v.y) + WriteFloat(v.z) + WriteFloat(v.w)
  }

  function ReadQuaternion(buf: seq<Byte>, off: nat): (r: Result<Read<Quaternion>>)
    ensures r.Ok? <==> off + 16 <= |buf|
    ensures r.Ok? ==> r.value.next == off + 16
  {
    var x :- ReadFloat(buf, off);
    var y :- ReadFloat(buf, x.next);
    var z :- ReadFloat(buf, y.next);
    var w :- ReadFloat(buf, z.next);
    Ok(Read(Quaternion(x.value, y.value, z.value, w.value), w.next))
  }

  /** The `(ushort)` cast of a byte count: lengths of 65536 and more wrap. */
  function StringLength(s: seq<Byte>): (n: U16)
    ensures n <= |s|
    ensures |s| < 0x1_0000 ==> n == |s|
  {
    |s| % 0x1_0000
  }

  /** A u16 byte-count prefix, then that many bytes of the UTF-8 encoding.
      A null string and the empty string both write the prefix 0 alone. */
  function WriteString(s: seq<Byte>): (r: seq<Byte>)
    ensures |r| == 2 + StringLength(s)
    ensures r[2..] == s[..StringLength(s)]
    ensures |s| < 0x1_0000 ==> r[2..] == s
  {
    WriteUShort(StringLength(s)) + s[..StringLength(s)]
  }

  function ReadString(buf: seq<Byte>, off: nat): (r: Result<Read<seq<Byte>>>)
    ensures r.Ok? ==> off + 2 <= r.value.next <= |buf|
    ensures r.Ok? <==> off + 2 <= |buf| && off + 2 + LittleEndian(buf[off..off + 2]) <= |buf|
    ensures r.Ok? ==> r.value.next == off + 2 + |r.value.value|
    ensures r.Ok? ==> r.value.value == buf[off + 2..r.value.next]
  {
    var len :- ReadUShort(buf, off);
    if len.value == 0 then Ok(Read([], len.next))
    else if len.next + len.value <= |buf| then Ok(Read(buf[len.next..len.next + len.value], len.next + len.value))
    else Err(OutOfBounds)
  }

  /** `Buffer.BlockCopy(data, 0, buffer, offset, length)`: throws when `data`
      holds fewer than `length` bytes. */
  function WriteFixedBytes(data: seq<Byte>, length: nat): (r: Result<seq<Byte>>)
    ensures r.Ok? <==> length <= |data|
    ensures r.Ok? ==> |r.value| == length && r.value <= data
  {
    if length <= |data| then Ok(data[..length]) else Err(OutOfBounds)
  }

  function ReadFixedBytes(buf: seq<Byte>, off: nat, length: nat): (r: Result<Read<seq<Byte>>>)
    ensures r.Ok? <==> off + length <= |buf|
    ensures r.Ok? ==> r.value.next == off + length && |r.value.value| == length
  {
    if off + length <= |buf| then Ok(Read(buf[off..off + length], off + length)) else Err(OutOfBounds)
  }

  // ---------------------------------------------------------------------------
  // Header

  function WriteHeader(h: Header): (r: seq<Byte>)
    ensures |r| == HEADER_SIZE
    ensures r[0] == h.msgType
  {
    WriteByte(h.msgType) + WriteUShort(h.seqNo) + WriteUInt(h.timestampMs) + WriteUShort(h.payloadLength)
  }

  function ReadHeader(buf: seq<Byte>, off: nat): (r: Result<Read<Header>>)
    ensures r.Ok? <==> off + HEADER_SIZE <= |buf|
    ensures r.Ok? ==> r.value.next == off + HEADER_SIZE
    ensures r.Ok? ==> r.value.value.msgType == buf[off]
  {
    var t :- ReadByte(buf, off);
    var s :- ReadUShort(buf, t.next);
    var ts :- ReadUInt(buf, s.next);
    var len :- ReadUShort(buf, ts.next);
    Ok(Read(Header(t.value, s.value, ts.value, len.value), len.next))
  }

  // ---------------------------------------------------------------------------
  // Round trips: a value written at offset |p| of any buffer reads back unchanged
  // and the reader advances by exactly the writer's width.

  lemma ByteRoundTrip(p: seq<Byte>, v: Byte, s: seq<Byte>)
    ensures ReadByte(p + WriteByte(v) + s, |p|) == Ok(Read(v, |p| + 1))
  {
  }

  lemma SByteRoundTrip(p: seq<Byte>, v: I8, s: seq<Byte>)
    ensures ReadSByte(p + WriteSByte(v) + s, |p|) == Ok(Read(v, |p| + 1))
  {
  }

  lemma UShortRoundTrip(p: seq<Byte>, v: U16, s: seq<Byte>)
    ensures ReadUShort(p + WriteUShort(v) + s, |p|) == Ok(Read(v, |p| + 2))
  {
    var buf := p + WriteUShort(v) + s;
    assert buf[|p|] == v % 0x100 && buf[|p| + 1] == v / 0x100;
  }

  lemma UIntRoundTrip(p: seq<Byte>, v: U32, s: seq<Byte>)
    ensures ReadUInt(p + WriteUInt(v) + s, |p|) == Ok(Read(v, |p| + 4))
  {
    var buf := p + WriteUInt(v) + s;
    assert buf[|p|] == v % 0x100;
    assert buf[|p| + 1] == (v / 0x100) % 0x100;
    assert buf[|p| + 2] == (v / 0x1_0000) % 0x100;
    assert buf[|p| + 3] == v / 0x100_0000;
  }

  lemma FloatRoundTrip(p: seq<Byte>, v: F32, s: seq<Byte>)
    ensures ReadFloat(p + WriteFloat(v) + s, |p|) == Ok(Read(v, |p| + 4))
  {
    var buf := p + WriteFloat(v) + s;
    assert buf[|p|..|p| + 4] == WriteFloat(v);
  }

  lemma Vector3RoundTrip(p: seq<Byte>, v: Vector3, s: seq<Byte>)
    ensures ReadVector3(p + WriteVector3(v) + s, |p|) == Ok(Read(v, |p| + 12))
  {
    var buf := p + WriteVector3(v) + s;
    FloatRoundTrip(p, v.x, WriteFloat(v.y) + WriteFloat(v.z) + s);
    assert buf == p + WriteFloat(v.x) + (WriteFloat(v.y) + WriteFloat(v.z) + s);
    FloatRoundTrip(p + WriteFloat(v.x), v.y, WriteFloat(v.z) + s);
    assert buf == (p + WriteFloat(v.x)) + WriteFloat(v.y) + (WriteFloat(v.z) + s);
    FloatRoundTrip(p + WriteFloat(v.x) + WriteFloat(v.y), v.z, s);
    assert buf == (p + WriteFloat(v.x) + WriteFloat(v.y)) + WriteFloat(v.z) + s;
  }

  lemma QuaternionRoundTrip(p: seq<Byte>, v: Quaternion, s: seq<Byte>)
    ensures ReadQuaternion(p + WriteQuaternion(v) + s, |p|) == Ok(Read(v, |p| + 16))
  {
    var buf := p + WriteQuaternion(v) + s;
    var fx, fy, fz, fw := WriteFloat(v.x), WriteFloat(v.y), WriteFloat(v.z), WriteFloat(v.w);
    FloatRoundTrip(p, v.x, fy + fz + fw + s);
    assert buf == p + fx + (fy + fz + fw + s);
    FloatRoundTrip(p + fx, v.y, fz + fw + s);
    assert buf == (p + fx) + fy + (fz + fw + s);
    FloatRoundTrip(p + fx + fy, v.z, fw + s);
    assert buf == (p + fx + fy) + fz + (fw + s);
    FloatRoundTrip(p + fx + fy + fz, v.w, s);
    assert buf == (p + fx + fy + fz) + fw + s;
  }

  /** A string of at most 65535 bytes reads back unchanged, the offset moving
      past the 2-byte prefix and the bytes. */
  lemma StringRoundTrip(p: seq<Byte>, v: seq<Byte>, s: seq<Byte>)
    requires |v| < 0x1_0000
    ensures ReadString(p + WriteString(v) + s, |p|) == Ok(Read(v, |p| + 2 + |v|))
  {
    var buf := p + WriteString(v) + s;
    UShortRoundTrip(p, |v|, v + s);
    assert buf == p + WriteUShort(|v|) + (v + s);
    assert buf[|p| + 2..|p| + 2 + |v|] == v;
  }

  /** In general the reader returns the first StringLength(v) bytes: what the
      `(ushort)` cast of the byte count let the writer copy. */
  lemma StringRoundTripWrapped(p: seq<Byte>, v: seq<Byte>, s: seq<Byte>)
    ensures ReadString(p + WriteString(v) + s, |p|)
         == Ok(Read(v[..StringLength(v)], |p| + 2 + StringLength(v)))
  {
    var buf := p + WriteString(v) + s;
    var n := StringLength(v);
    UShortRoundTrip(p, n, v[..n] + s);
    assert buf == p + WriteUShort(n) + (v[..n] + s);
    assert buf[|p| + 2..|p| + 2 + n] == v[..n];
  }

  lemma FixedBytesRoundTrip(p: seq<Byte>, data: seq<Byte>, length: nat, s: seq<Byte>)
    requires length <= |data|
    ensures WriteFixedBytes(data, length).Ok?
    ensures ReadFixedBytes(p + WriteFixedBytes(data, length).value + s, |p|, length)
         == Ok(Read(data[..length], |p| + length))
  {
    var buf := p + data[..length] + s;
    assert buf[|p|..|p| + length] == data[..length];
  }

  lemma HeaderRoundTrip(p: seq<Byte>, h: Header, s: seq<Byte>)
    ensures ReadHeader(p + WriteHeader(h) + s, |p|) == Ok(Read(h, |p| + HEADER_SIZE))
  {
    var buf := p + WriteHeader(h) + s;
    var ft, fs, fts, fl := WriteByte(h.msgType), WriteUShort(h.seqNo), WriteUInt(h.timestampMs), WriteUShort(h.payloadLength);
    ByteRoundTrip(p, h.msgType, fs + fts + fl + s);
    assert buf == p + ft + (fs + fts + fl + s);
    UShortRoundTrip(p + ft, h.seqNo, fts + fl + s);
    assert buf == (p + ft) + fs + (fts + fl + s);
    UIntRoundTrip(p + ft + fs, h.timestampMs, fl + s);
    assert buf == (p + ft + fs) + fts + (fl + s);
    UShortRoundTrip(p + ft + fs + fts, h.payloadLength, s);
    assert buf == (p + ft + fs + fts) + fl + s;
  }
}

=== FILE: command_router.dfy ===
/** The server's dispatcher for the TCP control channel
    (Assets/Server/Scripts/ServerCommandRouter.cs).

    Every frame the router drains the TCP peer's inbound queue and handles each
    message by type. A Hello carries the shared token: a mismatch is answered
    with a Notice and nothing else, a match binds the UDP peer to the client's
    address and announced port and is answered with a Welcome. The five
    commands go to the simulation controller or the camera focus; every other
    type, Ping included, is ignored. A payload too short to decode throws, and
    the exception is caught before any effect. Both replies take the next value
    of a 16-bit send sequence counter.

    The clock and the random session id are parameters. */
module CommandRouter {
  import opened Wrappers
  import opened ByteCodec
  import opened MessageTypes
  import opened RingBuffer
  import opened NetConfig
  import Protocol
  import ServerSimulation
  import TcpServerPeer
  import UdpServerPeer

  /** A result of `UnityEngine.Random.Range(1000, 9999)`, whose upper bound is
      exclusive for integers. */
  type SessionDraw = x: int | 1000 <= x < 9999 witness 1000

  /** What the environment supplies while one message is handled. */
  datatype Env = Env(nowMs: U32, session: SessionDraw)

  /** The router's own fields and the components it drives. `cameraFocus` is
      the part last handed to the camera focus manager. */
  datatype Router = Router(
    sendSeq: U16, sessionId: U32,
    sim: ServerSimulation.Sim, tcp: TcpServerPeer.ServerPeer, udp: UdpServerPeer.UdpServer,
    cameraFocus: Option<Byte>)
  {
    predicate Valid() {
      tcp.Valid() && udp.Valid()
    }
  }

  const INVALID_TOKEN_CODE: Byte := 1
  const INVALID_TOKEN_TEXT: seq<Byte> := Ascii("Invalid token")

  /** `_sendSeq++` on a ushort. */
  function NextSeq(s: U16): (n: U16)
    ensures s < 0xFFFF ==> n == s + 1
    ensures s == 0xFFFF ==> n == 0
  {
    (s + 1) % 0x1_0000
  }

  function Zeros(n: nat): (z: seq<Byte>)
    ensures |z| == n && forall i | 0 <= i < n :: z[i] == 0
  {
    seq(n, _ => 0)
  }

  /** `TrimEnd('\0')` on the decoded token. Only U+0000 encodes as the byte 0
      in UTF-8, so trimming the characters trims exactly the trailing zero
      bytes. */
  function TrimZeros(bs: seq<Byte>): (r: seq<Byte>)
    ensures |r| <= |bs| && r == bs[..|r|]
    ensures r == [] || r[|r| - 1] != 0
    ensures forall i | |r| <= i < |bs| :: bs[i] == 0
    decreases |bs|
  {
    if bs != [] && bs[|bs| - 1] == 0 then TrimZeros(bs[..|bs| - 1]) else bs
  }

  /** Padding a token that does not end in a zero byte with zeros and
      trimming gives the token back. */
  lemma {:induction false} TrimZerosPadded(t: seq<Byte>, n: nat)
    requires t == [] || t[|t| - 1] != 0
    ensures TrimZeros(t + Zeros(n)) == t
  {
    var bs := t + Zeros(n);
    if n == 0 {
      assert bs == t;
    } else {
      assert bs[|bs| - 1] == 0;
      assert bs[..|bs| - 1] == t + Zeros(n - 1);
      TrimZerosPadded(t, n - 1);
    }
  }

  /** The Notice a failed token check sends. */
  function InvalidTokenPacket(seqNo: U16, nowMs: U32): (p: seq<Byte>)
    ensures Protocol.Framed(p, ServerNotice, seqNo, nowMs)
    ensures Protocol.DeserializeServerNotice(p, HEADER_SIZE)
         == Ok(Protocol.ServerNoticeS2C(INVALID_TOKEN_CODE, INVALID_TOKEN_TEXT))
  {
    var m := Protocol.ServerNoticeS2C(INVALID_TOKEN_CODE, INVALID_TOKEN_TEXT);
    Protocol.ServerNoticeRoundTrip(seqNo, nowMs, m, []);
    assert Protocol.SerializeServerNotice(seqNo, nowMs, m).value + [] == Protocol.SerializeServerNotice(seqNo, nowMs, m).value;
    Protocol.SerializeServerNotice(seqNo, nowMs, m).value
  }

  /** The Welcome a successful Hello is answered with. */
  function Welcome(config: Config, session: SessionDraw): (w: Protocol.WelcomeS2C)
    ensures 1000 <= w.sessionId < 9999 && w.carId == 1
    ensures 0 <= config.simTickRate < 0x100 ==> w.simTickRate == config.simTickRate
  {
    Protocol.WelcomeS2C(session, config.simTickRate % 0x100, 1)
  }

  /** HandleHello. The payload is decoded at offset 0, so a short one fails
      before any effect. */
  function HandleHello(r: Router, payload: seq<Byte>, config: Config, env: Env): (res: Result<Router>)
    requires r.Valid()
    ensures res.Ok? <==> Protocol.DeserializeHello(payload, 0).Ok?
    ensures res.Ok? ==>
      var t := res.value;
      var hello := Protocol.DeserializeHello(payload, 0).value;
      && t.Valid() && t.sendSeq == NextSeq(r.sendSeq)
      && t.tcp.inbound == r.tcp.inbound && t.tcp.client == r.tcp.client
      && t.sim == r.sim && t.cameraFocus == r.cameraFocus
      && if TrimZeros(hello.token) != config.token then
           && t.udp == r.udp && t.sessionId == r.sessionId
           && t.tcp == TcpServerPeer.SendMessage(r.tcp, InvalidTokenPacket(r.sendSeq, env.nowMs))
         else
           && t.sessionId == env.session
           && t.udp.client == (if r.tcp.IsConnected() then Some(Endpoint(r.tcp.client.value.address, hello.clientUdpPort)) else r.udp.client)
           && t.udp.queue == r.udp.queue && t.udp.listening == r.udp.listening
           && t.tcp == TcpServerPeer.SendMessage(r.tcp,
                         Protocol.SerializeWelcome(r.sendSeq, env.nowMs, Welcome(config, env.session)).value)
  {
    var hello :- Protocol.DeserializeHello(payload, 0);
    if TrimZeros(hello.token) != config.token then
      Ok(r.(sendSeq := NextSeq(r.sendSeq),
            tcp := TcpServerPeer.SendMessage(r.tcp, InvalidTokenPacket(r.sendSeq, env.nowMs))))
    else
      var udp :=
        match TcpServerPeer.GetClientEndpoint(r.tcp)
        case Some(remote) => UdpServerPeer.SetClientEndpoint(r.udp, remote.address, hello.clientUdpPort)
        case None => r.udp;
      var packet := Protocol.SerializeWelcome(r.sendSeq, env.nowMs, Welcome(config, env.session)).value;
      Ok(r.(sendSeq := NextSeq(r.sendSeq), sessionId := env.session, udp := udp,
            tcp := TcpServerPeer.SendMessage(r.tcp, packet)))
  }

  /** The six message types the router acts on. */
  predicate Handled(msgType: Byte) {
    MsgTypeOf(msgType) in {Some(Hello), Some(SetGear), Some(ToggleHeadlights),
                           Some(SetIndicator), Some(SetCameraFocus), Some(ResetCar)}
  }

  /** HandleTcpMessage: dispatch by type; a handler that throws leaves
      everything as it was. */
  function HandleTcpMessage(r: Router, msg: TcpServerPeer.TcpMessage, config: Config, env: Env): (t: Router)
    requires r.Valid()
    ensures t.Valid() && t.tcp.inbound == r.tcp.inbound && t.tcp.client == r.tcp.client
    ensures !Handled(msg.msgType) ==> t == r
    ensures msg.msgType != MsgCode(Hello) ==>
      t.sendSeq == r.sendSeq && t.tcp == r.tcp && t.udp == r.udp && t.sessionId == r.sessionId
    ensures t.sendSeq != r.sendSeq <==> msg.msgType == MsgCode(Hello) && Protocol.DeserializeHello(msg.payload, 0).Ok?
  {
    match MsgTypeOf(msg.msgType)
    case Some(Hello) =>
      (match HandleHello(r, msg.payload, config, env)
       case Ok(t) => t
       case Err(_) => r)
    case Some(SetGear) =>
      (match Protocol.DeserializeSetGear(msg.payload, 0)
       case Ok(m) => r.(sim := ServerSimulation.SetGear(r.sim, m.gear))
       case Err(_) => r)
    case Some(ToggleHeadlights) =>
      (match Protocol.DeserializeToggleHeadlights(msg.payload, 0)
       case Ok(m) => r.(sim := ServerSimulation.ToggleHeadlights(r.sim, m.on == 1))
       case Err(_) => r)
    case Some(SetIndicator) =>
      (match Protocol.DeserializeSetIndicator(msg.payload, 0)
       case Ok(m) => r.(sim := ServerSimulation.SetIndicator(r.sim, m.mode))
       case Err(_) => r)
    case Some(SetCameraFocus) =>
      (match Protocol.DeserializeSetCameraFocus(msg.payload, 0)
       case Ok(m) => r.(cameraFocus := Some(m.partId))
       case Err(_) => r)
    case Some(ResetCar) => r.(sim := ServerSimulation.ResetCar(r.sim))
    case _ => r
  }

  /** `r` with its inbound queue replaced. */
  function WithInbound(r: Router, q: Ring<TcpServerPeer.TcpMessage>): Router {
    r.(tcp := r.tcp.(inbound := q))
  }

  /** Handling never looks at the inbound queue. */
  lemma HandleIgnoresInbound(r: Router, q: Ring<TcpServerPeer.TcpMessage>, msg: TcpServerPeer.TcpMessage, config: Config, env: Env)
    requires r.Valid() && q.Valid() && q.dflt == TcpServerPeer.NO_MESSAGE
    ensures HandleTcpMessage(WithInbound(r, q), msg, config, env) == WithInbound(HandleTcpMessage(r, msg, config, env), q)
  {
  }

  /** The messages `msgs` handled in order, the i-th with `env(i)`. */
  function HandleAll(r: Router, msgs: seq<TcpServerPeer.TcpMessage>, config: Config, env: nat -> Env): (t: Router)
    requires r.Valid()
    ensures t.Valid() && t.tcp.inbound == r.tcp.inbound && t.tcp.client == r.tcp.client
    ensures (forall i | 0 <= i < |msgs| :: msgs[i].msgType != MsgCode(Hello)) ==>
      t.sendSeq == r.sendSeq && t.tcp == r.tcp && t.udp == r.udp && t.sessionId == r.sessionId
    decreases |msgs|
  {
    if msgs == [] then r
    else
      var n := |msgs| - 1;
      HandleTcpMessage(HandleAll(r, msgs[..n], config, env), msgs[n], config, env(n))
  }

  /** One turn of Update's loop: handling the dequeued message extends the
      handled prefix by one. */
  lemma UpdateStep(r: Router, t: Router, handled: seq<TcpServerPeer.TcpMessage>, config: Config, env: nat -> Env)
    requires r.Valid() && t.Valid() && t.tcp.inbound.Contents() != []
    requires WithInbound(t, r.tcp.inbound) == HandleAll(r, handled, config, env)
    ensures var (next, _, msg) := TcpServerPeer.TryDequeueMessage(t.tcp);
      WithInbound(HandleTcpMessage(t.(tcp := next), msg, config, env(|handled|)), r.tcp.inbound)
      == HandleAll(r, handled + [msg], config, env)
  {
    var (next, _, msg) := TcpServerPeer.TryDequeueMessage(t.tcp);
    var u := t.(tcp := next);
    HandleIgnoresInbound(u, r.tcp.inbound, msg, config, env(|handled|));
    assert WithInbound(u, r.tcp.inbound) == WithInbound(t, r.tcp.inbound);
    assert (handled + [msg])[..|handled|] == handled;
  }

  /** Update: handles every queued message, oldest first, until the queue
      is empty. */
  method Update(r: Router, config: Config, env: nat -> Env) returns (t: Router, handled: seq<TcpServerPeer.TcpMessage>)
    requires r.Valid()
    ensures t.Valid() && t.tcp.inbound.Contents() == [] && t.tcp.inbound.Capacity() == r.tcp.inbound.Capacity()
    ensures handled == r.tcp.inbound.Contents()
    ensures WithInbound(t, r.tcp.inbound) == HandleAll(r, handled, config, env)
  {
    t, handled := r, [];
    while true
      invariant t.Valid() && t.tcp.inbound.Capacity() == r.tcp.inbound.Capacity()
      invariant handled + t.tcp.inbound.Contents() == r.tcp.inbound.Contents()
      invariant WithInbound(t, r.tcp.inbound) == HandleAll(r, handled, config, env)
      decreases |t.tcp.inbound.Contents()|
    {
      var (next, ok, msg) := TcpServerPeer.TryDequeueMessage(t.tcp);
      if !ok {
        assert handled == r.tcp.inbound.Contents();
        return;
      }
      DequeueStep(handled, t.tcp.inbound, r.tcp.inbound.Contents());
      UpdateStep(r, t, handled, config, env);
      t := HandleTcpMessage(t.(tcp := next), msg, config, env(|handled|));
      handled := handled + [msg];
    }
  }

  // ---------------------------------------------------------------------------
  // Properties of the handshake and the dispatch

  /** Ping, Pong and every undeclared type leave the router untouched: the
      server never answers a Ping. */
  lemma {:induction false} PingNeverAnswered(r: Router, msg: TcpServerPeer.TcpMessage, config: Config, env: Env)
    requires r.Valid()
    requires msg.msgType in {MsgCode(Ping), MsgCode(Pong)} || MsgTypeOf(msg.msgType).None?
    ensures HandleTcpMessage(r, msg, config, env) == r
  {
    MsgCodeInjective(Ping, Ping);
    MsgCodeInjective(Pong, Pong);
  }

  /** A configured token longer than the 16-byte token field can never
      match: every Hello is refused with a Notice, no endpoint is bound and no
      session starts. */
  lemma {:induction false} LongTokenNeverAccepted(r: Router, payload: seq<Byte>, config: Config, env: Env)
    requires r.Valid() && |config.token| > Protocol.TOKEN_SIZE
    requires Protocol.DeserializeHello(payload, 0).Ok?
    ensures var t := HandleHello(r, payload, config, env).value;
      && t.udp == r.udp && t.sessionId == r.sessionId
      && t.tcp == TcpServerPeer.SendMessage(r.tcp, InvalidTokenPacket(r.sendSeq, env.nowMs))
  {
    var hello := Protocol.DeserializeHello(payload, 0).value;
    assert |TrimZeros(hello.token)| <= Protocol.TOKEN_SIZE;
  }

  /** The shipped default token is 17 bytes, so a server left with the
      default configuration refuses every client. */
  lemma {:induction false} DefaultTokenNeverAccepted(r: Router, payload: seq<Byte>, env: Env)
    requires r.Valid() && Protocol.DeserializeHello(payload, 0).Ok?
    ensures HandleHello(r, payload, DEFAULT_CONFIG, env).value.udp == r.udp
    ensures HandleHello(r, payload, DEFAULT_CONFIG, env).value.sessionId == r.sessionId
  {
    DefaultTokenLength();
    LongTokenNeverAccepted(r, payload, DEFAULT_CONFIG, env);
  }

  /** A Hello message is handled by HandleHello, and left alone when its
      payload does not decode. */
  lemma DispatchHello(r: Router, msg: TcpServerPeer.TcpMessage, config: Config, env: Env)
    requires r.Valid() && msg.msgType == MsgCode(Hello)
    ensures HandleTcpMessage(r, msg, config, env)
         == if HandleHello(r, msg.payload, config, env).Ok? then HandleHello(r, msg.payload, config, env).value else r
  {
    MsgCodeInjective(Hello, Hello);
  }

  /** A Hello with the right token, on a connected peer with room to send:
      the UDP peer is bound, a session starts and the Welcome queued decodes
      to it. */
  lemma {:induction false} HelloAccepted(r: Router, payload: seq<Byte>, hello: Protocol.HelloC2S, config: Config, env: Env)
    requires r.Valid() && r.tcp.IsConnected() && |r.tcp.outbound.Contents()| < r.tcp.outbound.Capacity()
    requires Protocol.DeserializeHello(payload, 0) == Ok(hello) && TrimZeros(hello.token) == config.token
    requires 0 <= config.simTickRate < 0x100
    ensures var t := HandleHello(r, payload, config, env).value;
      && t.udp.client == Some(Endpoint(r.tcp.client.value.address, hello.clientUdpPort))
      && t.sessionId == env.session && t.sendSeq == NextSeq(r.sendSeq)
      && |t.tcp.outbound.Contents()| == |r.tcp.outbound.Contents()| + 1
      && Protocol.DeserializeWelcome(t.tcp.outbound.Contents()[|r.tcp.outbound.Contents()|], HEADER_SIZE)
         == Ok(Protocol.WelcomeS2C(env.session, config.simTickRate, 1))
  {
    var w := Welcome(config, env.session);
    var packet := Protocol.SerializeWelcome(r.sendSeq, env.nowMs, w).value;
    Protocol.WelcomeRoundTrip(r.sendSeq, env.nowMs, w, []);
    assert packet + [] == packet;
    var t := HandleHello(r, payload, config, env).value;
    assert t.tcp.outbound.Contents() == r.tcp.outbound.Contents() + [packet];
  }

  /** What an accepted Hello leaves behind: the UDP peer bound to the
      client's address and announced port, a new session, the send sequence
      advanced, and one more queued packet that decodes to the Welcome. */
  predicate Welcomed(r: Router, t: Router, port: U16, config: Config, env: Env)
    requires r.Valid() && t.Valid() && r.tcp.IsConnected() && 0 <= config.simTickRate < 0x100
  {
    && t.udp.client == Some(Endpoint(r.tcp.client.value.address, port))
    && t.sessionId == env.session && t.sendSeq == NextSeq(r.sendSeq)
    && |t.tcp.outbound.Contents()| == |r.tcp.outbound.Contents()| + 1
    && Protocol.DeserializeWelcome(t.tcp.outbound.Contents()[|r.tcp.outbound.Contents()|], HEADER_SIZE)
       == Ok(Protocol.WelcomeS2C(env.session, config.simTickRate, 1))
  }

  /** HelloAccepted, reached through the dispatcher. */
  lemma {:induction false} HelloMessageAccepted(r: Router, msg: TcpServerPeer.TcpMessage, hello: Protocol.HelloC2S, config: Config, env: Env)
    requires r.Valid() && r.tcp.IsConnected() && |r.tcp.outbound.Contents()| < r.tcp.outbound.Capacity()
    requires msg.msgType == MsgCode(Hello)
    requires Protocol.DeserializeHello(msg.payload, 0) == Ok(hello) && TrimZeros(hello.token) == config.token
    requires 0 <= config.simTickRate < 0x100
    ensures Welcomed(r, HandleTcpMessage(r, msg, config, env), hello.clientUdpPort, config, env)
  {
    DispatchHello(r, msg, config, env);
    HelloAccepted(r, msg.payload, hello, config, env);
  }

  /** A Hello carrying a token padded with zeros to 16 bytes decodes from
      its payload, and trimming its token gives the token back. */
  lemma {:induction false} PaddedHelloDecodes(t: seq<Byte>, seqNo: U16, ts: U32, port: U16, name: seq<Byte>)
    requires |t| <= Protocol.TOKEN_SIZE && (t == [] || t[|t| - 1] != 0)
    requires HEADER_SIZE + 20 + StringLength(name) <= Protocol.MAX_PACKET_SIZE
    ensures var token := t + Zeros(Protocol.TOKEN_SIZE - |t|);
      var payload := Protocol.SerializeHello(seqNo, ts, Protocol.HelloC2S(token, port, name)).value[HEADER_SIZE..];
      && Protocol.DeserializeHello(payload, 0) == Ok(Protocol.HelloC2S(token, port, name[..StringLength(name)]))
      && TrimZeros(token) == t
  {
    var token := t + Zeros(Protocol.TOKEN_SIZE - |t|);
    TrimZerosPadded(t, Protocol.TOKEN_SIZE - |t|);
    Protocol.HelloPayloadRoundTrip(seqNo, ts, Protocol.HelloC2S(token, port, name));
    assert token[..Protocol.TOKEN_SIZE] == token;
  }

  /** The handshake end to end: a Hello a client serialized with the
      configured token padded with zeros to 16 bytes binds the UDP peer to
      the connected client's address and announced port and queues a Welcome
      that decodes to the new session, the tick rate and car 1. */
  lemma {:induction false} HelloWelcomed(r: Router, seqNo: U16, ts: U32, port: U16, name: seq<Byte>, config: Config, env: Env)
    requires r.Valid() && r.tcp.IsConnected() && |r.tcp.outbound.Contents()| < r.tcp.outbound.Capacity()
    requires |config.token| <= Protocol.TOKEN_SIZE && (config.token == [] || config.token[|config.token| - 1] != 0)
    requires 0 <= config.simTickRate < 0x100
    requires HEADER_SIZE + 20 + StringLength(name) <= Protocol.MAX_PACKET_SIZE
    ensures var hello := Protocol.HelloC2S(config.token + Zeros(Protocol.TOKEN_SIZE - |config.token|), port, name);
      var msg := TcpServerPeer.TcpMessage(MsgCode(Hello), seqNo, ts, Protocol.SerializeHello(seqNo, ts, hello).value[HEADER_SIZE..]);
      Welcomed(r, HandleTcpMessage(r, msg, config, env), port, config, env)
  {
    var token := config.token + Zeros(Protocol.TOKEN_SIZE - |config.token|);
    var hello := Protocol.HelloC2S(token, port, name);
    PaddedHelloDecodes(config.token, seqNo, ts, port, name);
    HelloMessageAccepted(r, TcpServerPeer.TcpMessage(MsgCode(Hello), seqNo, ts, Protocol.SerializeHello(seqNo, ts, hello).value[HEADER_SIZE..]),
                         Protocol.HelloC2S(token, port, name[..StringLength(name)]), config, env);
  }

  /** A Hello with any other token is answered by exactly one Notice with
      code 1 and text "Invalid token", and binds nothing. */
  lemma {:induction false} WrongTokenNoticed(r: Router, msg: TcpServerPeer.TcpMessage, config: Config, env: Env)
    requires r.Valid() && r.tcp.IsConnected() && |r.tcp.outbound.Contents()| < r.tcp.outbound.Capacity()
    requires msg.msgType == MsgCode(Hello) && Protocol.DeserializeHello(msg.payload, 0).Ok?
    requires TrimZeros(Protocol.DeserializeHello(msg.payload, 0).value.token) != config.token
    ensures var t := HandleTcpMessage(r, msg, config, env);
      && t.udp == r.udp && t.sessionId == r.sessionId && t.sendSeq == NextSeq(r.sendSeq)
      && t.tcp.outbound.Contents() == r.tcp.outbound.Contents() + [InvalidTokenPacket(r.sendSeq, env.nowMs)]
      && Protocol.DeserializeServerNotice(t.tcp.outbound.Contents()[|r.tcp.outbound.Contents()|], HEADER_SIZE)
         == Ok(Protocol.ServerNoticeS2C(1, INVALID_TOKEN_TEXT))
  {
    MsgCodeInjective(Hello, Hello);
  }

  /** The commands a client sends take effect: the gear clamped, headlights
      on exactly for the byte 1, the indicator byte as sent, the camera focus
      recorded, the car reset. */
  lemma {:induction false} CommandsApplied(r: Router, seqNo: U16, ts: U32, gear: I8, b: Byte, config: Config, env: Env)
    requires r.Valid()
    ensures var p := Protocol.SerializeSetGear(seqNo, ts, Protocol.SetGearC2S(gear)).value[HEADER_SIZE..];
      HandleTcpMessage(r, TcpServerPeer.TcpMessage(MsgCode(SetGear), seqNo, ts, p), config, env).sim
      == ServerSimulation.SetGear(r.sim, gear)
    ensures var p := Protocol.SerializeToggleHeadlights(seqNo, ts, Protocol.ToggleHeadlightsC2S(b)).value[HEADER_SIZE..];
      HandleTcpMessage(r, TcpServerPeer.TcpMessage(MsgCode(ToggleHeadlights), seqNo, ts, p), config, env).sim.headlightsOn
      <==> b == 1
    ensures var p := Protocol.SerializeSetIndicator(seqNo, ts, Protocol.SetIndicatorC2S(b)).value[HEADER_SIZE..];
      HandleTcpMessage(r, TcpServerPeer.TcpMessage(MsgCode(SetIndicator), seqNo, ts, p), config, env).sim.indicator == b
    ensures var p := Protocol.SerializeSetCameraFocus(seqNo, ts, Protocol.SetCameraFocusC2S(b)).value[HEADER_SIZE..];
      HandleTcpMessage(r, TcpServerPeer.TcpMessage(MsgCode(SetCameraFocus), seqNo, ts, p), config, env).cameraFocus == Some(b)
    ensures var p := Protocol.SerializeResetCar(seqNo, ts).value[HEADER_SIZE..];
      HandleTcpMessage(r, TcpServerPeer.TcpMessage(MsgCode(ResetCar), seqNo, ts, p), config, env).sim
      == ServerSimulation.ResetCar(r.sim)
  {
    Protocol.CommandPayloadsRoundTrip(seqNo, ts, gear, b);
    MsgCodeInjective(SetGear, SetGear);
    MsgCodeInjective(ToggleHeadlights, ToggleHeadlights);
    MsgCodeInjective(SetIndicator, SetIndicator);
    MsgCodeInjective(SetCameraFocus, SetCameraFocus);
    MsgCodeInjective(ResetCar, ResetCar);
  }
}

=== FILE: connection_ui.dfy ===
/** The client's connect screen (Assets/Client/Scripts/ClientConnectionUI.cs).

    Pressing Connect trims the two text fields, refuses a blank server
    address, disables the button, connects the TCP peer, sends a Hello whose
    token field is the first 16 UTF-8 bytes of the trimmed token padded with
    zeros, and starts the UDP peer straight away, before any Welcome. The
    three TCP callbacks drive the status line, the button and the two panels.

    The text of the status line is represented by what it shows: the fixed
    messages are constructors, the two formatted ones carry their value. The
    outcomes of the socket calls and the device name are parameters. */
module ConnectionUI {
  import opened Wrappers
  import opened ByteCodec
  import opened MessageTypes
  import opened NetConfig
  import opened RingBuffer
  import Protocol
  import TcpClientPeer
  import UdpClientPeer
  import CommandRouter
  import StopwatchTime

  datatype Status =
    | NoStatus
    | UiNotConfigured
    | EnterServerIp
    | Connecting
    | ConnectedSession(sessionId: U32)
    | ServerSays(text: seq<Byte>)
    | Disconnected

  /** `configured` says whether both input fields are wired up. */
  datatype Ui = Ui(
    configured: bool, status: Status, buttonEnabled: bool,
    connectPanel: bool, drivePanel: bool, sendSeq: U16)

  /** The screen after Start: the connect panel shown, the drive panel
      hidden, the button enabled. */
  function NewUi(configured: bool): (ui: Ui)
    ensures ui.connectPanel && !ui.drivePanel && ui.buttonEnabled && ui.sendSeq == 0
  {
    Ui(configured, NoStatus, true, true, false, 0)
  }

  // ---------------------------------------------------------------------------
  // Text

  /** `char.IsWhiteSpace`: the Unicode space, line and paragraph separators,
      the controls U+0009..U+000D and U+0085. */
  predicate IsWhiteSpace(c: char) {
    var v := c as int;
    || v == 0x20 || 0x09 <= v <= 0x0D || v == 0x85 || v == 0xA0 || v == 0x1680
    || 0x2000 <= v <= 0x200A || v == 0x2028 || v == 0x2029 || v == 0x202F || v == 0x205F || v == 0x3000
  }

  /** The number of white-space characters `s` starts with. */
  function LeadingSpace(s: string): (n: nat)
    ensures n <= |s|
    ensures forall i | 0 <= i < n :: IsWhiteSpace(s[i])
    ensures n < |s| ==> !IsWhiteSpace(s[n])
    decreases |s|
  {
    if s == [] || !IsWhiteSpace(s[0]) then 0 else 1 + LeadingSpace(s[1..])
  }

  /** The number of white-space characters `s` ends with. */
  function TrailingSpace(s: string): (n: nat)
    ensures n <= |s|
    ensures forall i | |s| - n <= i < |s| :: IsWhiteSpace(s[i])
    ensures n < |s| ==> !IsWhiteSpace(s[|s| - n - 1])
    decreases |s|
  {
    if s == [] || !IsWhiteSpace(s[|s| - 1]) then 0 else 1 + TrailingSpace(s[..|s| - 1])
  }

  function TrimStart(s: string): string {
    s[LeadingSpace(s)..]
  }

  function TrimEnd(s: string): string {
    s[..|s| - TrailingSpace(s)]
  }

  /** `string.Trim()`: the slice of `s` left once white space is cut from
      both ends; what remains neither starts nor ends with white space, and
      everything cut is white space. */
  function Trim(s: string): (t: string)
    ensures LeadingSpace(s) + |t| <= |s|
    ensures t == s[LeadingSpace(s)..LeadingSpace(s) + |t|]
    ensures t != [] ==> !IsWhiteSpace(t[0]) && !IsWhiteSpace(t[|t| - 1])
    ensures forall i | LeadingSpace(s) + |t| <= i < |s| :: IsWhiteSpace(s[i])
  {
    var a := TrimStart(s);
    var t := TrimEnd(a);
    assert forall i | LeadingSpace(s) + |t| <= i < |s| :: s[i] == a[i - LeadingSpace(s)];
    t
  }

  /** Trimming leaves nothing exactly when the text is all white space. */
  lemma {:induction false} TrimEmptyIffBlank(s: string)
    ensures Trim(s) == [] <==> forall i | 0 <= i < |s| :: IsWhiteSpace(s[i])
  {
    var a := TrimStart(s);
    if a != [] {
      assert a[0] == s[LeadingSpace(s)];
      assert TrailingSpace(a) < |a|;
    }
  }

  /** The UTF-8 encoding of one scalar value (section 3 of RFC 3629). */
  function EncodeChar(c: char): (bs: seq<Byte>)
    ensures 1 <= |bs| <= 4
    ensures (c as int < 0x80) <==> |bs| == 1
    ensures |bs| == 1 ==> bs[0] == c as int
  {
    var v := c as int;
    if v < 0x80 then [v]
    else if v < 0x800 then [0xC0 + v / 0x40, 0x80 + v % 0x40]
    else if v < 0x1_0000 then [0xE0 + v / 0x1000, 0x80 + (v / 0x40) % 0x40, 0x80 + v % 0x40]
    else [0xF0 + v / 0x4_0000, 0x80 + (v / 0x1000) % 0x40, 0x80 + (v / 0x40) % 0x40, 0x80 + v % 0x40]
  }

  /** `Encoding.UTF8.GetBytes` on a string of scalar values. */
  function Utf8(s: string): (bs: seq<Byte>)
    ensures |s| <= |bs| <= 4 * |s|
    ensures |bs| == |s| <==> forall i | 0 <= i < |s| :: s[i] as int < 0x80
    decreases |s|
  {
    if s == [] then [] else EncodeChar(s[0]) + Utf8(s[1..])
  }

  /** An ASCII string encodes as its own code units. */
  lemma {:induction false} Utf8OfAscii(s: string)
    requires forall i | 0 <= i < |s| :: s[i] as int < 0x80
    ensures Utf8(s) == Ascii(s)
    decreases |s|
  {
    if s != [] {
      Utf8OfAscii(s[1..]);
      assert Ascii(s) == [s[0] as int] + Ascii(s[1..]);
    }
  }

  /** The token field of the Hello: the first min(n, 16) bytes, then zeros. */
  function PackToken(bs: seq<Byte>): (p: seq<Byte>)
    ensures |p| == Protocol.TOKEN_SIZE
    ensures |bs| <= Protocol.TOKEN_SIZE ==> p == bs + CommandRouter.Zeros(Protocol.TOKEN_SIZE - |bs|)
    ensures |bs| > Protocol.TOKEN_SIZE ==> p == bs[..Protocol.TOKEN_SIZE]
  {
    var n := Min(|bs|, Protocol.TOKEN_SIZE);
    bs[..n] + CommandRouter.Zeros(Protocol.TOKEN_SIZE - n)
  }

  /** The server's trim undoes the client's packing exactly for tokens of
      at most 16 bytes that do not end in a zero byte; a longer token arrives
      cut to 16 bytes and never compares equal to itself. */
  lemma {:induction false} PackThenTrim(bs: seq<Byte>)
    ensures |bs| <= Protocol.TOKEN_SIZE && (bs == [] || bs[|bs| - 1] != 0)
        ==> CommandRouter.TrimZeros(PackToken(bs)) == bs
    ensures |bs| > Protocol.TOKEN_SIZE ==> CommandRouter.TrimZeros(PackToken(bs)) != bs
  {
    if |bs| <= Protocol.TOKEN_SIZE && (bs == [] || bs[|bs| - 1] != 0) {
      CommandRouter.TrimZerosPadded(bs, Protocol.TOKEN_SIZE - |bs|);
    }
  }

  // ---------------------------------------------------------------------------
  // The client side as the screen sees it

  datatype Client = Client(ui: Ui, tcp: TcpClientPeer.ClientPeer, udp: UdpClientPeer.UdpClient)

  /** What the calls out of OnConnectClicked do: whether the TCP connection
      is made, how the UDP start goes, the stopwatch's elapsed milliseconds
      and the device name. */
  datatype ConnectWorld = ConnectWorld(
    tcpConnects: bool, udpStart: UdpClientPeer.StartOutcome, elapsedMs: nat, deviceName: seq<Byte>)

  /** The Hello built from the token text. The port is `(ushort)` of the
      configured listen port. */
  function HelloFor(config: Config, tokenText: string, deviceName: seq<Byte>): (h: Protocol.HelloC2S)
    ensures h.token == PackToken(Utf8(Trim(tokenText))) && h.clientName == deviceName
    ensures 0 <= config.udpPortClientListen < 0x1_0000 ==> h.clientUdpPort == config.udpPortClientListen
  {
    Protocol.HelloC2S(PackToken(Utf8(Trim(tokenText))), config.udpPortClientListen % 0x1_0000, deviceName)
  }

  /** OnConnectClicked. The sequence number is taken before SerializeHello
      runs; a device name too long for the send buffer makes it throw, and
      the Hello is not sent and the UDP peer not started. */
  function OnConnectClicked(c: Client, config: Config, ipText: string, tokenText: string, w: ConnectWorld): (d: Client)
    requires c.tcp.Valid()
    ensures d.tcp.Valid()
    ensures !c.ui.configured ==> d == c.(ui := c.ui.(status := UiNotConfigured))
    ensures c.ui.configured && Trim(ipText) == [] ==> d == c.(ui := c.ui.(status := EnterServerIp))
    ensures c.ui.configured && Trim(ipText) != [] ==>
      && d.ui == c.ui.(status := Connecting, buttonEnabled := false, sendSeq := CommandRouter.NextSeq(c.ui.sendSeq))
      && var tcp := TcpClientPeer.Connect(c.tcp, w.tcpConnects);
         match Protocol.SerializeHello(c.ui.sendSeq, StopwatchTime.TimestampMs(w.elapsedMs), HelloFor(config, tokenText, w.deviceName))
         case Ok(packet) =>
           d.tcp == TcpClientPeer.SendMessage(tcp, packet) && d.udp == UdpClientPeer.StartClient(c.udp, config, w.udpStart)
         case Err(_) =>
           d.tcp == tcp && d.udp == c.udp
  {
    if !c.ui.configured then c.(ui := c.ui.(status := UiNotConfigured))
    else if Trim(ipText) == [] then c.(ui := c.ui.(status := EnterServerIp))
    else
      var ui := c.ui.(status := Connecting, buttonEnabled := false, sendSeq := CommandRouter.NextSeq(c.ui.sendSeq));
      var tcp := TcpClientPeer.Connect(c.tcp, w.tcpConnects);
      match Protocol.SerializeHello(c.ui.sendSeq, StopwatchTime.TimestampMs(w.elapsedMs), HelloFor(config, tokenText, w.deviceName))
      case Err(_) => Client(ui, tcp, c.udp)
      case Ok(packet) =>
        Client(ui, TcpClientPeer.SendMessage(tcp, packet), UdpClientPeer.StartClient(c.udp, config, w.udpStart))
  }

  /** A blank server address is refused before anything is touched, and
      any other one starts the connection attempt. */
  lemma {:induction false} BlankAddressRefused(c: Client, config: Config, ipText: string, tokenText: string, w: ConnectWorld)
    requires c.tcp.Valid() && c.ui.configured
    ensures (forall i | 0 <= i < |ipText| :: IsWhiteSpace(ipText[i]))
        <==> OnConnectClicked(c, config, ipText, tokenText, w) == c.(ui := c.ui.(status := EnterServerIp))
  {
    TrimEmptyIffBlank(ipText);
  }

  /** The UDP peer is started in the same click as the TCP connection, with
      no Welcome yet: the connect panel is still up while the client already
      listens for states. */
  lemma {:induction false} UdpStartsBeforeWelcome(c: Client, config: Config, ipText: string, tokenText: string, w: ConnectWorld)
    requires c.tcp.Valid() && c.ui.configured && Trim(ipText) != [] && !c.udp.running
    requires w.udpStart.bindSucceeds && w.udpStart.serverAddress.Some? && 0 <= config.udpPortServer < 0x1_0000
    requires HEADER_SIZE + 20 + StringLength(w.deviceName) <= Protocol.MAX_PACKET_SIZE
    ensures var d := OnConnectClicked(c, config, ipText, tokenText, w);
      d.udp.listening && d.ui.connectPanel == c.ui.connectPanel && !d.ui.buttonEnabled
  {
  }

  // ---------------------------------------------------------------------------
  // Callbacks

  function OnWelcome(ui: Ui, w: Protocol.WelcomeS2C): (u: Ui)
    ensures u.status == ConnectedSession(w.sessionId) && u.drivePanel && !u.connectPanel
    ensures u.buttonEnabled == ui.buttonEnabled
    ensures u.(status := ui.status, connectPanel := ui.connectPanel, drivePanel := ui.drivePanel) == ui
  {
    ui.(status := ConnectedSession(w.sessionId), connectPanel := false, drivePanel := true)
  }

  /** OnNotice touches only the status line: the panels stay and the button
      stays disabled. */
  function OnNotice(ui: Ui, n: Protocol.ServerNoticeS2C): (u: Ui)
    ensures u.status == ServerSays(n.text)
    ensures u.(status := ui.status) == ui
  {
    ui.(status := ServerSays(n.text))
  }

  function OnDisconnected(ui: Ui): (u: Ui)
    ensures u.status == Disconnected && u.buttonEnabled && u.connectPanel && !u.drivePanel
    ensures u.(status := ui.status, buttonEnabled := ui.buttonEnabled, connectPanel := ui.connectPanel, drivePanel := ui.drivePanel) == ui
  {
    ui.(status := Disconnected, buttonEnabled := true, connectPanel := true, drivePanel := false)
  }

  /** Running one queued callback of the TCP peer. */
  function Run(ui: Ui, a: TcpClientPeer.Action): (u: Ui)
    ensures u.configured == ui.configured && u.sendSeq == ui.sendSeq
    ensures OnePanel(ui) ==> OnePanel(u)
    ensures a.DisconnectedAction? ==> u.connectPanel && !u.drivePanel && u.buttonEnabled
    ensures !a.DisconnectedAction? ==> u.buttonEnabled == ui.buttonEnabled
  {
    match a
    case WelcomeAction(w) => OnWelcome(ui, w)
    case NoticeAction(n) => OnNotice(ui, n)
    case DisconnectedAction => OnDisconnected(ui)
    case NoAction => ui
  }

  /** The main thread running the queued callbacks in order. */
  function RunAll(ui: Ui, acts: seq<TcpClientPeer.Action>): (u: Ui)
    ensures u.configured == ui.configured && u.sendSeq == ui.sendSeq
    ensures (forall i | 0 <= i < |acts| :: !acts[i].DisconnectedAction?) ==> u.buttonEnabled == ui.buttonEnabled
    ensures acts != [] && acts[|acts| - 1].DisconnectedAction? ==> u.connectPanel && !u.drivePanel && u.buttonEnabled
    decreases |acts|
  {
    if acts == [] then ui else RunAll(Run(ui, acts[0]), acts[1..])
  }

  /** Exactly one of the two panels is shown, from Start on, whatever the
      callbacks and clicks. */
  predicate OnePanel(ui: Ui) {
    ui.connectPanel != ui.drivePanel
  }

  lemma {:induction false} RunAllKeepsOnePanel(ui: Ui, acts: seq<TcpClientPeer.Action>)
    requires OnePanel(ui)
    ensures OnePanel(RunAll(ui, acts))
    decreases |acts|
  {
    if acts != [] {
      RunAllKeepsOnePanel(Run(ui, acts[0]), acts[1..]);
    }
  }

  /** Whatever callbacks ran before, the last one decides the panels: after a
      disconnect the connect panel is back and the button is enabled again. */
  lemma {:induction false} DisconnectRestoresScreen(ui: Ui, acts: seq<TcpClientPeer.Action>)
    ensures var u := RunAll(ui, acts + [TcpClientPeer.DisconnectedAction]);
      u.connectPanel && !u.drivePanel && u.buttonEnabled && u.status == Disconnected
    decreases |acts|
  {
    if acts == [] {
      assert [TcpClientPeer.DisconnectedAction][1..] == [];
    } else {
      assert (acts + [TcpClientPeer.DisconnectedAction])[1..] == acts[1..] + [TcpClientPeer.DisconnectedAction];
      DisconnectRestoresScreen(Run(ui, acts[0]), acts[1..]);
    }
  }

  // ---------------------------------------------------------------------------
  // The two ends together

  /** The token typed on the client reaches the server's check intact: with
      a trimmed token of at most 16 UTF-8 bytes not ending in a zero byte, the
      server accepts the Hello the client built exactly when the server's
      configured token equals those bytes. */
  lemma {:induction false} TokenAcceptedIffEqual(config: Config, serverToken: seq<Byte>, tokenText: string, deviceName: seq<Byte>)
    requires var bs := Utf8(Trim(tokenText)); |bs| <= Protocol.TOKEN_SIZE && (bs == [] || bs[|bs| - 1] != 0)
    ensures CommandRouter.TrimZeros(HelloFor(config, tokenText, deviceName).token) == serverToken
        <==> serverToken == Utf8(Trim(tokenText))
  {
    PackThenTrim(Utf8(Trim(tokenText)));
  }

  /** Out of the box the two ends cannot shake hands: the token field is
      prefilled with the configured token, and the default one is 17 bytes,
      so the Hello carries only its first 16 and the server, configured with
      the same default, refuses it. */
  lemma {:induction false} DefaultSetupRefused(tokenText: string, deviceName: seq<Byte>)
    requires Utf8(Trim(tokenText)) == DEFAULT_CONFIG.token
    ensures CommandRouter.TrimZeros(HelloFor(DEFAULT_CONFIG, tokenText, deviceName).token) != DEFAULT_CONFIG.token
  {
    DefaultTokenLength();
    PackThenTrim(Utf8(Trim(tokenText)));
  }
}

=== FILE: framing.dfy ===
/** Length-prefixed framing of the TCP control channel, as both receive loops
    perform it (Assets/Server/Scripts/TcpServerPeer.cs, RecvLoop, and
    Assets/Client/Scripts/TcpClientPeer.cs, RecvLoop).

    Each loop reads exactly HEADER_SIZE bytes into a 1400-byte receive buffer,
    decodes the header, then reads exactly `payloadLength` more bytes into the
    same buffer at offset HEADER_SIZE. A read that returns no bytes means the
    peer closed the stream. A payload length above 1400 - 9 = 1391 makes the
    first payload read ask for more room than the buffer has, and the read
    throws before consuming anything.

    `ParseFrames` is the reference definition: it reads the whole byte stream
    frame by frame. `RecvLoop` is the loop itself, with `Stream.Read` returning
    however many bytes a chunk oracle grants, and it is proved to produce the
    same frames for every chunking of the stream. */
module Framing {
  import opened Wrappers
  import opened ByteCodec
  import Protocol

  /** The largest payload the receive buffer can hold after the header. */
  const MAX_PAYLOAD: nat := Protocol.MAX_PACKET_SIZE - HEADER_SIZE

  /** One received frame: its header, its payload, and the receive buffer as
      it stands once the payload has been read (the client decodes from it). */
  datatype Frame = Frame(header: Header, payload: seq<Byte>, buffer: seq<Byte>)

  /** How the receive loop ends: the peer closed the stream (a read returned
      0, possibly in the middle of a frame); a header announced a payload
      that does not fit the buffer and the payload read threw; or a read
      threw for any other reason (the socket's read timeout, a reset
      connection, or the socket closed under the loop by Disconnect). */
  datatype Ending = PeerClosed | Overrun | Failed

  datatype Received = Received(frames: seq<Frame>, ending: Ending)

  /** A message as it travels on the wire: a header and the payload it announces. */
  datatype Wire = Wire(header: Header, payload: seq<Byte>)

  predicate WellFormed(w: Wire) {
    w.header.payloadLength == |w.payload| <= MAX_PAYLOAD
  }

  function Encode(ws: seq<Wire>): (bs: seq<Byte>)
    ensures ws == [] ==> bs == []
  {
    if ws == [] then [] else WriteHeader(ws[0].header) + ws[0].payload + Encode(ws[1..])
  }

  /** The wire messages a run of frames carries, the buffer snapshots dropped. */
  function Messages(fs: seq<Frame>): (ws: seq<Wire>)
    ensures |ws| == |fs|
    ensures forall i | 0 <= i < |fs| :: ws[i] == Wire(fs[i].header, fs[i].payload)
  {
    if fs == [] then [] else [Wire(fs[0].header, fs[0].payload)] + Messages(fs[1..])
  }

  function HeaderOf(bs: seq<Byte>): (h: Header)
    requires HEADER_SIZE <= |bs|
    ensures ReadHeader(bs, 0) == Ok(Read(h, HEADER_SIZE))
  {
    ReadHeader(bs, 0).value.value
  }

  /** ReadHeader looks at nothing but the nine bytes at the offset. */
  lemma HeaderOfPrefix(a: seq<Byte>, b: seq<Byte>)
    requires HEADER_SIZE <= |a| && HEADER_SIZE <= |b|
    requires a[..HEADER_SIZE] == b[..HEADER_SIZE]
    ensures HeaderOf(a) == HeaderOf(b)
  {
    assert a[1..3] == b[1..3] && a[3..7] == b[3..7] && a[7..9] == b[7..9] by {
      assert a[1..3] == a[..HEADER_SIZE][1..3];
      assert b[1..3] == b[..HEADER_SIZE][1..3];
      assert a[3..7] == a[..HEADER_SIZE][3..7];
      assert b[3..7] == b[..HEADER_SIZE][3..7];
      assert a[7..9] == a[..HEADER_SIZE][7..9];
      assert b[7..9] == b[..HEADER_SIZE][7..9];
    }
    assert a[0] == a[..HEADER_SIZE][0];
  }

  /** A frame as the loop leaves it: the buffer holds the header it was
      decoded from and, right after it, the payload the header announced. */
  predicate FrameOk(f: Frame) {
    && |f.buffer| == Protocol.MAX_PACKET_SIZE
    && |f.payload| == f.header.payloadLength <= MAX_PAYLOAD
    && f.buffer[HEADER_SIZE..HEADER_SIZE + |f.payload|] == f.payload
    && HeaderOf(f.buffer) == f.header
  }

  /** The frames a receive loop extracts from `stream`, starting with the
      receive buffer `buf`. */
  function ParseFrames(stream: seq<Byte>, buf: seq<Byte>): (r: Received)
    requires |buf| == Protocol.MAX_PACKET_SIZE
    ensures |r.frames| * HEADER_SIZE <= |stream|
    ensures forall i | 0 <= i < |r.frames| :: |r.frames[i].buffer| == Protocol.MAX_PACKET_SIZE
    ensures r.ending.Overrun? ==> HEADER_SIZE <= |stream|
    decreases |stream|
  {
    if |stream| < HEADER_SIZE then
      Received([], PeerClosed)
    else
      var h := HeaderOf(stream);
      var n := HEADER_SIZE + h.payloadLength;
      if n > Protocol.MAX_PACKET_SIZE then
        Received([], Overrun)
      else if |stream| < n then
        Received([], PeerClosed)
      else
        var buf' := stream[..n] + buf[n..];
        var f := Frame(h, stream[HEADER_SIZE..n], buf');
        var rest := ParseFrames(stream[n..], buf');
        Received([f] + rest.frames, rest.ending)
  }

  /** The loop on a connection whose `Read` throws once `stream` has been
      delivered: the same frames as on a closed stream, but the loop ends by
      the exception instead of a zero read, unless an overrun came first. */
  function CutOff(stream: seq<Byte>, buf: seq<Byte>): (r: Received)
    requires |buf| == Protocol.MAX_PACKET_SIZE
    ensures r.frames == ParseFrames(stream, buf).frames
    ensures !r.ending.PeerClosed?
    ensures r.ending.Overrun? <==> ParseFrames(stream, buf).ending.Overrun?
  {
    var p := ParseFrames(stream, buf);
    Received(p.frames, if p.ending.Overrun? then Overrun else Failed)
  }

  /** Every frame holds its header and payload in its buffer snapshot. */
  lemma {:induction false} ParseFramesOk(stream: seq<Byte>, buf: seq<Byte>)
    requires |buf| == Protocol.MAX_PACKET_SIZE
    ensures forall f <- ParseFrames(stream, buf).frames :: FrameOk(f)
    decreases |stream|
  {
    if HEADER_SIZE <= |stream| {
      var h := HeaderOf(stream);
      var n := HEADER_SIZE + h.payloadLength;
      if n <= Protocol.MAX_PACKET_SIZE && n <= |stream| {
        var buf' := stream[..n] + buf[n..];
        HeaderOfPrefix(buf', stream);
        assert FrameOk(Frame(h, stream[HEADER_SIZE..n], buf'));
        ParseFramesOk(stream[n..], buf');
      }
    }
  }

  /** The encoding of a non-empty run starts with its first message's
      header, then that message's payload, then the rest. */
  lemma EncodeFirst(ws: seq<Wire>)
    requires ws != [] && WellFormed(ws[0])
    ensures HEADER_SIZE + |ws[0].payload| <= |Encode(ws)|
    ensures HeaderOf(Encode(ws)) == ws[0].header
    ensures Encode(ws)[HEADER_SIZE..HEADER_SIZE + |ws[0].payload|] == ws[0].payload
    ensures Encode(ws)[HEADER_SIZE + |ws[0].payload|..] == Encode(ws[1..])
  {
    var w := ws[0];
    var tail := w.payload + Encode(ws[1..]);
    assert Encode(ws) == [] + WriteHeader(w.header) + tail;
    HeaderRoundTrip([], w.header, tail);
  }

  /** Framing inverts encoding: a stream of well-formed messages is read back
      message for message, and the loop ends when the peer closes. */
  lemma {:induction false} ParseEncoded(ws: seq<Wire>, buf: seq<Byte>)
    requires |buf| == Protocol.MAX_PACKET_SIZE
    requires forall i | 0 <= i < |ws| :: WellFormed(ws[i])
    ensures Messages(ParseFrames(Encode(ws), buf).frames) == ws
    ensures ParseFrames(Encode(ws), buf).ending == PeerClosed
    decreases |ws|
  {
    if ws != [] {
      var stream := Encode(ws);
      var n := HEADER_SIZE + |ws[0].payload|;
      EncodeFirst(ws);
      var buf' := stream[..n] + buf[n..];
      ParseStep(stream, buf, buf', n);
      assert buf'[HEADER_SIZE..n] == ws[0].payload;
      ParseEncoded(ws[1..], buf');
      var fs := [Frame(ws[0].header, ws[0].payload, buf')] + ParseFrames(stream[n..], buf').frames;
      assert Messages(fs)[1..] == Messages(fs[1..]);
    }
  }

  /** How many bytes one `Stream.Read` delivers when `want` are asked for,
      `avail` remain in the stream and the network grants `grant`: none once
      the stream is exhausted, otherwise between one and `want`. */
  function ReadCount(avail: nat, want: nat, grant: nat): (n: nat)
    ensures avail == 0 || want == 0 <==> n == 0
    ensures n <= avail && n <= want
  {
    if avail == 0 || want == 0 then 0
    else if grant == 0 then 1
    else if grant < want && grant < avail then grant
    else if want < avail then want
    else avail
  }

  /** Reading `n` more stream bytes into the buffer at offset `o` extends
      the part that mirrors the stream and shrinks the part still holding the
      frame's starting buffer. */
  lemma Splice(buf: seq<Byte>, start: seq<Byte>, s: seq<Byte>, o: nat, n: nat)
    requires |buf| == |start| && o + n <= |buf| && o + n <= |s|
    requires buf[..o] == s[..o] && buf[o..] == start[o..]
    ensures var b := buf[..o] + s[o..o + n] + buf[o + n..];
      |b| == |buf| && b[..o + n] == s[..o + n] && b[o + n..] == start[o + n..]
  {
    var b := buf[..o] + s[o..o + n] + buf[o + n..];
    assert b[..o + n] == s[..o] + s[o..o + n];
    assert s[..o + n] == s[..o] + s[o..o + n];
    assert b[o + n..] == buf[o + n..];
    assert buf[o + n..] == buf[o..][n..];
    assert start[o + n..] == start[o..][n..];
  }

  /** One whole frame at the front of the stream: ParseFrames emits it and
      continues after it with the buffer the loop has filled. */
  lemma ParseStep(s: seq<Byte>, start: seq<Byte>, buf: seq<Byte>, m: nat)
    requires |start| == Protocol.MAX_PACKET_SIZE && HEADER_SIZE <= m <= |s| && m <= |start|
    requires m == HEADER_SIZE + HeaderOf(s).payloadLength
    requires buf == s[..m] + start[m..]
    ensures ParseFrames(s, start) == Prepend([Frame(HeaderOf(s), buf[HEADER_SIZE..m], buf)], ParseFrames(s[m..], buf))
  {
    assert buf[HEADER_SIZE..m] == s[HEADER_SIZE..m];
  }

  /** The three ways the loop stops, as ParseFrames sees them. */
  lemma ParseStops(s: seq<Byte>, b: seq<Byte>)
    requires |b| == Protocol.MAX_PACKET_SIZE
    ensures |s| < HEADER_SIZE ==> ParseFrames(s, b) == Received([], PeerClosed)
    ensures HEADER_SIZE <= |s| && HEADER_SIZE + HeaderOf(s).payloadLength > Protocol.MAX_PACKET_SIZE
      ==> ParseFrames(s, b) == Received([], Overrun)
    ensures HEADER_SIZE <= |s| && |s| < HEADER_SIZE + HeaderOf(s).payloadLength <= Protocol.MAX_PACKET_SIZE
      ==> ParseFrames(s, b) == Received([], PeerClosed)
  {
  }

  /** A stream holding exactly one frame yields that frame, in the receive
      buffer over whatever the buffer held past it, and then the peer's close. */
  lemma {:induction false} ParseSingle(pkt: seq<Byte>, start: seq<Byte>)
    requires |start| == Protocol.MAX_PACKET_SIZE && HEADER_SIZE <= |pkt| <= Protocol.MAX_PACKET_SIZE
    requires |pkt| == HEADER_SIZE + HeaderOf(pkt).payloadLength
    ensures ParseFrames(pkt, start)
         == Received([Frame(HeaderOf(pkt), pkt[HEADER_SIZE..], pkt + start[|pkt|..])], PeerClosed)
  {
    var n := |pkt|;
    var buf := pkt + start[n..];
    assert pkt[..n] == pkt && pkt[n..] == [];
    ParseStep(pkt, start, buf, n);
    ParseStops(pkt[n..], buf);
    assert buf[HEADER_SIZE..n] == pkt[HEADER_SIZE..];
    assert [Frame(HeaderOf(pkt), pkt[HEADER_SIZE..], buf)] + [] == [Frame(HeaderOf(pkt), pkt[HEADER_SIZE..], buf)];
  }

  /** One of the loop's inner read loops: reads into `buf` at offset `o`
      until `want` more bytes of `rest` are there, the k-th read granted
      `grant(k)` bytes. It fails when the stream ends first. */
  method ReadExactly(rest: seq<Byte>, buf: seq<Byte>, o: nat, want: nat, grant: nat -> nat, k0: nat)
    returns (b: seq<Byte>, k: nat, ok: bool)
    requires o + want <= |buf| && o <= |rest| && buf[..o] == rest[..o]
    ensures ok <==> o + want <= |rest|
    ensures ok ==> b == rest[..o + want] + buf[o + want..]
  {
    b, k := buf, k0;
    var got: nat := 0;
    while got < want
      invariant got <= want && o + got <= |rest| && |b| == |buf|
      invariant b[..o + got] == rest[..o + got]
      invariant b[o + got..] == buf[o + got..]
      decreases want - got
    {
      var n := ReadCount(|rest| - (o + got), want - got, grant(k));
      k := k + 1;
      if n == 0 {
        return b, k, false;
      }
      Splice(b, buf, rest, o + got, n);
      b := b[..o + got] + rest[o + got..o + got + n] + b[o + got + n..];
      got := got + n;
    }
    assert b == b[..o + want] + b[o + want..];
    ok := true;
  }

  function Prepend(fs: seq<Frame>, r: Received): Received {
    Received(fs + r.frames, r.ending)
  }

  lemma PrependNil(r: Received)
    ensures Prepend([], r) == r
  {
    assert [] + r.frames == r.frames;
  }

  lemma PrependTwice(fs: seq<Frame>, gs: seq<Frame>, r: Received)
    ensures Prepend(fs, Prepend(gs, r)) == Prepend(fs + gs, r)
  {
    assert fs + (gs + r.frames) == fs + gs + r.frames;
  }

  /** One pass of the outer loop: reads a header, then its payload. Either
      a whole frame of `m` bytes arrives, or the loop stops with `ending`. */
  method ReadFrame(rest: seq<Byte>, start: seq<Byte>, grant: nat -> nat, k0: nat)
    returns (f: Option<Frame>, ending: Ending, m: nat, k: nat)
    requires |start| == Protocol.MAX_PACKET_SIZE
    ensures f.None? ==> ParseFrames(rest, start) == Received([], ending)
    ensures f.Some? ==> HEADER_SIZE <= m <= |rest| && |f.value.buffer| == Protocol.MAX_PACKET_SIZE
    ensures f.Some? ==> ParseFrames(rest, start) == Prepend([f.value], ParseFrames(rest[m..], f.value.buffer))
  {
    ParseStops(rest, start);
    var buf, ok;
    buf, k, ok := ReadExactly(rest, start, 0, HEADER_SIZE, grant, k0);
    if !ok {
      return None, PeerClosed, 0, k;
    }
    HeaderOfPrefix(buf, rest);
    var h := HeaderOf(buf);
    m := HEADER_SIZE + h.payloadLength;
    if m > Protocol.MAX_PACKET_SIZE {
      return None, Overrun, m, k;
    }
    buf, k, ok := ReadExactly(rest, buf, HEADER_SIZE, h.payloadLength, grant, k);
    if !ok {
      return None, PeerClosed, m, k;
    }
    assert buf == rest[..m] + start[m..];
    ParseStep(rest, start, buf, m);
    f := Some(Frame(h, buf[HEADER_SIZE..m], buf));
    ending := PeerClosed;
  }

  /** The receive loop. `grant(k)` is the size the k-th read is cut to by the
      network; the result does not depend on it. */
  method RecvLoop(stream: seq<Byte>, grant: nat -> nat, buf0: seq<Byte>) returns (r: Received)
    requires |buf0| == Protocol.MAX_PACKET_SIZE
    ensures r == ParseFrames(stream, buf0)
  {
    var pos: nat := 0;
    var buf := buf0;
    var frames: seq<Frame> := [];
    var k: nat := 0;
    assert stream[pos..] == stream;
    PrependNil(ParseFrames(stream, buf0));
    while true
      invariant pos <= |stream| && |buf| == Protocol.MAX_PACKET_SIZE
      invariant ParseFrames(stream, buf0) == Prepend(frames, ParseFrames(stream[pos..], buf))
      decreases |stream| - pos
    {
      var rest := stream[pos..];
      var f, ending, m;
      f, ending, m, k := ReadFrame(rest, buf, grant, k);
      if f.None? {
        assert frames + [] == frames;
        return Received(frames, ending);
      }
      var next := stream[pos + m..];
      assert rest[m..] == next;
      ghost var later := ParseFrames(next, f.value.buffer);
      assert ParseFrames(rest, buf) == Prepend([f.value], later);
      PrependTwice(frames, [f.value], later);
      frames := frames + [f.value];
      buf := f.value.buffer;
      pos := pos + m;
      assert stream[pos..] == next;
      assert ParseFrames(stream, buf0) == Prepend(frames, later);
    }
  }
}

=== FILE: message_types.dfy ===
/** The one-byte enumerations of the wire format
    (Assets/_Shared/Net/MessageTypes.cs).

    The C# enums are `byte`-backed and every decoder casts the raw byte without
    checking it, so the messages of the model carry raw bytes; these datatypes
    name the declared codes and relate them to the bytes. */
module MessageTypes {
  import opened Wrappers
  import opened ByteCodec

  /** Message kinds. `Ping` and `Pong` are referenced by the client's keepalive
      (Assets/Client/Scripts/TcpClientPeer.cs) but are NOT declared in the
      enum; the model gives them the codes 10 and 11, outside the declared
      range 0..9. */
  datatype MsgType =
    | Hello | Welcome | Input | State | SetGear | ToggleHeadlights
    | SetIndicator | SetCameraFocus | ResetCar | ServerNotice
    | Ping | Pong

  /** The ten kinds the C# enum declares. */
  predicate Declared(t: MsgType) {
    !t.Ping? && !t.Pong?
  }

  function MsgCode(t: MsgType): (b: Byte)
    ensures Declared(t) <==> b < 10
    ensures t.Ping? ==> b == 10
    ensures t.Pong? ==> b == 11
  {
    match t
    case Hello => 0
    case Welcome => 1
    case Input => 2
    case State => 3
    case SetGear => 4
    case ToggleHeadlights => 5
    case SetIndicator => 6
    case SetCameraFocus => 7
    case ResetCar => 8
    case ServerNotice => 9
    case Ping => 10
    case Pong => 11
  }

  function MsgTypeOf(b: Byte): (r: Option<MsgType>)
    ensures r.Some? <==> b < 12
    ensures r.Some? ==> MsgCode(r.value) == b
  {
    if b == 0 then Some(Hello)
    else if b == 1 then Some(Welcome)
    else if b == 2 then Some(Input)
    else if b == 3 then Some(State)
    else if b == 4 then Some(SetGear)
    else if b == 5 then Some(ToggleHeadlights)
    else if b == 6 then Some(SetIndicator)
    else if b == 7 then Some(SetCameraFocus)
    else if b == 8 then Some(ResetCar)
    else if b == 9 then Some(ServerNotice)
    else if b == 10 then Some(Ping)
    else if b == 11 then Some(Pong)
    else None
  }

  /** Decoding a kind's code gives the kind back, so no two kinds share a code. */
  lemma MsgCodeInjective(t: MsgType, u: MsgType)
    ensures MsgTypeOf(MsgCode(t)) == Some(t)
    ensures MsgCode(t) == MsgCode(u) ==> t == u
  {
  }

  datatype CameraPartId =
    | FLWheel | FRWheel | RLWheel | RRWheel | Engine | Exhaust
    | SteeringLinkage | BrakeCaliperFront | SuspensionFront | Dashboard

  function CameraCode(p: CameraPartId): (b: Byte)
    ensures b < 10
    ensures p.Dashboard? <==> b == 9
  {
    match p
    case FLWheel => 0
    case FRWheel => 1
    case RLWheel => 2
    case RRWheel => 3
    case Engine => 4
    case Exhaust => 5
    case SteeringLinkage => 6
    case BrakeCaliperFront => 7
    case SuspensionFront => 8
    case Dashboard => 9
  }

  function CameraPartOf(b: Byte): (r: Option<CameraPartId>)
    ensures r.Some? <==> b < 10
    ensures r.Some? ==> CameraCode(r.value) == b
  {
    if b == 0 then Some(FLWheel)
    else if b == 1 then Some(FRWheel)
    else if b == 2 then Some(RLWheel)
    else if b == 3 then Some(RRWheel)
    else if b == 4 then Some(Engine)
    else if b == 5 then Some(Exhaust)
    else if b == 6 then Some(SteeringLinkage)
    else if b == 7 then Some(BrakeCaliperFront)
    else if b == 8 then Some(SuspensionFront)
    else if b == 9 then Some(Dashboard)
    else None
  }

  datatype IndicatorMode = Off | Left | Right | Hazard

  function IndicatorCode(m: IndicatorMode): (b: Byte)
    ensures b < 4
    ensures m.Off? <==> b == 0
  {
    match m
    case Off => 0
    case Left => 1
    case Right => 2
    case Hazard => 3
  }

  function IndicatorOf(b: Byte): (r: Option<IndicatorMode>)
    ensures r.Some? <==> b < 4
    ensures r.Some? ==> IndicatorCode(r.value) == b
  {
    if b == 0 then Some(Off)
    else if b == 1 then Some(Left)
    else if b == 2 then Some(Right)
    else if b == 3 then Some(Hazard)
    else None
  }

  /** `[Flags] LightFlags`: None = 0, Headlight = 1. */
  const LIGHTS_NONE: Byte := 0
  const LIGHTS_HEADLIGHT: Byte := 1

  lemma EnumCodesRoundTrip(p: CameraPartId, m: IndicatorMode)
    ensures CameraPartOf(CameraCode(p)) == Some(p)
    ensures IndicatorOf(IndicatorCode(m)) == Some(m)
  {
  }
}

=== FILE: net_config.dfy ===
/** The shared configuration asset (Assets/_Shared/Config/NetConfig.cs) and
    the network endpoint type the peers exchange.

    NetConfig is an editable asset; the model carries it as a value and
    names the defaults the class declares. Strings are carried as their UTF-8
    bytes. */
module NetConfig {
  import opened ByteCodec

  /** An IP endpoint: address bytes and port. */
  datatype Endpoint = Endpoint(address: seq<Byte>, port: U16)

  datatype Config = Config(
    token: seq<Byte>,
    tcpPort: int, udpPortServer: int, udpPortClientListen: int,
    simTickRate: int)

  /** The bytes of a string of ASCII characters, which are its UTF-8 encoding. */
  function Ascii(s: string): (bs: seq<Byte>)
    requires forall i | 0 <= i < |s| :: s[i] as int < 0x80
    ensures |bs| == |s|
    ensures forall i | 0 <= i < |s| :: bs[i] == s[i] as int
  {
    seq(|s|, i requires 0 <= i < |s| => s[i] as int)
  }

  const DEFAULT_TOKEN: seq<Byte> := Ascii("demo-token-123456")

  /** The field initialisers of NetConfig. */
  const DEFAULT_CONFIG := Config(DEFAULT_TOKEN, 9000, 9001, 9002, 50)

  /** The default token is 17 bytes long. */
  lemma DefaultTokenLength()
    ensures |DEFAULT_CONFIG.token| == 17
  {
  }
}

/** The shared clock (Assets/_Shared/Net/StopwatchTime.cs): milliseconds
    since process start, truncated to 32 bits. The elapsed time itself is a
    parameter. */
module StopwatchTime {
  import opened ByteCodec

  function TimestampMs(elapsedMs: nat): (t: U32)
    ensures elapsedMs < 0x1_0000_0000 ==> t == elapsedMs
    ensures (elapsedMs - t) % 0x1_0000_0000 == 0
  {
    elapsedMs % 0x1_0000_0000
  }
}

=== FILE: protocol.dfy ===
/** The message catalog (Assets/_Shared/Net/Protocol.cs).

    Each C# serializer writes its payload at offset HEADER_SIZE of the
    1400-byte send buffer, measures it, and back-fills the header at offset 0;
    its result is the number of bytes of the buffer that form the packet. The
    model returns those bytes. Writing past the end of the send buffer, or
    copying a token shorter than 16 bytes, throws in C#; the model returns
    Err(OutOfBounds) instead. The header timestamp comes from the process clock
    and is a parameter here. */
module Protocol {
  import opened Wrappers
  import opened ByteCodec
  import opened MessageTypes

  const MAX_PACKET_SIZE: nat := 1400
  const TOKEN_SIZE: nat := 16

  datatype HelloC2S = HelloC2S(token: seq<Byte>, clientUdpPort: U16, clientName: seq<Byte>)

  datatype WelcomeS2C = WelcomeS2C(sessionId: U32, simTickRate: Byte, carId: Byte)

  datatype InputC2S = InputC2S(steer: F32, throttle: F32, brake: F32, handbrake: Byte)

  /** `lights`, `indicator` and `cameraPart` are the raw enum bytes. */
  datatype StateS2C = StateS2C(
    position: Vector3, rotation: Quaternion, speedKmh: F32, rpm: F32,
    currentGear: I8, steerAngle: F32,
    wheelSlipFL: F32, wheelSlipFR: F32, wheelSlipRL: F32, wheelSlipRR: F32,
    lights: Byte, indicator: Byte, cameraPart: Byte, lastProcessedInputSeq: U16)

  datatype SetGearC2S = SetGearC2S(gear: I8)

  datatype ToggleHeadlightsC2S = ToggleHeadlightsC2S(on: Byte)

  datatype SetIndicatorC2S = SetIndicatorC2S(mode: Byte)

  datatype SetCameraFocusC2S = SetCameraFocusC2S(partId: Byte)

  datatype ServerNoticeS2C = ServerNoticeS2C(code: Byte, text: seq<Byte>)

  /** The all-zero bit pattern, `0f`. */
  const ZERO_F32 := F32(0, 0, 0, 0)

  /** `default(InputC2S)`. */
  const DEFAULT_INPUT := InputC2S(ZERO_F32, ZERO_F32, ZERO_F32, 0)

  /** A packet whose header announces type `t` and exactly the bytes that
      follow it as payload. */
  predicate Framed(pkt: seq<Byte>, t: MsgType, seqNo: U16, ts: U32)
  {
    && HEADER_SIZE <= |pkt| < HEADER_SIZE + 0x1_0000
    && ReadHeader(pkt, 0) == Ok(Read(Header(MsgCode(t), seqNo, ts, |pkt| - HEADER_SIZE), HEADER_SIZE))
  }

  /** Back-fill the header in front of a measured payload; the packet must fit
      the MAX_PACKET_SIZE send buffer. */
  function Packet(t: MsgType, seqNo: U16, ts: U32, payload: seq<Byte>): (r: Result<seq<Byte>>)
    ensures r.Ok? <==> HEADER_SIZE + |payload| <= MAX_PACKET_SIZE
    ensures r.Ok? ==> Framed(r.value, t, seqNo, ts) && r.value[HEADER_SIZE..] == payload
  {
    if HEADER_SIZE + |payload| <= MAX_PACKET_SIZE then
      var h := WriteHeader(Header(MsgCode(t), seqNo, ts, |payload|));
      HeaderRoundTrip([], Header(MsgCode(t), seqNo, ts, |payload|), payload);
      assert [] + h + payload == h + payload;
      Ok(h + payload)
    else
      Err(OutOfBounds)
  }

  // ---------------------------------------------------------------------------
  // HELLO_C2S

  function HelloPayload(m: HelloC2S): Result<seq<Byte>>
  {
    var token :- WriteFixedBytes(m.token, TOKEN_SIZE);
    Ok(token + WriteUShort(m.clientUdpPort) + WriteString(m.clientName))
  }

  /** Payload = 16 token bytes + u16 port + u16 length + name bytes. */
  function SerializeHello(seqNo: U16, ts: U32, m: HelloC2S): (r: Result<seq<Byte>>)
    ensures r.Ok? <==> |m.token| >= TOKEN_SIZE && HEADER_SIZE + 20 + StringLength(m.clientName) <= MAX_PACKET_SIZE
    ensures r.Ok? ==> Framed(r.value, Hello, seqNo, ts)
    ensures r.Ok? ==> |r.value| == HEADER_SIZE + 20 + StringLength(m.clientName)
  {
    var payload :- HelloPayload(m);
    Packet(Hello, seqNo, ts, payload)
  }

  function DeserializeHello(buf: seq<Byte>, off: nat): (r: Result<HelloC2S>)
    ensures r.Ok? <==> off + 20 <= |buf| && off + 20 + LittleEndian(buf[off + 18..off + 20]) <= |buf|
    ensures r.Ok? ==> r.value.token == buf[off..off + TOKEN_SIZE]
    ensures r.Ok? ==> r.value.clientUdpPort == LittleEndian(buf[off + 16..off + 18])
    ensures r.Ok? ==> r.value.clientName == buf[off + 20..off + 20 + LittleEndian(buf[off + 18..off + 20])]
    ensures r.Ok? ==> |r.value.token| == TOKEN_SIZE
  {
    var token :- ReadFixedBytes(buf, off, TOKEN_SIZE);
    var port :- ReadUShort(buf, token.next);
    var name :- ReadString(buf, port.next);
    Ok(HelloC2S(token.value, port.value, name.value))
  }

  // ---------------------------------------------------------------------------
  // WELCOME_S2C

  function SerializeWelcome(seqNo: U16, ts: U32, m: WelcomeS2C): (r: Result<seq<Byte>>)
    ensures r.Ok? && Framed(r.value, Welcome, seqNo, ts)
    ensures |r.value| == HEADER_SIZE + 6
  {
    Packet(Welcome, seqNo, ts, WriteUInt(m.sessionId) + WriteByte(m.simTickRate) + WriteByte(m.carId))
  }

  function DeserializeWelcome(buf: seq<Byte>, off: nat): (r: Result<WelcomeS2C>)
    ensures r.Ok? <==> off + 6 <= |buf|
  {
    var id :- ReadUInt(buf, off);
    var rate :- ReadByte(buf, id.next);
    var car :- ReadByte(buf, rate.next);
    Ok(WelcomeS2C(id.value, rate.value, car.value))
  }

  // ---------------------------------------------------------------------------
  // INPUT_C2S

  function SerializeInput(seqNo: U16, ts: U32, m: InputC2S): (r: Result<seq<Byte>>)
    ensures r.Ok? && Framed(r.value, Input, seqNo, ts)
    ensures |r.value| == HEADER_SIZE + 13
  {
    Packet(Input, seqNo, ts,
      WriteFloat(m.steer) + WriteFloat(m.throttle) + WriteFloat(m.brake) + WriteByte(m.handbrake))
  }

  function DeserializeInput(buf: seq<Byte>, off: nat): (r: Result<InputC2S>)
    ensures r.Ok? <==> off + 13 <= |buf|
  {
    var steer :- ReadFloat(buf, off);
    var throttle :- ReadFloat(buf, steer.next);
    var brake :- ReadFloat(buf, throttle.next);
    var handbrake :- ReadByte(buf, brake.next);
    Ok(InputC2S(steer.value, throttle.value, brake.value, handbrake.value))
  }

  // ---------------------------------------------------------------------------
  // STATE_S2C

  /** The 62-byte STATE payload, written field by field in declaration
      order; the four groups exist only to keep the proofs about them small. */
  function StatePayload(m: StateS2C): (r: seq<Byte>)
    ensures |r| == 62
  {
    StateMotion(m) + StateDrive(m) + StateSlips(m) + StateFlags(m)
  }

  function StateMotion(m: StateS2C): (r: seq<Byte>)
    ensures |r| == 28
  {
    WriteVector3(m.position) + WriteQuaternion(m.rotation)
  }

  function StateDrive(m: StateS2C): (r: seq<Byte>)
    ensures |r| == 13
  {
    WriteFloat(m.speedKmh) + WriteFloat(m.rpm) + WriteSByte(m.currentGear) + WriteFloat(m.steerAngle)
  }

  function StateSlips(m: StateS2C): (r: seq<Byte>)
    ensures |r| == 16
  {
    WriteFloat(m.wheelSlipFL) + WriteFloat(m.wheelSlipFR) + WriteFloat(m.wheelSlipRL) + WriteFloat(m.wheelSlipRR)
  }

  function StateFlags(m: StateS2C): (r: seq<Byte>)
    ensures |r| == 5
  {
    WriteByte(m.lights) + WriteByte(m.indicator) + WriteByte(m.cameraPart) + WriteUShort(m.lastProcessedInputSeq)
  }

  function SerializeState(seqNo: U16, ts: U32, m: StateS2C): (r: Result<seq<Byte>>)
    ensures r.Ok? && Framed(r.value, State, seqNo, ts)
    ensures |r.value| == HEADER_SIZE + 62
  {
    Packet(State, seqNo, ts, StatePayload(m))
  }

  function DeserializeState(buf: seq<Byte>, off: nat): (r: Result<StateS2C>)
    ensures r.Ok? <==> off + 62 <= |buf|
  {
    var position :- ReadVector3(buf, off);
    var rotation :- ReadQuaternion(buf, position.next);
    var speed :- ReadFloat(buf, rotation.next);
    var rpm :- ReadFloat(buf, speed.next);
    var gear :- ReadSByte(buf, rpm.next);
    var steerAngle :- ReadFloat(buf, gear.next);
    var slipFL :- ReadFloat(buf, steerAngle.next);
    var slipFR :- ReadFloat(buf, slipFL.next);
    var slipRL :- ReadFloat(buf, slipFR.next);
    var slipRR :- ReadFloat(buf, slipRL.next);
    var lights :- ReadByte(buf, slipRR.next);
    var indicator :- ReadByte(buf, lights.next);
    var cameraPart :- ReadByte(buf, indicator.next);
    var lastSeq :- ReadUShort(buf, cameraPart.next);
    Ok(StateS2C(position.value, rotation.value, speed.value, rpm.value, gear.value, steerAngle.value,
                slipFL.value, slipFR.value, slipRL.value, slipRR.value,
                lights.value, indicator.value, cameraPart.value, lastSeq.value))
  }

  // ---------------------------------------------------------------------------
  // The one-byte commands

  function SerializeSetGear(seqNo: U16, ts: U32, m: SetGearC2S): (r: Result<seq<Byte>>)
    ensures r.Ok? && Framed(r.value, SetGear, seqNo, ts)
    ensures |r.value| == HEADER_SIZE + 1
  {
    Packet(SetGear, seqNo, ts, WriteSByte(m.gear))
  }

  function DeserializeSetGear(buf: seq<Byte>, off: nat): (r: Result<SetGearC2S>)
    ensures r.Ok? <==> off + 1 <= |buf|
  {
    var gear :- ReadSByte(buf, off);
    Ok(SetGearC2S(gear.value))
  }

  function SerializeToggleHeadlights(seqNo: U16, ts: U32, m: ToggleHeadlightsC2S): (r: Result<seq<Byte>>)
    ensures r.Ok? && Framed(r.value, ToggleHeadlights, seqNo, ts)
    ensures |r.value| == HEADER_SIZE + 1
  {
    Packet(ToggleHeadlights, seqNo, ts, WriteByte(m.on))
  }

  function DeserializeToggleHeadlights(buf: seq<Byte>, off: nat): (r: Result<ToggleHeadlightsC2S>)
    ensures r.Ok? <==> off + 1 <= |buf|
  {
    var on :- ReadByte(buf, off);
    Ok(ToggleHeadlightsC2S(on.value))
  }

  function SerializeSetIndicator(seqNo: U16, ts: U32, m: SetIndicatorC2S): (r: Result<seq<Byte>>)
    ensures r.Ok? && Framed(r.value, SetIndicator, seqNo, ts)
    ensures |r.value| == HEADER_SIZE + 1
  {
    Packet(SetIndicator, seqNo, ts, WriteByte(m.mode))
  }

  /** The byte is cast to IndicatorMode unchecked: every byte decodes. */
  function DeserializeSetIndicator(buf: seq<Byte>, off: nat): (r: Result<SetIndicatorC2S>)
    ensures r.Ok? <==> off + 1 <= |buf|
    ensures r.Ok? ==> r.value.mode == buf[off]
  {
    var mode :- ReadByte(buf, off);
    Ok(SetIndicatorC2S(mode.value))
  }

  function SerializeSetCameraFocus(seqNo: U16, ts: U32, m: SetCameraFocusC2S): (r: Result<seq<Byte>>)
    ensures r.Ok? && Framed(r.value, SetCameraFocus, seqNo, ts)
    ensures |r.value| == HEADER_SIZE + 1
  {
    Packet(SetCameraFocus, seqNo, ts, WriteByte(m.partId))
  }

  /** The byte is cast to CameraPartId unchecked: every byte decodes. */
  function DeserializeSetCameraFocus(buf: seq<Byte>, off: nat): (r: Result<SetCameraFocusC2S>)
    ensures r.Ok? <==> off + 1 <= |buf|
    ensures r.Ok? ==> r.value.partId == buf[off]
  {
    var part :- ReadByte(buf, off);
    Ok(SetCameraFocusC2S(part.value))
  }

  /** A header-only frame with payloadLength 0. */
  function SerializeResetCar(seqNo: U16, ts: U32): (r: Result<seq<Byte>>)
    ensures r.Ok? && Framed(r.value, ResetCar, seqNo, ts)
    ensures |r.value| == HEADER_SIZE
  {
    Packet(ResetCar, seqNo, ts, [])
  }

  // ---------------------------------------------------------------------------
  // SERVER_NOTICE_S2C

  function SerializeServerNotice(seqNo: U16, ts: U32, m: ServerNoticeS2C): (r: Result<seq<Byte>>)
    ensures r.Ok? <==> HEADER_SIZE + 3 + StringLength(m.text) <= MAX_PACKET_SIZE
    ensures r.Ok? ==> Framed(r.value, ServerNotice, seqNo, ts)
    ensures r.Ok? ==> |r.value| == HEADER_SIZE + 3 + StringLength(m.text)
  {
    Packet(ServerNotice, seqNo, ts, WriteByte(m.code) + WriteString(m.text))
  }

  /** Payload = u8 code + u16 length + text bytes; the text is read only when
      its length is non-zero. */
  function DeserializeServerNotice(buf: seq<Byte>, off: nat): (r: Result<ServerNoticeS2C>)
    ensures r.Ok? <==> off + 3 <= |buf| && off + 3 + LittleEndian(buf[off + 1..off + 3]) <= |buf|
    ensures r.Ok? ==> r.value.code == buf[off]
    ensures r.Ok? ==> r.value.text == buf[off + 3..off + 3 + LittleEndian(buf[off + 1..off + 3])]
  {
    var code :- ReadByte(buf, off);
    var text :- ReadString(buf, code.next);
    Ok(ServerNoticeS2C(code.value, text.value))
  }

  // ---------------------------------------------------------------------------
  // Round trips: deserializing a serialized packet at HEADER_SIZE gives the
  // message back field by field (float bit patterns included).

  /** The packet of a successful Packet call is the header followed by the payload. */
  lemma PacketShape(t: MsgType, seqNo: U16, ts: U32, payload: seq<Byte>)
    requires HEADER_SIZE + |payload| <= MAX_PACKET_SIZE
    ensures Packet(t, seqNo, ts, payload).value
         == WriteHeader(Header(MsgCode(t), seqNo, ts, |payload|)) + payload
  {
  }

  /** The client decodes a Welcome from its whole receive buffer, so whatever
      follows the packet there does not matter. */
  lemma {:induction false} WelcomeRoundTrip(seqNo: U16, ts: U32, m: WelcomeS2C, rest: seq<Byte>)
    ensures DeserializeWelcome(SerializeWelcome(seqNo, ts, m).value + rest, HEADER_SIZE) == Ok(m)
  {
    var f1, f2, f3 := WriteUInt(m.sessionId), WriteByte(m.simTickRate), WriteByte(m.carId);
    PacketShape(Welcome, seqNo, ts, f1 + f2 + f3);
    var h := WriteHeader(Header(MsgCode(Welcome), seqNo, ts, 6));
    var buf := h + (f1 + f2 + f3) + rest;
    UIntRoundTrip(h, m.sessionId, f2 + f3 + rest);
    assert buf == h + f1 + (f2 + f3 + rest);
    ByteRoundTrip(h + f1, m.simTickRate, f3 + rest);
    assert buf == (h + f1) + f2 + (f3 + rest);
    ByteRoundTrip(h + f1 + f2, m.carId, rest);
    assert buf == (h + f1 + f2) + f3 + rest;
  }

  lemma {:induction false} InputRoundTrip(seqNo: U16, ts: U32, m: InputC2S)
    ensures DeserializeInput(SerializeInput(seqNo, ts, m).value, HEADER_SIZE) == Ok(m)
  {
    var f1, f2, f3, f4 := WriteFloat(m.steer), WriteFloat(m.throttle), WriteFloat(m.brake), WriteByte(m.handbrake);
    PacketShape(Input, seqNo, ts, f1 + f2 + f3 + f4);
    var h := WriteHeader(Header(MsgCode(Input), seqNo, ts, 13));
    var buf := h + (f1 + f2 + f3 + f4);
    FloatRoundTrip(h, m.steer, f2 + f3 + f4);
    assert buf == h + f1 + (f2 + f3 + f4);
    FloatRoundTrip(h + f1, m.throttle, f3 + f4);
    assert buf == (h + f1) + f2 + (f3 + f4);
    FloatRoundTrip(h + f1 + f2, m.brake, f4);
    assert buf == (h + f1 + f2) + f3 + f4;
    ByteRoundTrip(h + f1 + f2 + f3, m.handbrake, []);
    assert buf == (h + f1 + f2 + f3) + f4 + [];
  }

  lemma {:induction false} SetGearRoundTrip(seqNo: U16, ts: U32, m: SetGearC2S)
    ensures DeserializeSetGear(SerializeSetGear(seqNo, ts, m).value, HEADER_SIZE) == Ok(m)
  {
    PacketShape(SetGear, seqNo, ts, WriteSByte(m.gear));
    var h := WriteHeader(Header(MsgCode(SetGear), seqNo, ts, 1));
    SByteRoundTrip(h, m.gear, []);
    assert h + WriteSByte(m.gear) + [] == h + WriteSByte(m.gear);
  }

  /** The three remaining one-byte commands carry one raw byte each. */
  lemma {:induction false} OneByteCommandsRoundTrip(seqNo: U16, ts: U32, b: Byte)
    ensures DeserializeToggleHeadlights(SerializeToggleHeadlights(seqNo, ts, ToggleHeadlightsC2S(b)).value, HEADER_SIZE)
         == Ok(ToggleHeadlightsC2S(b))
    ensures DeserializeSetIndicator(SerializeSetIndicator(seqNo, ts, SetIndicatorC2S(b)).value, HEADER_SIZE)
         == Ok(SetIndicatorC2S(b))
    ensures DeserializeSetCameraFocus(SerializeSetCameraFocus(seqNo, ts, SetCameraFocusC2S(b)).value, HEADER_SIZE)
         == Ok(SetCameraFocusC2S(b))
  {
    PacketShape(ToggleHeadlights, seqNo, ts, WriteByte(b));
    PacketShape(SetIndicator, seqNo, ts, WriteByte(b));
    PacketShape(SetCameraFocus, seqNo, ts, WriteByte(b));
  }

  /** The text comes back as the bytes its u16 length prefix covers: all of
      it whenever it is shorter than 65536 bytes. Like a Welcome, a notice is
      decoded from the client's receive buffer, whatever follows the packet. */
  lemma {:induction false} ServerNoticeRoundTrip(seqNo: U16, ts: U32, m: ServerNoticeS2C, rest: seq<Byte>)
    requires HEADER_SIZE + 3 + StringLength(m.text) <= MAX_PACKET_SIZE
    ensures DeserializeServerNotice(SerializeServerNotice(seqNo, ts, m).value + rest, HEADER_SIZE)
         == Ok(ServerNoticeS2C(m.code, m.text[..StringLength(m.text)]))
    ensures |m.text| < 0x1_0000 ==>
      DeserializeServerNotice(SerializeServerNotice(seqNo, ts, m).value + rest, HEADER_SIZE) == Ok(m)
  {
    var f1, f2 := WriteByte(m.code), WriteString(m.text);
    PacketShape(ServerNotice, seqNo, ts, f1 + f2);
    var h := WriteHeader(Header(MsgCode(ServerNotice), seqNo, ts, |f1 + f2|));
    var buf := h + (f1 + f2) + rest;
    ByteRoundTrip(h, m.code, f2 + rest);
    assert buf == h + f1 + (f2 + rest);
    StringRoundTripWrapped(h + f1, m.text, rest);
    assert buf == (h + f1) + f2 + rest;
  }

  /** The token comes back as its first 16 bytes and the name as the bytes the
      u16 length prefix covers; a name under 65536 bytes comes back whole. */
  lemma {:induction false} HelloRoundTrip(seqNo: U16, ts: U32, m: HelloC2S)
    requires |m.token| >= TOKEN_SIZE
    requires HEADER_SIZE + 20 + StringLength(m.clientName) <= MAX_PACKET_SIZE
    ensures DeserializeHello(SerializeHello(seqNo, ts, m).value, HEADER_SIZE)
         == Ok(HelloC2S(m.token[..TOKEN_SIZE], m.clientUdpPort, m.clientName[..StringLength(m.clientName)]))
    ensures |m.clientName| < 0x1_0000 ==>
      DeserializeHello(SerializeHello(seqNo, ts, m).value, HEADER_SIZE)
      == Ok(HelloC2S(m.token[..TOKEN_SIZE], m.clientUdpPort, m.clientName))
  {
    var f1, f2, f3 := m.token[..TOKEN_SIZE], WriteUShort(m.clientUdpPort), WriteString(m.clientName);
    PacketShape(Hello, seqNo, ts, f1 + f2 + f3);
    var h := WriteHeader(Header(MsgCode(Hello), seqNo, ts, |f1 + f2 + f3|));
    var buf := h + (f1 + f2 + f3);
    FixedBytesRoundTrip(h, m.token, TOKEN_SIZE, f2 + f3);
    assert buf == h + f1 + (f2 + f3);
    UShortRoundTrip(h + f1, m.clientUdpPort, f3);
    assert buf == (h + f1) + f2 + f3;
    StringRoundTripWrapped(h + f1 + f2, m.clientName, []);
    assert buf == (h + f1 + f2) + f3 + [];
  }

  /** The three Hello fields written back to back decode at offset 0. */
  lemma {:induction false} HelloFieldsDecode(token: seq<Byte>, port: U16, name: seq<Byte>)
    requires |token| == TOKEN_SIZE
    ensures DeserializeHello(token + WriteUShort(port) + WriteString(name), 0)
         == Ok(HelloC2S(token, port, name[..StringLength(name)]))
  {
    var f2, f3 := WriteUShort(port), WriteString(name);
    var buf := token + f2 + f3;
    FixedBytesRoundTrip([], token, TOKEN_SIZE, f2 + f3);
    assert token[..TOKEN_SIZE] == token;
    assert buf == [] + token + (f2 + f3);
    UShortRoundTrip(token, port, f3);
    StringRoundTripWrapped(token + f2, name, []);
    assert buf == (token + f2) + f3 + [];
  }

  /** The server decodes a Hello from the frame's payload alone, at offset 0. */
  lemma {:induction false} HelloPayloadRoundTrip(seqNo: U16, ts: U32, m: HelloC2S)
    requires |m.token| >= TOKEN_SIZE
    requires HEADER_SIZE + 20 + StringLength(m.clientName) <= MAX_PACKET_SIZE
    ensures DeserializeHello(SerializeHello(seqNo, ts, m).value[HEADER_SIZE..], 0)
         == Ok(HelloC2S(m.token[..TOKEN_SIZE], m.clientUdpPort, m.clientName[..StringLength(m.clientName)]))
  {
    var f1 := m.token[..TOKEN_SIZE];
    assert SerializeHello(seqNo, ts, m).value[HEADER_SIZE..] == f1 + WriteUShort(m.clientUdpPort) + WriteString(m.clientName);
    HelloFieldsDecode(f1, m.clientUdpPort, m.clientName);
  }

  /** The server decodes the one-byte commands from the payload alone. */
  lemma {:induction false} CommandPayloadsRoundTrip(seqNo: U16, ts: U32, gear: I8, b: Byte)
    ensures DeserializeSetGear(SerializeSetGear(seqNo, ts, SetGearC2S(gear)).value[HEADER_SIZE..], 0)
         == Ok(SetGearC2S(gear))
    ensures DeserializeToggleHeadlights(SerializeToggleHeadlights(seqNo, ts, ToggleHeadlightsC2S(b)).value[HEADER_SIZE..], 0)
         == Ok(ToggleHeadlightsC2S(b))
    ensures DeserializeSetIndicator(SerializeSetIndicator(seqNo, ts, SetIndicatorC2S(b)).value[HEADER_SIZE..], 0)
         == Ok(SetIndicatorC2S(b))
    ensures DeserializeSetCameraFocus(SerializeSetCameraFocus(seqNo, ts, SetCameraFocusC2S(b)).value[HEADER_SIZE..], 0)
         == Ok(SetCameraFocusC2S(b))
  {
    SByteRoundTrip([], gear, []);
    assert [] + WriteSByte(gear) + [] == WriteSByte(gear);
  }

  /** Each group of STATE fields reads back wherever it sits in a buffer. */
  lemma {:induction false} StateMotionDecode(p: seq<Byte>, m: StateS2C, s: seq<Byte>)
    ensures var buf := p + StateMotion(m) + s;
      && ReadVector3(buf, |p|) == Ok(Read(m.position, |p| + 12))
      && ReadQuaternion(buf, |p| + 12) == Ok(Read(m.rotation, |p| + 28))
  {
    var f1, f2 := WriteVector3(m.position), WriteQuaternion(m.rotation);
    Vector3RoundTrip(p, m.position, f2 + s);
    assert p + StateMotion(m) + s == p + f1 + (f2 + s);
    QuaternionRoundTrip(p + f1, m.rotation, s);
  }

  lemma {:induction false} StateDriveDecode(p: seq<Byte>, m: StateS2C, s: seq<Byte>)
    ensures var buf := p + StateDrive(m) + s;
      && ReadFloat(buf, |p|) == Ok(Read(m.speedKmh, |p| + 4))
      && ReadFloat(buf, |p| + 4) == Ok(Read(m.rpm, |p| + 8))
      && ReadSByte(buf, |p| + 8) == Ok(Read(m.currentGear, |p| + 9))
      && ReadFloat(buf, |p| + 9) == Ok(Read(m.steerAngle, |p| + 13))
  {
    var f1, f2, f3, f4 := WriteFloat(m.speedKmh), WriteFloat(m.rpm), WriteSByte(m.currentGear), WriteFloat(m.steerAngle);
    var buf := p + StateDrive(m) + s;
    FloatRoundTrip(p, m.speedKmh, f2 + f3 + f4 + s);
    assert buf == p + f1 + (f2 + f3 + f4 + s);
    FloatRoundTrip(p + f1, m.rpm, f3 + f4 + s);
    assert buf == p + f1 + f2 + (f3 + f4 + s);
    SByteRoundTrip(p + f1 + f2, m.currentGear, f4 + s);
    assert buf == p + f1 + f2 + f3 + (f4 + s);
    FloatRoundTrip(p + f1 + f2 + f3, m.steerAngle, s);
  }

  lemma {:induction false} StateSlipsDecode(p: seq<Byte>, m: StateS2C, s: seq<Byte>)
    ensures var buf := p + StateSlips(m) + s;
      && ReadFloat(buf, |p|) == Ok(Read(m.wheelSlipFL, |p| + 4))
      && ReadFloat(buf, |p| + 4) == Ok(Read(m.wheelSlipFR, |p| + 8))
      && ReadFloat(buf, |p| + 8) == Ok(Read(m.wheelSlipRL, |p| + 12))
      && ReadFloat(buf, |p| + 12) == Ok(Read(m.wheelSlipRR, |p| + 16))
  {
    var f1, f2, f3, f4 := WriteFloat(m.wheelSlipFL), WriteFloat(m.wheelSlipFR), WriteFloat(m.wheelSlipRL), WriteFloat(m.wheelSlipRR);
    var buf := p + StateSlips(m) + s;
    FloatRoundTrip(p, m.wheelSlipFL, f2 + f3 + f4 + s);
    assert buf == p + f1 + (f2 + f3 + f4 + s);
    FloatRoundTrip(p + f1, m.wheelSlipFR, f3 + f4 + s);
    assert buf == p + f1 + f2 + (f3 + f4 + s);
    FloatRoundTrip(p + f1 + f2, m.wheelSlipRL, f4 + s);
    assert buf == p + f1 + f2 + f3 + (f4 + s);
    FloatRoundTrip(p + f1 + f2 + f3, m.wheelSlipRR, s);
  }

  lemma {:induction false} StateFlagsDecode(p: seq<Byte>, m: StateS2C, s: seq<Byte>)
    ensures var buf := p + StateFlags(m) + s;
      && ReadByte(buf, |p|) == Ok(Read(m.lights, |p| + 1))
      && ReadByte(buf, |p| + 1) == Ok(Read(m.indicator, |p| + 2))
      && ReadByte(buf, |p| + 2) == Ok(Read(m.cameraPart, |p| + 3))
      && ReadUShort(buf, |p| + 3) == Ok(Read(m.lastProcessedInputSeq, |p| + 5))
  {
    var f1, f2, f3, f4 := WriteByte(m.lights), WriteByte(m.indicator), WriteByte(m.cameraPart), WriteUShort(m.lastProcessedInputSeq);
    var buf := p + StateFlags(m) + s;
    ByteRoundTrip(p, m.lights, f2 + f3 + f4 + s);
    assert buf == p + f1 + (f2 + f3 + f4 + s);
    ByteRoundTrip(p + f1, m.indicator, f3 + f4 + s);
    assert buf == p + f1 + f2 + (f3 + f4 + s);
    ByteRoundTrip(p + f1 + f2, m.cameraPart, f4 + s);
    assert buf == p + f1 + f2 + f3 + (f4 + s);
    UShortRoundTrip(p + f1 + f2 + f3, m.lastProcessedInputSeq, s);
  }

  /** DeserializeState succeeds with `m` wherever the fields of `m` read back
      one after another. */
  lemma {:induction false} StateFieldsDecode(buf: seq<Byte>, off: nat, m: StateS2C)
    requires ReadVector3(buf, off) == Ok(Read(m.position, off + 12))
    requires ReadQuaternion(buf, off + 12) == Ok(Read(m.rotation, off + 28))
    requires ReadFloat(buf, off + 28) == Ok(Read(m.speedKmh, off + 32))
    requires ReadFloat(buf, off + 32) == Ok(Read(m.rpm, off + 36))
    requires ReadSByte(buf, off + 36) == Ok(Read(m.currentGear, off + 37))
    requires ReadFloat(buf, off + 37) == Ok(Read(m.steerAngle, off + 41))
    requires ReadFloat(buf, off + 41) == Ok(Read(m.wheelSlipFL, off + 45))
    requires ReadFloat(buf, off + 45) == Ok(Read(m.wheelSlipFR, off + 49))
    requires ReadFloat(buf, off + 49) == Ok(Read(m.wheelSlipRL, off + 53))
    requires ReadFloat(buf, off + 53) == Ok(Read(m.wheelSlipRR, off + 57))
    requires ReadByte(buf, off + 57) == Ok(Read(m.lights, off + 58))
    requires ReadByte(buf, off + 58) == Ok(Read(m.indicator, off + 59))
    requires ReadByte(buf, off + 59) == Ok(Read(m.cameraPart, off + 60))
    requires ReadUShort(buf, off + 60) == Ok(Read(m.lastProcessedInputSeq, off + 62))
    ensures DeserializeState(buf, off) == Ok(m)
  {
  }

  /** A STATE payload decodes to its message behind any header. */
  lemma {:induction false} StatePayloadDecode(h: seq<Byte>, m: StateS2C)
    requires |h| == HEADER_SIZE
    ensures DeserializeState(h + StatePayload(m), HEADER_SIZE) == Ok(m)
  {
    var g1, g2, g3, g4 := StateMotion(m), StateDrive(m), StateSlips(m), StateFlags(m);
    var buf := h + StatePayload(m);
    assert buf == h + g1 + (g2 + g3 + g4) && buf == h + g1 + g2 + (g3 + g4)
        && buf == h + g1 + g2 + g3 + g4 && buf == h + g1 + g2 + g3 + g4 + [];
    StateMotionDecode(h, m, g2 + g3 + g4);
    StateDriveDecode(h + g1, m, g3 + g4);
    StateSlipsDecode(h + g1 + g2, m, g4);
    StateFlagsDecode(h + g1 + g2 + g3, m, []);
    StateFieldsDecode(buf, HEADER_SIZE, m);
  }

  lemma {:induction false} StateRoundTrip(seqNo: U16, ts: U32, m: StateS2C)
    ensures DeserializeState(SerializeState(seqNo, ts, m).value, HEADER_SIZE) == Ok(m)
  {
    PacketShape(State, seqNo, ts, StatePayload(m));
    StatePayloadDecode(WriteHeader(Header(MsgCode(State), seqNo, ts, 62)), m);
  }

  /** Every fixed-size message fits the 1400-byte packet limit; a Hello fits
      exactly when its (wrapped) name length is at most 1371 bytes. */
  lemma {:induction false} PacketSizeLimits(seqNo: U16, ts: U32, m: HelloC2S)
    requires |m.token| >= TOKEN_SIZE
    ensures SerializeHello(seqNo, ts, m).Ok? <==> StringLength(m.clientName) <= 1371
  {
  }
}

=== FILE: ring_buffer.dfy ===
/** The bounded FIFO handing data between threads (Assets/_Shared/Net/RingBuffer.cs).

    The C# class keeps an array of `capacity` slots and the indices head, tail
    and count under a lock. The model keeps the array as a sequence of fixed
    length and every operation returns the updated buffer; each one is proved
    to act on `Contents()`, the queue the slots represent, as a bounded
    sequence would. The lock only serialises the operations, which the model
    applies one at a time. */
module RingBuffer {

  /** `k % cap` for 0 <= k < 2 * cap: one subtraction at most. */
  lemma ModBelowTwice(k: nat, cap: nat)
    requires 0 < cap && k < 2 * cap
    ensures k % cap == if k < cap then k else k - cap
  {
    if k >= cap {
      assert k == cap + (k - cap);
      assert (k - cap) % cap == k - cap;
    }
  }

  datatype Ring<T> = Ring(slots: seq<T>, head: nat, tail: nat, count: nat, dflt: T)
  {
    function Capacity(): nat {
      |slots|
    }

    /** 0 <= count <= capacity, head and tail index the slots, and tail is
        head advanced by count. With capacity 0 nothing is ever indexed. */
    predicate Valid() {
      && count <= |slots|
      && (|slots| == 0 ==> head == 0 && tail == 0)
      && (|slots| > 0 ==> head < |slots| && tail < |slots| && tail == (head + count) % |slots|)
    }

    /** The queued items, oldest first. */
    function Contents(): (q: seq<T>)
      requires Valid()
      ensures |q| == count
    {
      seq(count, i requires 0 <= i < count => slots[(head + i) % |slots|])
    }

    /** Stores the item at tail and advances tail, unless count has reached
        capacity; then nothing changes and the result is false. */
    function TryEnqueue(item: T): (r: (Ring<T>, bool))
      requires Valid()
      ensures r.0.Valid() && r.0.Capacity() == Capacity() && r.0.dflt == dflt
      ensures r.1 <==> |Contents()| < Capacity()
      ensures r.1 ==> r.0.Contents() == Contents() + [item]
      ensures !r.1 ==> r.0 == this
    {
      if count >= |slots| then
        (this, false)
      else
        var cap := |slots|;
        var r := Ring(slots[tail := item], head, (tail + 1) % cap, count + 1, dflt);
        ModBelowTwice(head + count, cap);
        ModBelowTwice(tail + 1, cap);
        ModBelowTwice(head + count + 1, cap);
        assert r.Valid();
        forall i | 0 <= i < count + 1
          ensures r.Contents()[i] == (Contents() + [item])[i]
        {
          ModBelowTwice(head + i, cap);
        }
        (r, true)
    }

    /** Takes the item at head, clears its slot and advances head; on an empty
        buffer returns false and `default(T)`. */
    function TryDequeue(): (r: (Ring<T>, bool, T))
      requires Valid()
      ensures r.0.Valid() && r.0.Capacity() == Capacity() && r.0.dflt == dflt
      ensures r.1 <==> |Contents()| > 0
      ensures r.1 ==> r.2 == Contents()[0] && r.0.Contents() == Contents()[1..]
      ensures !r.1 ==> r.0 == this && r.2 == dflt
    {
      if count == 0 then
        (this, false, dflt)
      else
        var cap := |slots|;
        var item := slots[head];
        var r := Ring(slots[head := dflt], (head + 1) % cap, tail, count - 1, dflt);
        ModBelowTwice(head + 1, cap);
        ModBelowTwice(head + count, cap);
        ModBelowTwice((head + 1) % cap + count - 1, cap);
        assert r.Valid();
        forall i | 0 <= i < count - 1
          ensures r.Contents()[i] == Contents()[1..][i]
        {
          ModBelowTwice(head + 1 + i, cap);
          ModBelowTwice((head + 1) % cap + i, cap);
        }
        assert Contents()[0] == item by {
          ModBelowTwice(head, cap);
        }
        (r, true, item)
    }

    /** The `Count` property. */
    function Count(): (n: nat)
      requires Valid()
      ensures n == |Contents()| && n <= Capacity()
    {
      count
    }

    /** Resets the indices and writes `default(T)` into every slot. */
    function Clear(): (r: Ring<T>)
      requires Valid()
      ensures r.Valid() && r.Capacity() == Capacity() && r.dflt == dflt
      ensures r.Contents() == []
      ensures forall i | 0 <= i < r.Capacity() :: r.slots[i] == dflt
    {
      Ring(seq(|slots|, _ => dflt), 0, 0, 0, dflt)
    }
  }

  /** `new RingBuffer<T>(capacity)`: `capacity` default slots, all indices 0.
      A negative capacity throws in C# (the array allocation), so the
      parameter is a nat. */
  function Create<T>(capacity: nat, dflt: T): (r: Ring<T>)
    ensures r.Valid() && r.Capacity() == capacity && r.dflt == dflt
    ensures r.Contents() == []
  {
    Ring(seq(capacity, _ => dflt), 0, 0, 0, dflt)
  }

  /** Enqueues `items` in order, each one dropped if the buffer is full when
      it arrives (the producers never retry a failed TryEnqueue). */
  function EnqueueAll<T>(r: Ring<T>, items: seq<T>): (q: Ring<T>)
    requires r.Valid()
    ensures q.Valid() && q.Capacity() == r.Capacity() && q.dflt == r.dflt
    decreases |items|
  {
    if items == [] then r else EnqueueAll(r.TryEnqueue(items[0]).0, items[1..])
  }

  function Min(a: nat, b: nat): nat {
    if a <= b then a else b
  }

  /** With no consumer in between, the buffer ends up holding the oldest
      items that fit and drops every later one. */
  lemma {:induction false} EnqueueAllKeepsOldest<T>(r: Ring<T>, items: seq<T>)
    requires r.Valid()
    ensures EnqueueAll(r, items).Contents()
         == (r.Contents() + items)[..Min(r.Capacity(), |r.Contents()| + |items|)]
    decreases |items|
  {
    if items != [] {
      var (r', ok) := r.TryEnqueue(items[0]);
      EnqueueAllKeepsOldest(r', items[1..]);
      var all := r.Contents() + items;
      if ok {
        assert r'.Contents() + items[1..] == all;
      } else {
        assert all[..|r.Contents()|] == r.Contents();
        assert (r'.Contents() + items[1..])[..|r.Contents()|] == r.Contents();
      }
    }
  }

  /** Draining one item: a successful dequeue moves the oldest item from the
      buffer to the end of what was taken so far. */
  lemma DequeueStep<T>(taken: seq<T>, r: Ring<T>, all: seq<T>)
    requires r.Valid() && taken + r.Contents() == all && r.TryDequeue().1
    ensures taken + [r.TryDequeue().2] + r.TryDequeue().0.Contents() == all
  {
    var (next, _, item) := r.TryDequeue();
    assert r.Contents() == [item] + next.Contents();
  }

  /** The FIFO scenario: with capacity 4, a..d go in, e is refused and the
      buffer is unchanged, a..d come out in order, and then dequeue fails. */
  lemma {:induction false} CapacityFourScenario<T>(a: T, b: T, c: T, d: T, e: T, dflt: T)
    ensures var (r1, ok1) := Create(4, dflt).TryEnqueue(a);
      var (r2, ok2) := r1.TryEnqueue(b);
      var (r3, ok3) := r2.TryEnqueue(c);
      var (r4, ok4) := r3.TryEnqueue(d);
      && ok1 && ok2 && ok3 && ok4 && r4.Contents() == [a, b, c, d]
      && r4.TryEnqueue(e) == (r4, false)
      && var (d1, g1, x1) := r4.TryDequeue();
         var (d2, g2, x2) := d1.TryDequeue();
         var (d3, g3, x3) := d2.TryDequeue();
         var (d4, g4, x4) := d3.TryDequeue();
         && g1 && g2 && g3 && g4 && [x1, x2, x3, x4] == [a, b, c, d]
         && d4.TryDequeue() == (d4, false, dflt)
  {
    var (r1, _) := Create(4, dflt).TryEnqueue(a);
    var (r2, _) := r1.TryEnqueue(b);
    var (r3, _) := r2.TryEnqueue(c);
    var (r4, _) := r3.TryEnqueue(d);
    assert r4.Contents() == [a, b, c, d];
    var (d1, _, _) := r4.TryDequeue();
    assert d1.Contents() == [b, c, d];
    var (d2, _, _) := d1.TryDequeue();
    assert d2.Contents() == [c, d];
    var (d3, _, _) := d2.TryDequeue();
    assert d3.Contents() == [d];
  }
}

=== FILE: simulation.dfy ===
/** The integer side of the server's car controller
    (Assets/Server/Scripts/ServerSimulationController.cs): which inputs it
    accepts, the gear, light and indicator commands, the reset, and the state
    it reports. The physics step (torque, brakes, steering, wheel slip) is
    floating point and is not modelled; its outputs are opaque readings. */
module ServerSimulation {
  import opened ByteCodec
  import opened MessageTypes
  import opened RingBuffer
  import Protocol
  import UdpServerPeer

  /** The rigid body the physics engine moves. */
  datatype Body = Body(position: Vector3, rotation: Quaternion, velocity: Vector3, angularVelocity: Vector3)

  /** What the physics step last computed. */
  datatype Readings = Readings(
    speedKmh: F32, rpm: F32, steerAngle: F32,
    slipFL: F32, slipFR: F32, slipRL: F32, slipRR: F32)

  const ZERO_VECTOR := Vector3(Protocol.ZERO_F32, Protocol.ZERO_F32, Protocol.ZERO_F32)

  /** The controller's fields. `indicator` is the raw byte: SetIndicator casts
      without checking. `lastSeq` and `lastTs` record the last accepted input;
      `resetPosition` and `resetRotation` are the pose captured at start. */
  datatype Sim = Sim(
    gear: I8, headlightsOn: bool, indicator: Byte,
    input: Protocol.InputC2S, lastSeq: U16, lastTs: U32,
    body: Body, resetPosition: Vector3, resetRotation: Quaternion,
    readings: Readings)

  /** The eight gear ratios R, N, 1..6. */
  const GEAR_RATIO_COUNT: nat := 8

  /** The controller as it starts: first gear, lights off, indicator Off, no
      input accepted yet, and the pose of the controller's own transform
      (`startPosition`, `startRotation`) remembered for resets. That transform
      is the car body's pose only when the controller sits on the car's own
      object; the body is left as the physics engine has it. */
  function NewSim(body: Body, startPosition: Vector3, startRotation: Quaternion, readings: Readings): (s: Sim)
    ensures s.gear == 1 && !s.headlightsOn && s.indicator == IndicatorCode(Off)
    ensures s.lastSeq == 0 && s.lastTs == 0 && s.input == Protocol.DEFAULT_INPUT
    ensures s.resetPosition == startPosition && s.resetRotation == startRotation
    ensures s.body == body && s.readings == readings
  {
    Sim(1, false, 0, Protocol.DEFAULT_INPUT, 0, 0, body, startPosition, startRotation, readings)
  }

  // ---------------------------------------------------------------------------
  // Freshness

  /** `(short)(seq - last)`: the 16-bit two's-complement difference. */
  function SeqDelta(seqNo: U16, last: U16): (d: int)
    ensures -0x8000 <= d < 0x8000
    ensures (d - (seqNo - last)) % 0x10000 == 0
  {
    var low := (seqNo - last) % 0x10000;
    if low < 0x8000 then low else low - 0x10000
  }

  /** ApplyInput's test: a newer sequence number, or nothing accepted yet. */
  function Accepts(last: U16, seqNo: U16): (b: bool)
    ensures b <==> last == 0 || 1 <= (seqNo - last) % 0x10000 <= 0x7FFF
  {
    SeqDelta(seqNo, last) > 0 || last == 0
  }

  /** `k` steps after `last` on the 16-bit sequence circle. */
  function Succ(last: U16, k: nat): U16 {
    (last + k) % 0x10000
  }

  /** The reference reading of "newer": `seqNo` lies within the half circle
      of 32767 sequence numbers that follow `last`. */
  predicate Ahead(seqNo: U16, last: U16) {
    exists k: nat | 1 <= k <= 0x7FFF :: Succ(last, k) == seqNo
  }

  /** The freshness rule means what it says: an input is accepted exactly
      when nothing has been accepted yet or it is at most half the sequence
      space ahead of the last accepted one. */
  lemma {:induction false} AcceptsMeansAhead(last: U16, seqNo: U16)
    ensures Accepts(last, seqNo) <==> last == 0 || Ahead(seqNo, last)
  {
    var k := (seqNo - last) % 0x10000;
    assert Succ(last, k) == seqNo;
    if Ahead(seqNo, last) {
      var j: nat :| 1 <= j <= 0x7FFF && Succ(last, j) == seqNo;
      assert j == k;
    }
  }

  /** Of two distinct non-zero sequence numbers that are not exactly half
      the space apart, exactly one is newer than the other; a number is never
      newer than itself. */
  lemma {:induction false} NewerIsAntisymmetric(a: U16, b: U16)
    requires a != 0 && b != 0
    ensures !Accepts(a, a)
    ensures a != b && (a - b) % 0x10000 != 0x8000 ==> (Accepts(a, b) <==> !Accepts(b, a))
    ensures (a - b) % 0x10000 == 0x8000 ==> !Accepts(a, b) && !Accepts(b, a)
  {
    var d := (b - a) % 0x10000;
    var e := (a - b) % 0x10000;
    assert a != b ==> d + e == 0x10000;
  }

  /** The boundary cases: after 100, a repeat and 50 are refused and 150 is
      taken; 0 follows 65535; and while nothing is accepted anything is. */
  lemma FreshnessBoundaries(x: U16)
    ensures !Accepts(100, 100) && !Accepts(100, 50) && Accepts(100, 150)
    ensures Accepts(65535, 0) && Accepts(0, x)
  {
  }

  /** ApplyInput: an accepted input replaces the current input and moves the
      cursor to its sequence number and timestamp; a refused one changes
      nothing. */
  function ApplyInput(s: Sim, input: Protocol.InputC2S, seqNo: U16, ts: U32): (t: Sim)
    ensures Accepts(s.lastSeq, seqNo) ==> t == s.(input := input, lastSeq := seqNo, lastTs := ts)
    ensures !Accepts(s.lastSeq, seqNo) ==> t == s
  {
    if Accepts(s.lastSeq, seqNo) then s.(input := input, lastSeq := seqNo, lastTs := ts) else s
  }

  /** Delivering the same input twice is the same as delivering it once: a
      repeat of a non-zero sequence number is refused, and a repeat of 0 is
      accepted with the same values. */
  lemma {:induction false} ApplyInputIdempotent(s: Sim, input: Protocol.InputC2S, seqNo: U16, ts: U32)
    ensures ApplyInput(ApplyInput(s, input, seqNo, ts), input, seqNo, ts) == ApplyInput(s, input, seqNo, ts)
  {
    var t := ApplyInput(s, input, seqNo, ts);
    if t != s {
      assert t.lastSeq == seqNo && SeqDelta(seqNo, seqNo) == 0;
    }
  }

  /** An accepted sequence number 0 reopens the gate: the next input is
      accepted whatever its sequence number, even an old one. */
  lemma SeqZeroReopens(s: Sim, i0: Protocol.InputC2S, ts0: U32, i1: Protocol.InputC2S, seq1: U16, ts1: U32)
    requires Accepts(s.lastSeq, 0)
    ensures ApplyInput(ApplyInput(s, i0, 0, ts0), i1, seq1, ts1).lastSeq == seq1
  {
  }

  // ---------------------------------------------------------------------------
  // The per-frame drain

  /** At most this many inputs are applied per frame: the loop breaks once
      the counter passes 200. */
  const MAX_INPUTS_PER_FRAME: nat := 201

  /** The inputs `qs` applied in order: only the input and its cursor move,
      and a run that only repeats the current non-zero sequence number
      changes nothing. */
  function ApplyAll(s: Sim, qs: seq<UdpServerPeer.QueuedInput>): (t: Sim)
    ensures t == s.(input := t.input, lastSeq := t.lastSeq, lastTs := t.lastTs)
    ensures s.lastSeq != 0 && (forall i | 0 <= i < |qs| :: qs[i].seqNo == s.lastSeq) ==> t == s
    decreases |qs|
  {
    if qs == [] then s
    else
      var q := qs[|qs| - 1];
      ApplyInput(ApplyAll(s, qs[..|qs| - 1]), q.input, q.seqNo, q.timestamp)
  }

  /** Applying a run of inputs leaves the controls and pose alone, and the
      current input is either the one before or one of the run's, together
      with its own sequence number and timestamp. */
  lemma {:induction false} ApplyAllTakesFromRun(s: Sim, qs: seq<UdpServerPeer.QueuedInput>)
    ensures var t := ApplyAll(s, qs);
      && t == s.(input := t.input, lastSeq := t.lastSeq, lastTs := t.lastTs)
      && ((t.input, t.lastSeq, t.lastTs) == (s.input, s.lastSeq, s.lastTs)
          || exists i | 0 <= i < |qs| :: (t.input, t.lastSeq, t.lastTs) == (qs[i].input, qs[i].seqNo, qs[i].timestamp))
    decreases |qs|
  {
    if qs != [] {
      var init := qs[..|qs| - 1];
      ApplyAllTakesFromRun(s, init);
      var u := ApplyAll(s, init);
      if (u.input, u.lastSeq, u.lastTs) != (s.input, s.lastSeq, s.lastTs) {
        var i :| 0 <= i < |init| && (u.input, u.lastSeq, u.lastTs) == (init[i].input, init[i].seqNo, init[i].timestamp);
        assert init[i] == qs[i];
      }
    }
  }

  /** Update: takes queued inputs oldest first and applies each, stopping
      when the queue is empty or after the 201st. */
  method Update(s: Sim, peer: UdpServerPeer.UdpServer) returns (t: Sim, rest: UdpServerPeer.UdpServer, applied: seq<UdpServerPeer.QueuedInput>)
    requires peer.Valid()
    ensures rest.Valid() && rest.listening == peer.listening && rest.client == peer.client
    ensures rest.queue.Capacity() == peer.queue.Capacity()
    ensures |applied| == Min(|peer.queue.Contents()|, MAX_INPUTS_PER_FRAME)
    ensures applied + rest.queue.Contents() == peer.queue.Contents()
    ensures t == ApplyAll(s, applied)
  {
    t, rest, applied := s, peer, [];
    while true
      invariant rest.Valid() && rest.listening == peer.listening && rest.client == peer.client
      invariant rest.queue.Capacity() == peer.queue.Capacity()
      invariant applied + rest.queue.Contents() == peer.queue.Contents()
      invariant |applied| < MAX_INPUTS_PER_FRAME
      invariant t == ApplyAll(s, applied)
      decreases |rest.queue.Contents()|
    {
      var (next, ok, q) := UdpServerPeer.TryGetLatestInput(rest);
      if !ok {
        assert applied == peer.queue.Contents();
        return;
      }
      DequeueStep(applied, rest.queue, peer.queue.Contents());
      assert (applied + [q])[..|applied|] == applied;
      t := ApplyInput(t, q.input, q.seqNo, q.timestamp);
      applied := applied + [q];
      rest := next;
      if |applied| == MAX_INPUTS_PER_FRAME {
        return;
      }
    }
  }

  // ---------------------------------------------------------------------------
  // Commands

  function Clamp(v: int, lo: int, hi: int): (r: int)
    requires lo <= hi
    ensures lo <= r <= hi
    ensures lo <= v <= hi ==> r == v
    ensures v < lo ==> r == lo
    ensures v > hi ==> r == hi
  {
    if v < lo then lo else if v > hi then hi else v
  }

  /** SetGear: reverse (-1), neutral (0) and gears 1..6 are kept, anything
      else is pulled to the nearer end. */
  function SetGear(s: Sim, gear: I8): (t: Sim)
    ensures -1 <= t.gear <= 6
    ensures -1 <= gear <= 6 ==> t.gear == gear
    ensures gear < -1 ==> t.gear == -1
    ensures gear > 6 ==> t.gear == 6
    ensures t == s.(gear := t.gear)
  {
    s.(gear := Clamp(gear, -1, 6))
  }

  /** The index into the gear ratio table the physics step uses: reverse,
      neutral and the six gears map to 0..7, and out-of-range gears (the field
      is editable) to the nearer end. */
  function GearIndex(gear: I8): (i: nat)
    ensures i < GEAR_RATIO_COUNT
    ensures -1 <= gear <= 6 ==> i == gear + 1
    ensures gear < -1 ==> i == 0
    ensures gear > 6 ==> i == GEAR_RATIO_COUNT - 1
  {
    Clamp(gear + 1, 0, GEAR_RATIO_COUNT - 1)
  }

  /** After SetGear the gear index never needs its clamp: it is the set gear
      plus one, each of -1..6 landing on its own ratio. */
  lemma {:induction false} SetGearIndexExact(s: Sim, gear: I8, other: I8)
    ensures GearIndex(SetGear(s, gear).gear) == SetGear(s, gear).gear + 1
    ensures GearIndex(SetGear(s, gear).gear) == GearIndex(SetGear(s, other).gear)
        ==> SetGear(s, gear).gear == SetGear(s, other).gear
  {
    var g := SetGear(s, gear).gear;
    assert 0 <= g + 1 <= GEAR_RATIO_COUNT - 1;
    var h := SetGear(s, other).gear;
    assert 0 <= h + 1 <= GEAR_RATIO_COUNT - 1;
  }

  function ToggleHeadlights(s: Sim, on: bool): (t: Sim)
    ensures t.headlightsOn == on
    ensures t.(headlightsOn := s.headlightsOn) == s
  {
    s.(headlightsOn := on)
  }

  /** SetIndicator stores the byte unchecked. */
  function SetIndicator(s: Sim, mode: Byte): (t: Sim)
    ensures t.indicator == mode
    ensures t.(indicator := s.indicator) == s
  {
    s.(indicator := mode)
  }

  /** ResetCar: back to the starting pose at rest, first gear, the default
      input and the freshness cursor at 0. The last input timestamp, the
      lights and the indicator are kept. */
  function ResetCar(s: Sim): (t: Sim)
    ensures t.body == Body(s.resetPosition, s.resetRotation, ZERO_VECTOR, ZERO_VECTOR)
    ensures t.gear == 1 && t.input == Protocol.DEFAULT_INPUT && t.lastSeq == 0
    ensures t.lastTs == s.lastTs && t.headlightsOn == s.headlightsOn && t.indicator == s.indicator
    ensures t.resetPosition == s.resetPosition && t.resetRotation == s.resetRotation
    ensures t.readings == s.readings
  {
    s.(body := Body(s.resetPosition, s.resetRotation, ZERO_VECTOR, ZERO_VECTOR),
       gear := 1, input := Protocol.DEFAULT_INPUT, lastSeq := 0)
  }

  /** After a reset the next input is accepted whatever its sequence number,
      so a client that keeps counting is followed at once. */
  lemma ResetAcceptsAnyInput(s: Sim, input: Protocol.InputC2S, seqNo: U16, ts: U32)
    ensures ApplyInput(ResetCar(s), input, seqNo, ts).input == input
  {
  }

  /** The state broadcast to the client. `cameraPart` is the focus the camera
      manager reports. */
  function GetCurrentState(s: Sim, cameraPart: Byte): (r: Protocol.StateS2C)
    ensures r.position == s.body.position && r.rotation == s.body.rotation
    ensures r.currentGear == s.gear && r.lastProcessedInputSeq == s.lastSeq
    ensures r.lights == if s.headlightsOn then LIGHTS_HEADLIGHT else LIGHTS_NONE
    ensures r.indicator == s.indicator && r.cameraPart == cameraPart
  {
    Protocol.StateS2C(
      s.body.position, s.body.rotation, s.readings.speedKmh, s.readings.rpm,
      s.gear, s.readings.steerAngle,
      s.readings.slipFL, s.readings.slipFR, s.readings.slipRL, s.readings.slipRR,
      if s.headlightsOn then LIGHTS_HEADLIGHT else LIGHTS_NONE,
      s.indicator, cameraPart, s.lastSeq)
  }

  /** The client sees the commands take effect: after a gear, headlight and
      indicator command, the broadcast state decodes to the clamped gear,
      Headlight exactly when lights were switched on, the indicator byte as
      sent, and the last accepted input's sequence number. */
  lemma {:induction false} CommandsReachClient(s: Sim, gear: I8, on: bool, mode: Byte, cameraPart: Byte, seqNo: U16, ts: U32)
    ensures var t := SetIndicator(ToggleHeadlights(SetGear(s, gear), on), mode);
      var m := Protocol.DeserializeState(Protocol.SerializeState(seqNo, ts, GetCurrentState(t, cameraPart)).value, HEADER_SIZE).value;
      && m.currentGear == Clamp(gear, -1, 6)
      && (m.lights == LIGHTS_HEADLIGHT <==> on)
      && m.indicator == mode && m.cameraPart == cameraPart
      && m.lastProcessedInputSeq == s.lastSeq
  {
    var t := SetIndicator(ToggleHeadlights(SetGear(s, gear), on), mode);
    Protocol.StateRoundTrip(seqNo, ts, GetCurrentState(t, cameraPart));
  }
}

=== FILE: tcp_client_peer.dfy ===
/** The client end of the TCP control channel (Assets/Client/Scripts/TcpClientPeer.cs).

    The receive thread frames the stream (module Framing) and, for each frame,
    decodes Welcome and ServerNotice messages from its whole 1400-byte receive
    buffer at offset HEADER_SIZE, queueing a callback for the main thread; a
    Pong is only logged and anything else is ignored. When the stream ends,
    an OnDisconnected callback is queued; when the loop dies of an exception
    it is queued only if the peer is still running. The main thread's Update
    runs every queued callback (an exception in one is caught and the next
    one still runs) and, while connected, sends a header-only Ping every three
    seconds. Clock readings are parameters in milliseconds. */
module TcpClientPeer {
  import opened Wrappers
  import opened ByteCodec
  import opened MessageTypes
  import opened RingBuffer
  import Protocol
  import Framing
  import TcpSend

  /** The callbacks the receive thread hands to the main thread. `NoAction`
      is `default(Action)`, a null delegate, which is never queued. */
  datatype Action =
    | WelcomeAction(welcome: Protocol.WelcomeS2C)
    | NoticeAction(notice: Protocol.ServerNoticeS2C)
    | DisconnectedAction
    | NoAction

  /** PING_INTERVAL, 3 seconds, in milliseconds. */
  const PING_INTERVAL_MS: int := 3000

  /** `running` is the `_running` flag, `connected` the socket's state,
      `lastPingMs` the time of the last ping. */
  datatype ClientPeer = ClientPeer(
    running: bool, connected: bool,
    outbound: Ring<seq<Byte>>, actions: Ring<Action>,
    lastPingMs: int)
  {
    predicate Valid() {
      outbound.Valid() && actions.Valid() && actions.dflt == NoAction
    }
  }

  function NewPeer(): (p: ClientPeer)
    ensures p.Valid() && !p.running && !p.connected && p.lastPingMs == 0
    ensures p.outbound.Contents() == [] && p.actions.Contents() == []
    ensures p.outbound.Capacity() == TcpSend.QUEUE_CAPACITY && p.actions.Capacity() == TcpSend.QUEUE_CAPACITY
  {
    ClientPeer(false, false, TcpSend.NewOutbound(), Create(TcpSend.QUEUE_CAPACITY, NoAction), 0)
  }

  /** Connect: ignored while running; otherwise the peer runs and is
      connected, unless the connection attempt fails (`succeeds` false), in
      which case the flag is reset and the socket stays unconnected. */
  function Connect(p: ClientPeer, succeeds: bool): (q: ClientPeer)
    requires p.Valid()
    ensures q.Valid() && q.outbound == p.outbound && q.actions == p.actions
    ensures p.running ==> q == p
    ensures !p.running ==> (q.running <==> succeeds) && (q.connected <==> succeeds)
  {
    if p.running then p
    else if succeeds then p.(running := true, connected := true)
    else p.(running := false, connected := false)
  }

  /** Disconnect: the flag drops and the socket is closed. */
  function Disconnect(p: ClientPeer): (q: ClientPeer)
    requires p.Valid()
    ensures q.Valid() && !q.running && !q.connected
    ensures q.outbound == p.outbound && q.actions == p.actions
  {
    p.(running := false, connected := false)
  }

  /** ProcessMessage for one frame, decoding from the receive buffer `buf`:
      Ok(Some(a)) queues `a`, Ok(None) queues nothing, Err is the decoder's
      exception, which ends the receive loop. */
  function ProcessMessage(msgType: Byte, buf: seq<Byte>): (r: Result<Option<Action>>)
    ensures msgType != MsgCode(Welcome) && msgType != MsgCode(ServerNotice) ==> r == Ok(None)
    ensures msgType == MsgCode(Welcome) ==> (r.Ok? <==> HEADER_SIZE + 6 <= |buf|)
    ensures msgType == MsgCode(ServerNotice) ==> (r.Ok? <==> Protocol.DeserializeServerNotice(buf, HEADER_SIZE).Ok?)
    ensures msgType == MsgCode(ServerNotice) && r.Ok? ==>
      r.value == Some(NoticeAction(Protocol.DeserializeServerNotice(buf, HEADER_SIZE).value))
    ensures r.Ok? && r.value.Some? ==>
      || (msgType == MsgCode(Welcome) && r.value.value.WelcomeAction?)
      || (msgType == MsgCode(ServerNotice) && r.value.value.NoticeAction?)
  {
    if msgType == MsgCode(Welcome) then
      var w :- Protocol.DeserializeWelcome(buf, HEADER_SIZE);
      Ok(Some(WelcomeAction(w)))
    else if msgType == MsgCode(ServerNotice) then
      var n :- Protocol.DeserializeServerNotice(buf, HEADER_SIZE);
      Ok(Some(NoticeAction(n)))
    else
      Ok(None)
  }

  /** The callbacks the receive thread queues, in order, for the frames it
      read and the way it ended; `running` is the flag as the catch block
      sees it. */
  function Callbacks(frames: seq<Framing.Frame>, ending: Framing.Ending, running: bool): (acts: seq<Action>)
    ensures NoAction !in acts
    ensures |acts| <= |frames| + 1
    ensures running ==> acts != [] && acts[|acts| - 1] == DisconnectedAction
    decreases |frames|
  {
    if frames == [] then
      if ending.PeerClosed? || running then [DisconnectedAction] else []
    else
      match ProcessMessage(frames[0].header.msgType, frames[0].buffer)
      case Err(_) => if running then [DisconnectedAction] else []
      case Ok(None) => Callbacks(frames[1..], ending, running)
      case Ok(Some(a)) => [a] + Callbacks(frames[1..], ending, running)
  }

  /** The loop ends cleanly when the peer closes the stream after frames that
      all decode. */
  predicate CleanClose(frames: seq<Framing.Frame>, ending: Framing.Ending) {
    && ending.PeerClosed?
    && forall i | 0 <= i < |frames| :: ProcessMessage(frames[i].header.msgType, frames[i].buffer).Ok?
  }

  /** OnDisconnected is queued at most once and only as the last callback;
      it is queued exactly when the peer is still running or the stream ended
      cleanly. No null callback is ever queued. */
  lemma {:induction false} DisconnectedComesLast(frames: seq<Framing.Frame>, ending: Framing.Ending, running: bool)
    ensures var acts := Callbacks(frames, ending, running);
      && (DisconnectedAction in acts <==> running || CleanClose(frames, ending))
      && (forall i | 0 <= i < |acts| :: acts[i].DisconnectedAction? ==> i == |acts| - 1)
      && NoAction !in acts
    decreases |frames|
  {
    if frames != [] {
      DisconnectedComesLast(frames[1..], ending, running);
      var r := ProcessMessage(frames[0].header.msgType, frames[0].buffer);
      if r.Ok? {
        assert CleanClose(frames, ending) <==> CleanClose(frames[1..], ending) by {
          if CleanClose(frames[1..], ending) {
            forall i | 0 <= i < |frames|
              ensures ProcessMessage(frames[i].header.msgType, frames[i].buffer).Ok?
            {
              if i > 0 { assert frames[i] == frames[1..][i - 1]; }
            }
          }
          if CleanClose(frames, ending) {
            forall i | 0 <= i < |frames| - 1
              ensures ProcessMessage(frames[1..][i].header.msgType, frames[1..][i].buffer).Ok?
            {
              assert frames[1..][i] == frames[i + 1];
            }
          }
        }
      } else {
        assert !CleanClose(frames, ending) by {
          assert !ProcessMessage(frames[0].header.msgType, frames[0].buffer).Ok?;
        }
      }
    }
  }

  /** A read that throws (the 30-second read timeout, a reset, or the socket
      closed by Disconnect) queues OnDisconnected exactly when the peer is
      still running: after Disconnect nothing is queued. */
  lemma {:induction false} FailureDisconnectsIffRunning(frames: seq<Framing.Frame>, running: bool)
    ensures var acts := Callbacks(frames, Framing.Failed, running);
      (DisconnectedAction in acts <==> running)
      && (running ==> acts[|acts| - 1] == DisconnectedAction)
  {
    DisconnectedComesLast(frames, Framing.Failed, running);
  }

  /** The receive thread queueing its callbacks; each one is dropped if the
      queue is full. */
  function RecvLoopCallbacks(p: ClientPeer, received: Framing.Received): (q: ClientPeer)
    requires p.Valid()
    ensures q.Valid() && q.running == p.running && q.connected == p.connected && q.outbound == p.outbound
    ensures var all := p.actions.Contents() + Callbacks(received.frames, received.ending, p.running);
      q.actions.Contents() == all[..Min(p.actions.Capacity(), |all|)]
  {
    var acts := Callbacks(received.frames, received.ending, p.running);
    EnqueueAllKeepsOldest(p.actions, acts);
    p.(actions := EnqueueAll(p.actions, acts))
  }

  /** The server's Welcome reaches the client's main thread: when it is the
      only thing on the stream before the server closes, the client queues
      OnWelcome with that very message, then OnDisconnected. */
  lemma {:induction false} WelcomeDelivered(seqNo: U16, ts: U32, m: Protocol.WelcomeS2C, buf: seq<Byte>, running: bool)
    requires |buf| == Protocol.MAX_PACKET_SIZE
    ensures var r := Framing.ParseFrames(Protocol.SerializeWelcome(seqNo, ts, m).value, buf);
      Callbacks(r.frames, r.ending, running) == [WelcomeAction(m), DisconnectedAction]
  {
    var pkt := Protocol.SerializeWelcome(seqNo, ts, m).value;
    var h := Framing.HeaderOf(pkt);
    assert h == Header(MsgCode(Welcome), seqNo, ts, 6);
    Framing.ParseSingle(pkt, buf);
    Protocol.WelcomeRoundTrip(seqNo, ts, m, buf[|pkt|..]);
    assert ProcessMessage(h.msgType, pkt + buf[|pkt|..]) == Ok(Some(WelcomeAction(m)));
  }

  /** The server sends nothing after WELCOME and never answers PING, so the
      client's read times out: OnWelcome is followed by OnDisconnected while
      the peer is running, and by nothing once Disconnect has cleared it. */
  lemma {:induction false} TimeoutAfterWelcome(seqNo: U16, ts: U32, m: Protocol.WelcomeS2C, buf: seq<Byte>, running: bool)
    requires |buf| == Protocol.MAX_PACKET_SIZE
    ensures var r := Framing.CutOff(Protocol.SerializeWelcome(seqNo, ts, m).value, buf);
      Callbacks(r.frames, r.ending, running)
        == if running then [WelcomeAction(m), DisconnectedAction] else [WelcomeAction(m)]
  {
    var pkt := Protocol.SerializeWelcome(seqNo, ts, m).value;
    var h := Framing.HeaderOf(pkt);
    assert h == Header(MsgCode(Welcome), seqNo, ts, 6);
    Framing.ParseSingle(pkt, buf);
    Protocol.WelcomeRoundTrip(seqNo, ts, m, buf[|pkt|..]);
    assert ProcessMessage(h.msgType, pkt + buf[|pkt|..]) == Ok(Some(WelcomeAction(m)));
  }

  /** Neither way out of the receive loop clears the running flag, so once the
      loop has ended on its own a later Connect is ignored, whatever the
      connection attempt would do: the client cannot reconnect. */
  lemma ReconnectIgnoredAfterLoopEnds(p: ClientPeer, received: Framing.Received, succeeds: bool)
    requires p.Valid() && p.running
    ensures var q := RecvLoopCallbacks(p, received);
      q.running && Connect(q, succeeds) == q
  {
  }

  /** A Welcome frame whose header announces fewer than six payload bytes is
      still decoded from the full receive buffer: the session id comes from
      whatever bytes an earlier, longer frame left there. */
  lemma StaleWelcomeDecodes(buf: seq<Byte>)
    requires |buf| == Protocol.MAX_PACKET_SIZE
    ensures ProcessMessage(MsgCode(Welcome), buf).Ok?
    ensures ProcessMessage(MsgCode(Welcome), buf).value
         == Some(WelcomeAction(Protocol.DeserializeWelcome(buf, HEADER_SIZE).value))
  {
  }

  /** The ping: a header-only frame of type Ping (code 10), sequence number
      0, stamped with the clock in milliseconds, truncated to 32 bits. */
  function PingPacket(nowMs: nat): (pkt: seq<Byte>)
    ensures Protocol.Framed(pkt, Ping, 0, nowMs % 0x1_0000_0000) && |pkt| == HEADER_SIZE
  {
    Protocol.Packet(Ping, 0, nowMs % 0x1_0000_0000, []).value
  }

  function SendMessage(p: ClientPeer, packet: seq<Byte>): (q: ClientPeer)
    requires p.Valid()
    ensures q.Valid() && q.running == p.running && q.connected == p.connected
    ensures q.actions == p.actions && q.lastPingMs == p.lastPingMs
    ensures !p.connected ==> q == p
    ensures p.connected && |p.outbound.Contents()| < p.outbound.Capacity()
        ==> q.outbound.Contents() == p.outbound.Contents() + [packet]
    ensures |p.outbound.Contents()| >= p.outbound.Capacity() ==> q == p
  {
    if !p.connected then p else p.(outbound := TcpSend.SendMessage(true, p.outbound, packet))
  }

  /** Update at time `nowMs`: every queued callback is run, in order, and the
      queue is left empty (a callback that throws is caught and does not stop
      the rest, so all of them are in `ran`); then, while connected and at
      least PING_INTERVAL after the last ping, a ping is sent and the time
      remembered. */
  method Update(p: ClientPeer, nowMs: nat) returns (q: ClientPeer, ran: seq<Action>)
    requires p.Valid()
    ensures q.Valid() && q.running == p.running && q.connected == p.connected
    ensures ran == p.actions.Contents() && q.actions.Contents() == []
    ensures var due := p.connected && nowMs - p.lastPingMs >= PING_INTERVAL_MS;
      && (due ==> q.lastPingMs == nowMs && q.outbound == SendMessage(p, PingPacket(nowMs)).outbound)
      && (!due ==> q.lastPingMs == p.lastPingMs && q.outbound == p.outbound)
  {
    q, ran := p, [];
    while true
      invariant q.Valid() && q.running == p.running && q.connected == p.connected
      invariant q.outbound == p.outbound && q.lastPingMs == p.lastPingMs
      invariant ran + q.actions.Contents() == p.actions.Contents()
      decreases |q.actions.Contents()|
    {
      var (rest, ok, action) := q.actions.TryDequeue();
      if !ok {
        break;
      }
      DequeueStep(ran, q.actions, p.actions.Contents());
      ran := ran + [action];
      q := q.(actions := rest);
    }
    assert ran == p.actions.Contents();
    if q.connected && nowMs - q.lastPingMs >= PING_INTERVAL_MS {
      q := q.(lastPingMs := nowMs);
      q := SendMessage(q, PingPacket(nowMs));
    }
  }
}

=== FILE: tcp_send.dfy ===
/** The sending half both TCP peers share (Assets/Server/Scripts/TcpServerPeer.cs
    and Assets/Client/Scripts/TcpClientPeer.cs, SendMessage and SendLoop).

    `SendMessage` copies a packet into the 128-slot outbound queue if the peer
    is connected and drops it otherwise, or when the queue is full. The send
    thread dequeues packets one at a time and writes each one whole to the
    stream, sleeping 5 ms when the queue is empty. */
module TcpSend {
  import opened ByteCodec
  import opened RingBuffer
  import Framing
  import Protocol

  /** Both TCP peers create their queues with 128 slots. */
  const QUEUE_CAPACITY: nat := 128

  function NewOutbound(): (q: Ring<seq<Byte>>)
    ensures q.Valid() && q.Capacity() == QUEUE_CAPACITY && q.Contents() == []
  {
    Create(QUEUE_CAPACITY, [])
  }

  /** Queues a copy of `packet` when connected; nothing happens otherwise,
      and a full queue drops it silently. */
  function SendMessage(connected: bool, q: Ring<seq<Byte>>, packet: seq<Byte>): (r: Ring<seq<Byte>>)
    requires q.Valid()
    ensures r.Valid() && r.Capacity() == q.Capacity()
    ensures r.Contents()
         == if connected && |q.Contents()| < q.Capacity() then q.Contents() + [packet] else q.Contents()
    ensures !connected || |q.Contents()| >= q.Capacity() ==> r == q
  {
    if !connected then q else q.TryEnqueue(packet).0
  }

  /** The bytes of a run of packets written back to back. */
  function Flatten(ps: seq<seq<Byte>>): (bs: seq<Byte>)
    ensures ps == [] ==> bs == []
  {
    if ps == [] then [] else ps[0] + Flatten(ps[1..])
  }

  lemma {:induction false} FlattenAppend(ps: seq<seq<Byte>>, p: seq<Byte>)
    ensures Flatten(ps + [p]) == Flatten(ps) + p
    decreases |ps|
  {
    if ps != [] {
      assert (ps + [p])[1..] == ps[1..] + [p];
      FlattenAppend(ps[1..], p);
    } else {
      assert [p][1..] == [];
    }
  }

  /** The send thread while the connection lasts, up to the point where the
      queue is empty and it would sleep: every queued packet is written, in
      queue order and unaltered. */
  method SendLoop(q: Ring<seq<Byte>>) returns (rest: Ring<seq<Byte>>, written: seq<Byte>)
    requires q.Valid()
    ensures rest.Valid() && rest.Capacity() == q.Capacity() && rest.Contents() == []
    ensures written == Flatten(q.Contents())
  {
    rest, written := q, [];
    ghost var sent: seq<seq<Byte>> := [];
    while true
      invariant rest.Valid() && rest.Capacity() == q.Capacity()
      invariant sent + rest.Contents() == q.Contents()
      invariant written == Flatten(sent)
      decreases |rest.Contents()|
    {
      var (next, ok, packet) := rest.TryDequeue();
      if !ok {
        assert sent == q.Contents();
        return;
      }
      FlattenAppend(sent, packet);
      DequeueStep(sent, rest, q.Contents());
      sent := sent + [packet];
      written := written + packet;
      rest := next;
    }
  }

  /** The packet the peers build for a wire message: its header, then its payload. */
  function PacketOf(w: Framing.Wire): (p: seq<Byte>)
    ensures |p| == HEADER_SIZE + |w.payload|
  {
    WriteHeader(w.header) + w.payload
  }

  function Packets(ws: seq<Framing.Wire>): (ps: seq<seq<Byte>>)
    ensures |ps| == |ws|
    ensures forall i | 0 <= i < |ws| :: ps[i] == PacketOf(ws[i])
  {
    if ws == [] then [] else [PacketOf(ws[0])] + Packets(ws[1..])
  }

  lemma {:induction false} FlattenPackets(ws: seq<Framing.Wire>)
    ensures Flatten(Packets(ws)) == Framing.Encode(ws)
    decreases |ws|
  {
    if ws != [] {
      assert Packets(ws)[1..] == Packets(ws[1..]);
      FlattenPackets(ws[1..]);
    }
  }

  /** The control channel end to end: up to 128 well-formed messages handed
      to SendMessage on a connected peer with an empty queue are written by
      the send thread as one stream, and the receiving peer's framing reads
      exactly those messages back. */
  lemma {:induction false} ControlChannelDelivers(ws: seq<Framing.Wire>, buf: seq<Byte>)
    requires |ws| <= QUEUE_CAPACITY
    requires forall i | 0 <= i < |ws| :: Framing.WellFormed(ws[i])
    requires |buf| == Protocol.MAX_PACKET_SIZE
    ensures var queued := EnqueueAll(NewOutbound(), Packets(ws)).Contents();
      Framing.Messages(Framing.ParseFrames(Flatten(queued), buf).frames) == ws
  {
    var q := EnqueueAll(NewOutbound(), Packets(ws));
    EnqueueAllKeepsOldest(NewOutbound(), Packets(ws));
    assert [] + Packets(ws) == Packets(ws);
    assert q.Contents() == Packets(ws);
    FlattenPackets(ws);
    Framing.ParseEncoded(ws, buf);
  }
}

=== FILE: tcp_server_peer.dfy ===
/** The server end of the TCP control channel (Assets/Server/Scripts/TcpServerPeer.cs).

    The receive thread turns every frame into a TcpMessage and offers it to
    the 128-slot inbound queue, which drops it when full; the main thread takes
    messages out with TryDequeueMessage. Outbound packets go through the shared
    send path of module TcpSend. The socket itself is represented by the
    endpoint of the connected client, if any. */
module TcpServerPeer {
  import opened Wrappers
  import opened ByteCodec
  import opened RingBuffer
  import Framing
  import Protocol
  import TcpSend
  import opened NetConfig

  /** One inbound message. The C# struct also stores `payloadLength`, which
      is always the length of `payload`. The type byte is kept raw: the
      receive loop casts it to MsgType without checking it. */
  datatype TcpMessage = TcpMessage(msgType: Byte, seqNo: U16, timestampMs: U32, payload: seq<Byte>)

  /** `default(TcpMessage)`, what a failed dequeue hands back. */
  const NO_MESSAGE := TcpMessage(0, 0, 0, [])

  /** `client` is the remote endpoint while a client is connected. */
  datatype ServerPeer = ServerPeer(client: Option<Endpoint>, inbound: Ring<TcpMessage>, outbound: Ring<seq<Byte>>)
  {
    predicate Valid() {
      inbound.Valid() && outbound.Valid() && inbound.dflt == NO_MESSAGE
    }

    predicate IsConnected() {
      client.Some?
    }
  }

  /** A peer before any client has connected. */
  function NewPeer(): (p: ServerPeer)
    ensures p.Valid() && !p.IsConnected()
    ensures p.inbound.Capacity() == TcpSend.QUEUE_CAPACITY && p.inbound.Contents() == []
    ensures p.outbound.Capacity() == TcpSend.QUEUE_CAPACITY && p.outbound.Contents() == []
  {
    ServerPeer(None, Create(TcpSend.QUEUE_CAPACITY, NO_MESSAGE), TcpSend.NewOutbound())
  }

  /** The message the receive loop builds from a frame: the header's fields
      and a copy of the payload bytes. */
  function ToMessage(f: Framing.Frame): (m: TcpMessage)
    ensures Framing.Wire(Header(m.msgType, m.seqNo, m.timestampMs, f.header.payloadLength), m.payload)
         == Framing.Wire(f.header, f.payload)
  {
    TcpMessage(f.header.msgType, f.header.seqNo, f.header.timestampMs, f.payload)
  }

  function ToMessages(fs: seq<Framing.Frame>): (ms: seq<TcpMessage>)
    ensures |ms| == |fs|
    ensures forall i | 0 <= i < |fs| :: ms[i] == ToMessage(fs[i])
  {
    if fs == [] then [] else [ToMessage(fs[0])] + ToMessages(fs[1..])
  }

  /** The receive thread delivering the frames it has read. */
  function Receive(p: ServerPeer, frames: seq<Framing.Frame>): (q: ServerPeer)
    requires p.Valid()
    ensures q.Valid() && q.client == p.client && q.outbound == p.outbound
    ensures q.inbound.Capacity() == p.inbound.Capacity()
    ensures var all := p.inbound.Contents() + ToMessages(frames);
      q.inbound.Contents() == all[..Min(p.inbound.Capacity(), |all|)]
  {
    EnqueueAllKeepsOldest(p.inbound, ToMessages(frames));
    p.(inbound := EnqueueAll(p.inbound, ToMessages(frames)))
  }

  /** Hands the main thread the oldest queued message, if there is one. */
  function TryDequeueMessage(p: ServerPeer): (r: (ServerPeer, bool, TcpMessage))
    requires p.Valid()
    ensures r.0.Valid() && r.0.client == p.client && r.0.outbound == p.outbound
    ensures r.1 <==> p.inbound.Contents() != []
    ensures r.1 ==> r.2 == p.inbound.Contents()[0] && r.0.inbound.Contents() == p.inbound.Contents()[1..]
    ensures !r.1 ==> r.0 == p && r.2 == NO_MESSAGE
  {
    var (q, ok, m) := p.inbound.TryDequeue();
    (p.(inbound := q), ok, m)
  }

  function SendMessage(p: ServerPeer, packet: seq<Byte>): (q: ServerPeer)
    requires p.Valid()
    ensures q.Valid() && q.client == p.client && q.inbound == p.inbound
    ensures !p.IsConnected() ==> q == p
    ensures p.IsConnected() && |p.outbound.Contents()| < p.outbound.Capacity()
        ==> q.outbound.Contents() == p.outbound.Contents() + [packet]
    ensures |p.outbound.Contents()| >= p.outbound.Capacity() ==> q == p
  {
    if !p.IsConnected() then p else p.(outbound := TcpSend.SendMessage(true, p.outbound, packet))
  }

  /** The remote endpoint while connected, null otherwise. */
  function GetClientEndpoint(p: ServerPeer): (r: Option<Endpoint>)
    ensures r.Some? <==> p.IsConnected()
    ensures r.Some? ==> p.client == Some(r.value)
  {
    p.client
  }

  /** What the server receives from a client that sends up to 128 well-formed
      messages on a fresh connection before the main thread looks: the inbound
      queue holds exactly those messages, in order, payloads intact. */
  lemma {:induction false} InboundReceivesAll(ws: seq<Framing.Wire>, stream: seq<Byte>, buf: seq<Byte>)
    requires |ws| <= TcpSend.QUEUE_CAPACITY
    requires forall i | 0 <= i < |ws| :: Framing.WellFormed(ws[i])
    requires stream == Framing.Encode(ws) && |buf| == Protocol.MAX_PACKET_SIZE
    ensures var q := Receive(NewPeer(), Framing.ParseFrames(stream, buf).frames).inbound.Contents();
      && |q| == |ws|
      && forall i | 0 <= i < |ws| ::
           q[i] == TcpMessage(ws[i].header.msgType, ws[i].header.seqNo, ws[i].header.timestampMs, ws[i].payload)
  {
    var frames := Framing.ParseFrames(stream, buf).frames;
    Framing.ParseEncoded(ws, buf);
    var ms := ToMessages(frames);
    assert [] + ms == ms;
    forall i | 0 <= i < |ws|
      ensures ms[i] == TcpMessage(ws[i].header.msgType, ws[i].header.seqNo, ws[i].header.timestampMs, ws[i].payload)
    {
      assert Framing.Messages(frames)[i] == ws[i];
    }
  }
}

=== FILE: udp_client_peer.dfy ===
/** The client end of the UDP state channel (Assets/Client/Scripts/UdpClientPeer.cs).

    The receive thread keeps only the most recent STATE datagram: it
    overwrites the stored state and timestamp with no sequence check, and
    measures the ping as the 32-bit difference between the local clock and
    the state's timestamp. Datagrams shorter than a header are skipped and
    other types are ignored; a STATE datagram too short to decode throws
    inside the loop's one try block and ends it. The main thread sees the
    stored state only once its timestamp is non-zero.

    Socket creation and address parsing are the two steps of StartClient
    that can fail; their outcomes are parameters. */
module UdpClientPeer {
  import opened Wrappers
  import opened ByteCodec
  import opened MessageTypes
  import opened NetConfig
  import Protocol

  /** `default(StateS2C)`: every field zero. */
  const DEFAULT_STATE := Protocol.StateS2C(
    Vector3(Protocol.ZERO_F32, Protocol.ZERO_F32, Protocol.ZERO_F32),
    Quaternion(Protocol.ZERO_F32, Protocol.ZERO_F32, Protocol.ZERO_F32, Protocol.ZERO_F32),
    Protocol.ZERO_F32, Protocol.ZERO_F32, 0, Protocol.ZERO_F32,
    Protocol.ZERO_F32, Protocol.ZERO_F32, Protocol.ZERO_F32, Protocol.ZERO_F32,
    0, 0, 0, 0)

  /** `running` is the flag StartClient sets and Stop clears, `socketOpen`
      whether a bound socket exists, `listening` whether the receive thread is
      still in its loop, `server` the endpoint datagrams go to (never cleared
      once set). `latest` and `latestTs` are the last STATE and its header
      timestamp, `lastPingMs` the last measured round trip. */
  datatype UdpClient = UdpClient(
    running: bool, socketOpen: bool, listening: bool, server: Option<Endpoint>,
    latest: Protocol.StateS2C, latestTs: U32, lastPingMs: U32)

  const NEW_CLIENT := UdpClient(false, false, false, None, DEFAULT_STATE, 0, 0)

  /** What the two fallible steps of StartClient do: binding the local port
      and parsing the server address (None when it does not parse). */
  datatype StartOutcome = StartOutcome(bindSucceeds: bool, serverAddress: Option<seq<Byte>>)

  /** StartClient: a second start while running is ignored. Otherwise the
      running flag is raised before anything can fail, the socket is bound to
      `udpPortClientListen`, the server endpoint is the parsed address on
      `udpPortServer` (a port outside 0..65535 throws), and the receive thread
      is started. A failure in any step is caught and logged and leaves the
      flag raised. */
  function StartClient(c: UdpClient, config: Config, outcome: StartOutcome): (d: UdpClient)
    ensures c.running ==> d == c
    ensures !c.running ==> d.running
    ensures !c.running ==>
      (d.listening <==> outcome.bindSucceeds && outcome.serverAddress.Some? && 0 <= config.udpPortServer < 0x1_0000)
    ensures !c.running && d.listening ==>
      d.socketOpen && d.server == Some(Endpoint(outcome.serverAddress.value, config.udpPortServer))
    ensures d.latest == c.latest && d.latestTs == c.latestTs && d.lastPingMs == c.lastPingMs
  {
    if c.running then c
    else if !outcome.bindSucceeds then c.(running := true, listening := false)
    else if outcome.serverAddress.None? || !(0 <= config.udpPortServer < 0x1_0000) then
      c.(running := true, socketOpen := true, listening := false)
    else
      c.(running := true, socketOpen := true, listening := true,
         server := Some(Endpoint(outcome.serverAddress.value, config.udpPortServer)))
  }

  /** Stop: clears the flag, closes the socket and waits for the receive
      thread. The server endpoint is kept. */
  function Stop(c: UdpClient): (d: UdpClient)
    ensures !d.running && !d.socketOpen && !d.listening
    ensures d.server == c.server && d.latest == c.latest && d.latestTs == c.latestTs
  {
    c.(running := false, socketOpen := false, listening := false)
  }

  /** The receive thread handling one datagram at local time `nowMs`. */
  function OnDatagram(c: UdpClient, data: seq<Byte>, nowMs: U32): (d: UdpClient)
    ensures !(c.running && c.listening) || |data| < HEADER_SIZE || data[0] != MsgCode(State) ==> d == c
    ensures c.running && c.listening && HEADER_SIZE <= |data| && data[0] == MsgCode(State) ==>
      if |data| < HEADER_SIZE + 62 then
        d == c.(listening := false)
      else
        var ts := ReadHeader(data, 0).value.value.timestampMs;
        && d == c.(latest := Protocol.DeserializeState(data, HEADER_SIZE).value, latestTs := ts,
                   lastPingMs := (nowMs - ts) % 0x1_0000_0000)
        && (nowMs >= ts ==> d.lastPingMs == nowMs - ts)
  {
    if !(c.running && c.listening) || |data| < HEADER_SIZE then c
    else
      var h := ReadHeader(data, 0).value.value;
      if h.msgType != MsgCode(State) then c
      else
        match Protocol.DeserializeState(data, HEADER_SIZE)
        case Err(_) => c.(listening := false)
        case Ok(state) =>
          c.(latest := state, latestTs := h.timestampMs,
             lastPingMs := (nowMs - h.timestampMs) % 0x1_0000_0000)
  }

  /** The main thread's view: the stored state once a non-zero timestamp
      has been recorded, the all-zero state and false before. */
  function TryGetLatestState(c: UdpClient): (r: (bool, Protocol.StateS2C))
    ensures r.0 <==> c.latestTs != 0
    ensures r.1 == if r.0 then c.latest else DEFAULT_STATE
  {
    if c.latestTs > 0 then (true, c.latest) else (false, DEFAULT_STATE)
  }

  /** The datagram Send puts on the wire, if any: nothing without a server
      endpoint, nothing once the socket is closed or when `length` exceeds the
      data (the socket throws, and the exception is caught). */
  function Send(c: UdpClient, data: seq<Byte>, length: nat): (r: Option<(Endpoint, seq<Byte>)>)
    ensures r.Some? <==> c.server.Some? && c.socketOpen && length <= |data|
    ensures r.Some? ==> r.value == (c.server.value, data[..length])
  {
    if c.server.None? || !c.socketOpen || length > |data| then None
    else Some((c.server.value, data[..length]))
  }

  /** A STATE packet the server serialized with a non-zero timestamp is what
      the main thread reads next, and the ping is the clock difference. */
  lemma {:induction false} StateDelivered(c: UdpClient, seqNo: U16, ts: U32, m: Protocol.StateS2C, nowMs: U32)
    requires c.running && c.listening && 0 < ts <= nowMs
    ensures var d := OnDatagram(c, Protocol.SerializeState(seqNo, ts, m).value, nowMs);
      TryGetLatestState(d) == (true, m) && d.lastPingMs == nowMs - ts && d.listening
  {
    Protocol.StateRoundTrip(seqNo, ts, m);
  }

  /** There is no ordering check: of two STATE packets the one that arrives
      last wins, even when its sequence number and timestamp are older. */
  lemma {:induction false} LastArrivalWins(c: UdpClient, seq1: U16, ts1: U32, m1: Protocol.StateS2C,
                                           seq2: U16, ts2: U32, m2: Protocol.StateS2C, now1: U32, now2: U32)
    requires c.running && c.listening && ts2 != 0
    ensures var d := OnDatagram(OnDatagram(c, Protocol.SerializeState(seq1, ts1, m1).value, now1),
                                Protocol.SerializeState(seq2, ts2, m2).value, now2);
      TryGetLatestState(d) == (true, m2) && d.latestTs == ts2
  {
    Protocol.StateRoundTrip(seq1, ts1, m1);
    Protocol.StateRoundTrip(seq2, ts2, m2);
  }

  /** A state stamped with timestamp 0 (the server's first 1 ms, or a clock
      that wrapped to exactly 0) is stored but never shown to a fresh client. */
  lemma {:induction false} ZeroTimestampHidden(seqNo: U16, m: Protocol.StateS2C, nowMs: U32, config: Config, addr: seq<Byte>)
    requires 0 <= config.udpPortServer < 0x1_0000
    ensures var c := StartClient(NEW_CLIENT, config, StartOutcome(true, Some(addr)));
      var d := OnDatagram(c, Protocol.SerializeState(seqNo, 0, m).value, nowMs);
      d.latest == m && TryGetLatestState(d) == (false, DEFAULT_STATE)
  {
    Protocol.StateRoundTrip(seqNo, 0, m);
  }

  /** A start that failed leaves the running flag raised, so every later
      start is ignored until Stop: the client can neither send nor receive. */
  lemma FailedStartIsFinal(config: Config, addr: Option<seq<Byte>>, later: StartOutcome, data: seq<Byte>, length: nat)
    ensures var c := StartClient(NEW_CLIENT, config, StartOutcome(false, addr));
      var d := StartClient(c, config, later);
      d == c && d.running && !d.listening && Send(d, data, length).None?
  {
  }
}

=== FILE: udp_server_peer.dfy ===
/** The server end of the UDP input channel (Assets/Server/Scripts/UdpServerPeer.cs).

    The receive thread looks at each datagram in turn: a simulated drop
    discards it, one shorter than a header is skipped, and only INPUT
    datagrams are decoded, queued with their header's sequence number and
    timestamp (or dropped when the 128-slot queue is full), and used to learn
    the client's endpoint if none is known yet. The loop sits inside one
    try block, so a decoding exception (an INPUT datagram shorter than 22
    bytes) ends it for good. The random draw for the simulated drop is a
    parameter. */
module UdpServerPeer {
  import opened Wrappers
  import opened ByteCodec
  import opened MessageTypes
  import opened RingBuffer
  import opened NetConfig
  import Protocol

  /** What the C# struct QueuedInput holds. */
  datatype QueuedInput = QueuedInput(input: Protocol.InputC2S, seqNo: U16, timestamp: U32)

  /** `default(QueuedInput)`. */
  const NO_INPUT := QueuedInput(Protocol.DEFAULT_INPUT, 0, 0)

  const INPUT_QUEUE_CAPACITY: nat := 128

  /** A result of `Random.Next(100)`. */
  type Draw = x: int | 0 <= x < 100

  /** `listening` is true while the receive loop is alive, `socketOpen`
      while the bound socket is (a failed bind closes it in Cleanup; the
      receive loop ending does not), `client` the endpoint states are sent
      to, `dropPercent` the debug setting. */
  datatype UdpServer = UdpServer(
    listening: bool, socketOpen: bool, client: Option<Endpoint>, queue: Ring<QueuedInput>, dropPercent: int)
  {
    predicate Valid() {
      queue.Valid() && queue.dflt == NO_INPUT && (listening ==> socketOpen)
    }
  }

  /** Start: the server listens exactly when binding its port succeeds
      (`bindSucceeds`); a failed bind goes through Cleanup and leaves the
      receive loop unstarted. */
  function NewServer(dropPercent: int, bindSucceeds: bool): (s: UdpServer)
    ensures s.Valid() && s.client.None? && s.dropPercent == dropPercent
    ensures s.listening <==> bindSucceeds
    ensures s.socketOpen <==> bindSucceeds
    ensures s.queue.Capacity() == INPUT_QUEUE_CAPACITY && s.queue.Contents() == []
  {
    UdpServer(bindSucceeds, bindSucceeds, None, Create(INPUT_QUEUE_CAPACITY, NO_INPUT), dropPercent)
  }

  /** A server whose bind failed has no receive loop: no datagram ever
      changes it. */
  lemma FailedBindReceivesNothing(dropPercent: int, data: seq<Byte>, from: Endpoint, draw: Draw)
    ensures var s := NewServer(dropPercent, false);
      !s.listening && OnDatagram(s, data, from, draw) == s
  {
  }

  /** The simulated drop fires when the setting is positive and the draw
      falls below it. */
  predicate Dropped(dropPercent: int, draw: Draw) {
    dropPercent > 0 && draw < dropPercent
  }

  /** A datagram the loop gets as far as decoding: at least a header, of
      type INPUT. */
  predicate IsInput(data: seq<Byte>) {
    HEADER_SIZE <= |data| && data[0] == MsgCode(Input)
  }

  /** The receive loop handling one datagram `data` from `from`. */
  function OnDatagram(s: UdpServer, data: seq<Byte>, from: Endpoint, draw: Draw): (t: UdpServer)
    requires s.Valid()
    ensures t.Valid() && t.dropPercent == s.dropPercent && t.queue.Capacity() == s.queue.Capacity()
    ensures t.socketOpen == s.socketOpen
    ensures !s.listening || Dropped(s.dropPercent, draw) || !IsInput(data) ==> t == s
    ensures s.listening && !Dropped(s.dropPercent, draw) && IsInput(data) ==>
      if |data| < HEADER_SIZE + 13 then
        t == s.(listening := false)
      else
        var h := ReadHeader(data, 0).value.value;
        var q := QueuedInput(Protocol.DeserializeInput(data, HEADER_SIZE).value, h.seqNo, h.timestampMs);
        && t.listening
        && t.queue.Contents()
           == (if |s.queue.Contents()| < s.queue.Capacity() then s.queue.Contents() + [q] else s.queue.Contents())
        && t.client == (if s.client.None? then Some(from) else s.client)
  {
    if !s.listening || Dropped(s.dropPercent, draw) || |data| < HEADER_SIZE then s
    else
      var h := ReadHeader(data, 0).value.value;
      if h.msgType != MsgCode(Input) then s
      else
        match Protocol.DeserializeInput(data, HEADER_SIZE)
        case Err(_) => s.(listening := false)
        case Ok(input) =>
          var queue := s.queue.TryEnqueue(QueuedInput(input, h.seqNo, h.timestampMs)).0;
          var client := if s.client.None? then Some(from) else s.client;
          s.(queue := queue, client := client)
  }

  /** The main thread takes the oldest queued input, or gets false with the
      default input, sequence number 0 and timestamp 0. */
  function TryGetLatestInput(s: UdpServer): (r: (UdpServer, bool, QueuedInput))
    requires s.Valid()
    ensures r.0.Valid() && r.0.listening == s.listening && r.0.socketOpen == s.socketOpen && r.0.client == s.client
    ensures r.0.dropPercent == s.dropPercent && r.0.queue.Capacity() == s.queue.Capacity()
    ensures r.1 <==> s.queue.Contents() != []
    ensures r.1 ==> r.2 == s.queue.Contents()[0] && r.0.queue.Contents() == s.queue.Contents()[1..]
    ensures !r.1 ==> r.0 == s && r.2 == NO_INPUT
  {
    var (q, ok, item) := s.queue.TryDequeue();
    (s.(queue := q), ok, item)
  }

  /** Binds the endpoint states go to, replacing any learned one. */
  function SetClientEndpoint(s: UdpServer, address: seq<Byte>, port: U16): (t: UdpServer)
    ensures t.client == Some(Endpoint(address, port))
    ensures t.listening == s.listening && t.socketOpen == s.socketOpen
    ensures t.queue == s.queue && t.dropPercent == s.dropPercent
  {
    s.(client := Some(Endpoint(address, port)))
  }

  /** The datagram Send puts on the wire, if any: none without a client
      endpoint; none when the socket is closed or `length` exceeds the data
      (the socket throws, and the exception is caught). */
  function Send(s: UdpServer, data: seq<Byte>, length: nat): (r: Option<(Endpoint, seq<Byte>)>)
    ensures r.Some? <==> s.socketOpen && s.client.Some? && length <= |data|
    ensures r.Some? ==> r.value.0 == s.client.value && r.value.1 == data[..length]
  {
    if s.client.None? || !s.socketOpen || length > |data| then None else Some((s.client.value, data[..length]))
  }

  /** After a failed bind the socket is closed, so no state ever reaches the
      client, even once a Hello has bound its endpoint. */
  lemma FailedBindSendsNothing(dropPercent: int, address: seq<Byte>, port: U16, data: seq<Byte>, length: nat)
    ensures Send(SetClientEndpoint(NewServer(dropPercent, false), address, port), data, length).None?
  {
  }

  /** A truncated INPUT ends the receive loop but leaves the socket open:
      states still go out to a known client. */
  lemma {:induction false} SendAfterLoopEnds(s: UdpServer, data: seq<Byte>, from: Endpoint, draw: Draw, out: seq<Byte>)
    requires s.Valid() && s.listening && !Dropped(s.dropPercent, draw)
    requires IsInput(data) && |data| < HEADER_SIZE + 13
    ensures var t := OnDatagram(s, data, from, draw);
      !t.listening && (t.client.Some? ==> Send(t, out, |out|) == Some((t.client.value, out)))
  {
    assert out[..|out|] == out;
  }

  /** An INPUT packet the client serialized reaches the main thread intact:
      unless dropped, it is queued with its own sequence number and timestamp
      when there is room. */
  lemma {:induction false} InputDelivered(s: UdpServer, seqNo: U16, ts: U32, m: Protocol.InputC2S, from: Endpoint, draw: Draw)
    requires s.Valid() && s.listening && !Dropped(s.dropPercent, draw)
    requires |s.queue.Contents()| < s.queue.Capacity()
    ensures OnDatagram(s, Protocol.SerializeInput(seqNo, ts, m).value, from, draw).queue.Contents()
         == s.queue.Contents() + [QueuedInput(m, seqNo, ts)]
  {
    var pkt := Protocol.SerializeInput(seqNo, ts, m).value;
    Protocol.InputRoundTrip(seqNo, ts, m);
    assert ReadHeader(pkt, 0).value.value == Header(MsgCode(Input), seqNo, ts, 13);
  }

  /** With the drop setting at 0 no datagram is ever dropped; at 100 every
      one is. */
  lemma DropSettingBounds(draw: Draw)
    ensures !Dropped(0, draw)
    ensures Dropped(100, draw)
  {
  }

  /** A truncated INPUT datagram (a header and fewer than 13 payload bytes)
      stops the receive loop, and every later datagram is then ignored. */
  lemma {:induction false} ShortInputStopsLoop(s: UdpServer, data: seq<Byte>, from: Endpoint, draw: Draw,
                                               later: seq<Byte>, from2: Endpoint, draw2: Draw)
    requires s.Valid() && s.listening && !Dropped(s.dropPercent, draw)
    requires IsInput(data) && |data| < HEADER_SIZE + 13
    ensures var t := OnDatagram(s, data, from, draw);
      !t.listening && OnDatagram(t, later, from2, draw2) == t
  {
  }

  /** The endpoint is learned from the first INPUT datagram even when the
      queue is full and the input itself is dropped. */
  lemma {:induction false} EndpointLearnedWhenFull(s: UdpServer, data: seq<Byte>, from: Endpoint, draw: Draw)
    requires s.Valid() && s.listening && !Dropped(s.dropPercent, draw) && s.client.None?
    requires IsInput(data) && HEADER_SIZE + 13 <= |data|
    requires |s.queue.Contents()| == s.queue.Capacity()
    ensures var t := OnDatagram(s, data, from, draw);
      t.client == Some(from) && t.queue.Contents() == s.queue.Contents()
  {
  }
}

=== FILE: wrappers.dfy ===
/** Failure-compatible result and option types shared by every module of the model.

    The C# code signals a read or a copy past the end of a byte array with an
    exception (IndexOutOfRangeException, ArgumentException,
    ArgumentOutOfRangeException). The model turns every such exception into
    Err(OutOfBounds), so that callers which catch it can be modelled as well. */
module Wrappers {

  datatype Option<+T> = None | Some(value: T)

  /** The only fault the codec can raise: an access beyond the end of a buffer. */
  datatype Fault = OutOfBounds

  datatype Result<+T> = Ok(value: T) | Err(error: Fault) {

    predicate IsFailure() {
      Err?
    }

    function PropagateFailure<U>(): Result<U>
      requires Err?
    {
      Err(error)
    }

    function Extract(): T
      requires Ok?
    {
      value
    }
  }
}
